=== FILE: README.md ===
# fmbot decision core, modelled in Dafny

This project models the decision logic at the core of fmbot, a Discord bot
for Last.fm listening statistics. It covers:

- **The "also playing" presence feature.** A per-user cache keeps each
  user's last play for fifteen minutes. It accepts a track only when the
  track is playing now or was played in the last eight minutes. Three
  readers scan a server's members, skip the requester, and describe in one
  sentence who else is listening to the same track, album or artist. The
  artist reader adds a ten-minute recency window. Modules:
  `RecentPlayCache` and `Presence`.
- **The album WhoKnows commands** (module `AlbumWhoKnows`):
  - how the search text becomes an artist and album (the `featured`
    keyword, the `" | "` separator, free text, the user's current track);
  - how the lookup's answers become a reply;
  - for the server, global and friends leaderboards: the description, the
    "nobody" sentinels, the listener/total/average line and the footer
    notes, each on its own condition and in one fixed order.
- **The chart service** (module `Chart`):
  - the option parser `SetSettings` (flags and the `WxH` size pattern);
  - the lines `AddSettingsToDescription` appends;
  - the tile size;
  - the integer layout of the placement loop, which draws the filtered
    images row by row and counts NSFW and censored images.
- **The static commands** (module `StaticCommands`): the countdown's clamp,
  cooldown and message sequence; the help command's prefix stripping; the
  self-hosting test; the supporter list's type suffix.
- **The play slash commands** (module `PlaySlash`): the per-channel `/fm`
  cooldown, and the caps on `/recent` (10) and `/overview` (8).
- **The slash-command gate** (module `InteractionHandler`): the ordered
  checks before a command runs (blocked user, disabled command, username,
  session, guild-only, member index), and `CommandDisabled`.
- **The artist models** (module `ArtistModels`): the record types and the
  `ArtistSearch` constructor.

The countdown and `/fm` each keep their own static pair of cooldown lists
(`StaticCommands.cs:38-39` holds users, `PlaySlashCommands.cs:30-31` holds
user ids), so a use of one never touches the other's state. The cooldown
logic the two have in common is modelled once, in module `Cooldown`, over
two parallel lists of targets and times, and each command passes its own
pair; the users are identified by their ids.

Support modules:

- `Wrappers` (`Option`);
- `Text` (ASCII lower-casing, search, split, join, replace, decimal text);
- `Arith` (C#'s truncating division and a few multiplication facts).

Clocks are integer parameters:

- The presence cache, the album commands and the interaction gate count
  seconds.
- The cooldown lists count milliseconds, so that the sub-second
  truncation of C#'s `(int)TimeSpan.TotalSeconds` is visible.

Random draws also become parameters (`hintRoll`, `tipRoll`). So do the
services the core calls but does not contain:

- the list renderer;
- the member and privacy filters;
- the insert-or-replace of the requester's own row;
- Last.fm's album-info and search calls;
- the "time ago" renderer and the plural words.

## Model

| member | source | states |
|---|---|---|
| RecentPlayCache.AddRecentPlayToCache | src/FMBot.Bot/Services/WhoKnows/WhoKnowsPlayService.cs:32-47 | A track is stored only when it is playing now or was played strictly within the last eight minutes. The stored record carries the names as given, the user id, and the play time (the write time when there is none). It expires fifteen minutes after the write. No other user's entry changes. |
| RecentPlayCache.Lookup | src/FMBot.Bot/Services/WhoKnows/WhoKnowsPlayService.cs:61 | A cache read returns the stored play exactly when the user has an entry whose absolute expiry has not been reached. |
| RecentPlayCache.AcceptedPlayIsRecent | src/FMBot.Bot/Services/WhoKnows/WhoKnowsPlayService.cs:34-43 | A cached play belongs to its user. It is timestamped with the write time when the track had no time. A play that is not "now playing" is younger than eight minutes at the write. |
| RecentPlayCache.ReadYourWrite | src/FMBot.Bot/Services/WhoKnows/WhoKnowsPlayService.cs:45 | For fifteen minutes after an accepted write, the writer's lookup sees exactly that play, whatever was cached before. |
| RecentPlayCache.ExpiresAfterLifetime | src/FMBot.Bot/Services/WhoKnows/WhoKnowsPlayService.cs:45 | From fifteen minutes after the write on, the entry is gone. |
| RecentPlayCache.WriteIsolation | src/FMBot.Bot/Services/WhoKnows/WhoKnowsPlayService.cs:45 | A write under one user's key never changes what another user's lookup returns, at any time. |
| RecentPlayCache.NormalizedTrack | src/FMBot.Bot/Services/WhoKnows/WhoKnowsPlayService.cs:38-40 | The track with its artist, album and track names lower-cased. Its other fields are unchanged, and a missing album stays missing. |
| RecentPlayCache.RecordPlay | src/FMBot.Bot/Services/WhoKnows/WhoKnowsPlayService.cs:32-47 | The corrected write (see Findings). It has the same acceptance rule, key and expiry as the write as written. The artist, album and track names are stored lower-cased, and a missing album stays missing. The stored record carries the user id and the play time (the write time when there is none). |
| RecentPlayCache.LastAcceptedAt | src/FMBot.Bot/Services/WhoKnows/WhoKnowsPlayService.cs:34 | The position of the last accepted event of the user: none exactly when no event of the user is accepted; otherwise an accepted event of the user after which none of theirs is accepted. |
| RecentPlayCache.LastAccepted | src/FMBot.Bot/Services/WhoKnows/WhoKnowsPlayService.cs:34 | There is no chosen event exactly when the write rule accepts no event of the user. Otherwise the chosen event is one the rule accepts for the user, and no later event of the user is accepted. |
| RecentPlayCache.LastWriteWins | src/FMBot.Bot/Services/WhoKnows/WhoKnowsPlayService.cs:32-47 | After any sequence of writes, a user's lookup shows the last accepted write for that user while it is under fifteen minutes old, and nothing after that. With no accepted write for that user, it shows the original cache. Other users' writes never matter. |
| Presence.FindAlsoPlaying | src/FMBot.Bot/Services/WhoKnows/WhoKnowsPlayService.cs:56-68 | Every member the scan reports is a server member other than the requester. The member has a live entry that matches the lower-cased query, and the reported play is that entry. |
| Presence.FindAlsoPlayingComplete | src/FMBot.Bot/Services/WhoKnows/WhoKnowsPlayService.cs:59-68 | The scan misses nobody: every member who is also playing is reported. |
| Presence.FindAlsoPlayingKeepsOrder | src/FMBot.Bot/Services/WhoKnows/WhoKnowsPlayService.cs:59 | The reported members keep the server's member order. |
| Presence.Describe | src/FMBot.Bot/Services/WhoKnows/WhoKnowsPlayService.cs:75-86 | The four sentence forms: one match names the member and says how long ago; two and three matches list the names; more than three list the first three names and the count of the others. |
| Presence.GuildAlsoPlaying | src/FMBot.Bot/Services/WhoKnows/WhoKnowsPlayService.cs:51-73 | No server, no member list or an empty one gives no sentence. Otherwise there is a sentence exactly when some member other than the requester is also playing. The sentence describes the matching members in member order, using the query's kind word. |
| Presence.GuildAlsoPlayingTrack | src/FMBot.Bot/Services/WhoKnows/WhoKnowsPlayService.cs:49-87 | There is a sentence exactly when another member's live entry has the lower-cased artist and track. The sentence is the "track" sentence for the members that match. |
| Presence.GuildAlsoPlayingAlbum | src/FMBot.Bot/Services/WhoKnows/WhoKnowsPlayService.cs:89-127 | There is a sentence exactly when another member's live entry has the lower-cased artist and album. The sentence is the "album" sentence for the members that match. |
| Presence.GuildAlsoPlayingArtist | src/FMBot.Bot/Services/WhoKnows/WhoKnowsPlayService.cs:129-167 | There is a sentence exactly when another member's live entry has the lower-cased artist and was played in the last ten minutes. The sentence is the "artist" sentence for the members that match. |
| Presence.OnlySingleMatchMentionsTime | src/FMBot.Bot/Services/WhoKnows/WhoKnowsPlayService.cs:75-86 | With two or more matches, the sentence depends only on the matched members. The play times and the time-ago rendering make no difference. |
| Presence.ManyMatchesShowFirstThree | src/FMBot.Bot/Services/WhoKnows/WhoKnowsPlayService.cs:83-84 | With more than three matches, only the first three names and the total count matter. |
| Presence.SentenceStartsWithFirstFound | src/FMBot.Bot/Services/WhoKnows/WhoKnowsPlayService.cs:75-84 | Every sentence opens with the first member found. |
| Presence.TwoMatchesScenario | src/FMBot.Bot/Services/WhoKnows/WhoKnowsPlayService.cs:79-80 | Two matches, "Alice" and "Bob", give "Alice and Bob were also recently listening to this artist!". |
| Presence.FiveMatchesScenario | src/FMBot.Bot/Services/WhoKnows/WhoKnowsPlayService.cs:83-84 | Five matches A to E give "A, B, C and 2 others were also recently listening to this album!". |
| Presence.RequesterAloneGivesNothing | src/FMBot.Bot/Services/WhoKnows/WhoKnowsPlayService.cs:59 | The requester is never reported, even when their own entry matches. |
| Presence.CapitalisedArtistNeverMatches | src/FMBot.Bot/Services/WhoKnows/WhoKnowsPlayService.cs:63 | As written, a cached artist name with a capital letter never equals any lower-cased query. |
| Presence.CapitalisedArtistExample | src/FMBot.Bot/Services/WhoKnows/WhoKnowsPlayService.cs:38 | As written, "Radiohead" is cached while another member asks about "Radiohead", and the artist reader finds nobody. |
| Presence.RecordedPlayIsFoundAnyCase | src/FMBot.Bot/Services/WhoKnows/WhoKnowsPlayService.cs:63 | With the corrected write, a member whose current track was recorded is found for fifteen minutes. Any query that spells the artist and track the same up to case finds them. |
| Presence.RecordedAlbumIsFoundAnyCase | src/FMBot.Bot/Services/WhoKnows/WhoKnowsPlayService.cs:103 | With the corrected write, a member whose current track with an album was recorded is found by the album reader for fifteen minutes. Any query that spells the artist and album the same up to case finds them. |
| AlbumWhoKnows.ResolveSearch | src/FMBot.Bot/Commands/LastFM/AlbumCommands.cs:750-766 | A blank search uses the current track. A search containing " \| " (after "featured" is expanded) names the artist before the first separator. The album is the text after it, up to the next separator if there is one; this is the second piece of `Split(" \| ")`. Anything else is free text, taken as typed. |
| AlbumWhoKnows.FeaturedSearch | src/FMBot.Bot/Commands/LastFM/AlbumCommands.cs:754-757 | "featured", in any case, searches for the featured artist and album (names without a bar). |
| AlbumWhoKnows.TypedPairSearch | src/FMBot.Bot/Commands/LastFM/AlbumCommands.cs:758-766 | "{artist} \| {album}" with no bar in either name searches for exactly that artist and album. |
| AlbumWhoKnows.SplitPair | src/FMBot.Bot/Commands/LastFM/AlbumCommands.cs:765-766 | "{a} \| {b}" with no bar in either part splits into exactly [a, b]. |
| AlbumWhoKnows.SearchAlbum | src/FMBot.Bot/Commands/LastFM/AlbumCommands.cs:768-880 | An album is found only when the lookup the search led to returned it. A typed pair with missing parameters gives "not found", and another failure or missing content gives a Last.fm error. A free-text search without hits gives "not found", and a failed one gives an error. With hits, the album is found exactly when the first hit's details exist. A failed recent-tracks call sends its own reply and ends the search with nothing further. A current track without an album gives "not found". With an album, it is found exactly when the lookup succeeded with content, and otherwise "not found" is replied. |
| AlbumWhoKnows.ExplicitSearchLooksUpTypedNames | src/FMBot.Bot/Commands/LastFM/AlbumCommands.cs:758-793 | A typed pair is decided by that one album lookup alone. The album is found exactly when the lookup succeeded with content, and it is that content. |
| AlbumWhoKnows.FreeTextSearchUsesFirstHit | src/FMBot.Bot/Commands/LastFM/AlbumCommands.cs:847-869 | A free-text search that returns hits answers with the first hit's details, when those exist. |
| AlbumWhoKnows.AggregateOf | src/FMBot.Bot/Commands/LastFM/AlbumCommands.cs:298-307 | The aggregate line appears exactly when more than one listener is shown. It carries the listener count, the total, and the mean truncated toward zero. |
| AlbumWhoKnows.SumWithin | src/FMBot.Bot/Commands/LastFM/AlbumCommands.cs:301 | When every play count lies between lo and hi, the total lies between n·lo and n·hi. |
| AlbumWhoKnows.AverageWithinRange | src/FMBot.Bot/Commands/LastFM/AlbumCommands.cs:302-306 | The shown average lies between the smallest and the largest play count. |
| AlbumWhoKnows.AggregateScenario | src/FMBot.Bot/Commands/LastFM/AlbumCommands.cs:298-307 | Play counts 100, 75 and 50 give three listeners, 225 in total and 75 on average. |
| AlbumWhoKnows.LineAt | src/FMBot.Bot/Commands/LastFM/AlbumCommands.cs:289-327 | Each footer position holds at most one line, of that position's kind. |
| AlbumWhoKnows.LinesFaithful | src/FMBot.Bot/Commands/LastFM/AlbumCommands.cs:289-327 | The footer's lines come in one fixed order. A line is there exactly when the footer carries that note. |
| AlbumWhoKnows.RenderAppendOnly | src/FMBot.Bot/Commands/LastFM/AlbumCommands.cs:289-327 | The footer starts with its header and grows only: each note adds at least its line break. |
| AlbumWhoKnows.StatsLineScenario | src/FMBot.Bot/Commands/LastFM/AlbumCommands.cs:304-306 | The aggregate line for 3 listeners and 225 plays reads "3 listeners - 225 total plays - 75 avg plays". |
| AlbumWhoKnows.Merged | src/FMBot.Bot/Commands/LastFM/AlbumCommands.cs:273-276 | When the requester's play count is known and the merge applies, the rows are those of the add-or-replace service. Otherwise the rows are unchanged. |
| AlbumWhoKnows.Description | src/FMBot.Bot/Commands/LastFM/AlbumCommands.cs:280-284 | An empty list shows the sentinel. Otherwise the rendered list is shown. |
| AlbumWhoKnows.MembersWithRequester | src/FMBot.Bot/Commands/LastFM/AlbumCommands.cs:264-267 | A member list that already holds the requester's id is kept as it is. Otherwise the requester is appended at the end. Either way the requester is then listed. |
| AlbumWhoKnows.RequesterDoesNotChangePresence | src/FMBot.Bot/Services/WhoKnows/WhoKnowsPlayService.cs:99 | Adding the requester at the end of the member list never changes the presence scan. |
| AlbumWhoKnows.PresenceIgnoresAddedRequester | src/FMBot.Bot/Commands/LastFM/AlbumCommands.cs:264-267 | So the server leaderboard's "also listening" sentence is the one for the member list as stored. |
| AlbumWhoKnows.ServerWhoKnows | src/FMBot.Bot/Commands/LastFM/AlbumCommands.cs:271-327 | Server leaderboard. The description shows the filtered rows (or the server sentinel). The footer notes each follow their own condition: the re-index hint on a random draw with an index older than 30 days; the aggregate; the filtered-user count only without a whitelist role; the whitelist note exactly with one, so never both; and the album presence sentence. No global or friends note appears. |
| AlbumWhoKnows.GlobalPrivacyLevel | src/FMBot.Bot/Commands/LastFM/AlbumCommands.cs:423-434 | The global list shows names at server level exactly for an admin view in a special server, and is never rendered at the private level. |
| AlbumWhoKnows.GlobalWhoKnows | src/FMBot.Bot/Commands/LastFM/AlbumCommands.cs:407-479 | Global leaderboard. The requester's count is merged whenever the command runs in a server, whether or not the server has a stored record. Server members are shown, and the admin view can apply, only with a stored record. The global sentinel appears when nobody is left. The footer carries the aggregate, the presence sentence, the admin-view warning, the not-globally-visible hint (exactly when the user is not global), and the hidden-private-users note. |
| AlbumWhoKnows.GlobalOutsideServer | src/FMBot.Bot/Commands/LastFM/AlbumCommands.cs:409-459 | Outside a server (no server, so no stored record), nothing is merged. The global list is the filtered rows as indexed, rendered at the global level, and there is no presence line. |
| AlbumWhoKnows.GlobalInServerWithoutRecord | src/FMBot.Bot/Commands/LastFM/AlbumCommands.cs:407-420 | In a server without a stored record, a known play count is still merged before the global filter. The description and the aggregate line use those merged, filtered rows at the global level. |
| AlbumWhoKnows.HiddenFriendCount | src/FMBot.Bot/Commands/LastFM/AlbumCommands.cs:592 | Counts the friends without a bot account. The count is zero exactly when every friend has an account, and equals the list length exactly when none has. |
| AlbumWhoKnows.HiddenFriendCountAppend | src/FMBot.Bot/Commands/LastFM/AlbumCommands.cs:592 | The count of a concatenation is the sum of the counts of its parts. |
| AlbumWhoKnows.HiddenFriendCountOne | src/FMBot.Bot/Commands/LastFM/AlbumCommands.cs:592 | One friend counts one exactly when they have no user id. With HiddenFriendCountAppend this pins the count to the number of friends without an id. |
| AlbumWhoKnows.FriendsWhoKnows | src/FMBot.Bot/Commands/LastFM/AlbumCommands.cs:548-610 | A user without friends is told so before any search. A stopped search ends the command. Otherwise the friends sentinel or list is shown, with the hidden-friends line only when some friend has no account, then the requester line and the aggregate. |
| Chart.Side | src/FMBot.Bot/Services/ChartService.cs:534 | A side of the size pattern is a value from 1 to 50. |
| Chart.SizeOf | src/FMBot.Bot/Services/ChartService.cs:534-541 | A size option matched case-insensitively and split at its x gives two sides between 1 and 50. An accepted option, lower-cased and without a final line feed, is exactly the decimal text of the two sides joined by "x". |
| Chart.SizeOfShape | src/FMBot.Bot/Services/ChartService.cs:534-541 | An option the size reader accepts is, lower-cased and without a final line feed, the decimal text of its two sides around an "x". |
| Chart.SizeOfAnyCase | src/FMBot.Bot/Services/ChartService.cs:534-541 | The match ignores case and a final line feed: every option that is "{w}x{h}" with sides in 1..50, up to the case of its x and a final line feed, reads as (w, h). |
| Chart.SizeOptionAnyCase | src/FMBot.Bot/Services/ChartService.cs:532-541 | Every such option of at most five characters passes the size loop's filter. |
| Chart.AnyCaseScenario | src/FMBot.Bot/Services/ChartService.cs:532-541 | "5x8" with a final line feed reads as 5 by 8, and "5X8" is a size option. |
| Chart.SideIsDecimal | src/FMBot.Bot/Services/ChartService.cs:539 | Every side the pattern accepts is the decimal text of its value, so int.TryParse reads that value back and its default is never used. |
| Chart.SizeRoundTrip | src/FMBot.Bot/Services/ChartService.cs:532-544 | Writing any size from 1x1 to 50x50 as "{w}x{h}" gives an option the loop accepts, which reads back as that size. |
| Chart.LastWhere | src/FMBot.Bot/Services/ChartService.cs:532-546 | The chosen option is one of the options, and it satisfies the test. |
| Chart.LastSize | src/FMBot.Bot/Services/ChartService.cs:532-546 | The size from the last size option lies between 1 and 50 on each side. |
| Chart.LastSizeNone | src/FMBot.Bot/Services/ChartService.cs:529-546 | There is no size exactly when no option is a size option. |
| Chart.ApplyFlags | src/FMBot.Bot/Services/ChartService.cs:490-526 | Each recognised flag switches its setting on, and the chart counts as customised exactly when one is present. "classictitles" wins over "notitles". "rainbow" also skips missing images. Nothing is switched off, and the size, plays and layout fields are untouched. |
| Chart.ChartSize | src/FMBot.Bot/Services/ChartService.cs:529-546 | The chart is 3 by 3 unless a size option overrides it. The size always lies between 1 and 50 on each side. |
| Chart.SetSettings | src/FMBot.Bot/Services/ChartService.cs:487-568 | The flags as ApplyFlags states. The size comes from the last size option, or 3 by 3. Play counting is switched on by a play-count period and never off. |
| Chart.SetSettingsIdempotent | src/FMBot.Bot/Services/ChartService.cs:487-568 | Applying the same options to the result again changes nothing. |
| Chart.LastSizeOptionWins | src/FMBot.Bot/Services/ChartService.cs:532-546 | The last size option decides the size, whatever came before it. |
| Chart.SetSettingsScenario | src/FMBot.Bot/Services/ChartService.cs:520-546 | The options "rainbow" and "5x8" make a custom 5 by 8 rainbow chart that skips missing images. |
| Chart.ScenarioSize | src/FMBot.Bot/Services/ChartService.cs:534-546 | Of the options "rainbow" and "5x8", the last size option gives 5 by 8. |
| Chart.NoteAt | src/FMBot.Bot/Services/ChartService.cs:575-616 | Each description position holds at most one line, of that position's kind. |
| Chart.NotesFaithful | src/FMBot.Bot/Services/ChartService.cs:570-619 | The appended lines come in the fixed order. Each line is there exactly when the settings call for it, with "Artist(s)" in place of "Album(s)" for an artist chart. |
| Chart.HeadingFirst | src/FMBot.Bot/Services/ChartService.cs:575-578 | The "Chart options:" heading is first whenever it appears. It appears exactly when custom options are on. |
| Chart.DefaultChartAddsNoOptionLines | src/FMBot.Bot/Services/ChartService.cs:570-619 | A chart with default settings, more than one image and no supporter gets no added lines. |
| Chart.AddSettingsToDescription | src/FMBot.Bot/Services/ChartService.cs:570-619 | The description only grows, by the text of the selected lines in order. |
| Chart.DescriptionScenario | src/FMBot.Bot/Services/ChartService.cs:575-582 | A custom chart that only skips missing images gains exactly the heading and the "without images skipped" line. |
| Chart.FilteredMembers | src/FMBot.Bot/Services/ChartService.cs:250-252 | An image survives the filters exactly when it passes the NSFW test and the missing-image test. |
| Chart.FilteredAppend | src/FMBot.Bot/Services/ChartService.cs:250-252 | The filters keep relative order: filtering a concatenation concatenates the filtered parts. |
| Chart.RowBreak | src/FMBot.Bot/Services/ChartService.cs:263-272 | The loop's row-break test holds exactly at the last column of a row. |
| Chart.PlaceTiles | src/FMBot.Bot/Services/ChartService.cs:225-289 | An empty image list makes `First()` throw before anything is drawn. Otherwise the tiles are the first filtered images, in order, as many as are needed and available. They are laid out row by row, left to right, one tile side apart: 300 pixels, or 180 for charts of more than 40 images. The NSFW flag is set exactly when the chart had it or a drawn image is NSFW. The censored counter grows by the number of drawn censored images, starting from one when it was null. |
| Chart.TileInsideCanvas | src/FMBot.Bot/Services/ChartService.cs:225-272 | With no more tiles than cells, every tile lies inside the width-by-height canvas. |
| Cooldown.IndexOf | src/FMBot.Bot/Commands/StaticCommands.cs:626 | The first position of the target, or -1 exactly when it is absent. |
| Cooldown.LastUse | src/FMBot.Bot/Commands/StaticCommands.cs:624-626 | A target has a stored time exactly when it is listed. |
| Cooldown.Use | src/FMBot.Bot/Commands/StaticCommands.cs:624-647 | A use is allowed exactly when the target is new or its window has passed (`>=` still refuses). A refusal changes nothing. An allowed use stores the current time. A new target is appended to both lists, and the lists stay parallel. |
| Cooldown.UseIsolation | src/FMBot.Bot/Commands/StaticCommands.cs:641-646 | A use never changes another target's stored time. |
| Cooldown.UseKeepsDistinct | src/FMBot.Bot/Commands/StaticCommands.cs:624-647 | A use never lists a target twice. |
| Cooldown.WindowAfterUse | src/FMBot.Bot/Commands/StaticCommands.cs:626 | After an allowed use, the next use by the same target gets through exactly once the window has passed. |
| Cooldown.ReplayKeepsDistinct | src/FMBot.Bot/Commands/StaticCommands.cs:624-647 | Any sequence of uses from empty lists keeps them parallel and free of duplicates. |
| StaticCommands.ClampCountdown | src/FMBot.Bot/Commands/StaticCommands.cs:613-621 | The countdown length is clamped into 1..5, and values in range are kept. |
| StaticCommands.Countdown | src/FMBot.Bot/Commands/StaticCommands.cs:604-647 | Direct messages are refused first, and the cooldown lists are left alone; outside them that reply never occurs. Otherwise the countdown starts exactly when the cooldown allows it, with the clamped length. A "please wait" reply counts 10 to 20 seconds: the whole seconds left until `c + 30` seconds after the stored time. A silent refusal happens only when at least 21 seconds are left. |
| StaticCommands.CountdownAnswerWindow | src/FMBot.Bot/Commands/StaticCommands.cs:626-638 | While the cooldown runs, the first c+9 seconds after the stored time are refused silently. The rest of the window is answered with "please wait". |
| StaticCommands.SecondWord | src/FMBot.Bot/Commands/StaticCommands.cs:633 | The word is "second" for one and "seconds" for every other number. |
| StaticCommands.PleaseWaitIsPlural | src/FMBot.Bot/Commands/StaticCommands.cs:628-634 | The "please wait" reply never uses the singular "second". Its text is "Please wait n seconds before starting another countdown." |
| StaticCommands.PluralText | src/FMBot.Bot/Commands/StaticCommands.cs:633-634 | For more than one second, the word is "seconds" and the text is the plural sentence. |
| StaticCommands.CountdownLines | src/FMBot.Bot/Commands/StaticCommands.cs:649-658 | The messages are the announcement, then the numbers from the countdown down to 1, then "Go!". |
| StaticCommands.HelpSearch | src/FMBot.Bot/Commands/StaticCommands.cs:296-301 | A blank argument gives the general help. An empty prefix makes the replace fail. An argument longer than a prefix it contains loses every occurrence of the prefix and gets shorter. Any other argument is kept. |
| StaticCommands.HelpPrefixStripped | src/FMBot.Bot/Commands/StaticCommands.cs:296-301 | A command name typed after the prefix is searched without the prefix, as long as the name does not contain the prefix's first character. |
| StaticCommands.QuickStartGuide | src/FMBot.Bot/Commands/StaticCommands.cs:313-356 | The guide's fields come in one fixed order. First the main command, then the login hint for an unregistered user or the mode hint for a registered one, then the command information. After that come only notes. The custom-prefix note is there exactly when the server's prefix differs from the default. The self-hosting note is there exactly when the bot is neither the production nor the development bot (`IsBotSelfHosted`, lines 812-815). The Last.fm issues note is there exactly when Last.fm reports issues. |
| StaticCommands.GuideWithoutNotes | src/FMBot.Bot/Commands/StaticCommands.cs:287-356 | The guide has no notes exactly for an official bot with the default prefix while Last.fm has no issues. |
| StaticCommands.Help | src/FMBot.Bot/Commands/StaticCommands.cs:285-312 | An empty prefix with a non-blank argument makes the help fail. The help of a command is shown exactly when the stripped argument finds one, and it is searched as stripped. Otherwise the quick-start guide is shown, and always for a blank argument. |
| StaticCommands.SupporterSuffix | src/FMBot.Bot/Commands/StaticCommands.cs:572-578 | Servers get " (server)", businesses get " (business)", and every other kind gets nothing. |
| StaticCommands.SupporterLineKind | src/FMBot.Bot/Commands/StaticCommands.cs:572-580 | A supporter line ends in " (server)" exactly for a server and in " (business)" exactly for a business, so its kind can be read back. |
| PlaySlash.FmCooldown | src/FMBot.Bot/SlashCommands/PlaySlashCommands.cs:52-79 | Without a channel cooldown, `/fm` always runs and the lists are untouched. With one, it runs exactly when its own cooldown lists allow it. A refusal is explained only when the command does not run. |
| PlaySlash.FmWarningAfterOneSecond | src/FMBot.Bot/SlashCommands/PlaySlashCommands.cs:57-68 | A refused `/fm` is explained exactly when more than a second has passed since the stored use. |
| PlaySlash.NoCooldownNoState | src/FMBot.Bot/SlashCommands/PlaySlashCommands.cs:52-53 | Without a channel cooldown, any use runs and changes nothing. |
| PlaySlash.Cap | src/FMBot.Bot/SlashCommands/PlaySlashCommands.cs:117-120 | Amounts above the cap become the cap. Everything else, including zero and negative amounts, is kept. |
| PlaySlash.RecentAmount | src/FMBot.Bot/SlashCommands/PlaySlashCommands.cs:117-120 | `/recent` keeps amounts up to 10 unchanged and turns larger ones into 10. |
| PlaySlash.OverviewDays | src/FMBot.Bot/SlashCommands/PlaySlashCommands.cs:197-200 | `/overview` keeps amounts up to 8 days unchanged and turns larger ones into 8. |
| PlaySlash.CapMonotoneIdempotent | src/FMBot.Bot/SlashCommands/PlaySlashCommands.cs:117-120 | Capping keeps the order of amounts, and capping twice is capping once. |
| InteractionHandler.CommandDisabled | src/FMBot.Bot/Handlers/InteractionHandler.cs:152-180 | Outside a server nothing is disabled. In a server, the server's list is checked first and the channel's second. |
| InteractionHandler.IndexCheck | src/FMBot.Bot/Handlers/InteractionHandler.cs:110-132 | The index check passes exactly when there is a last index no older than 120 days. A missing index is reported as missing, and an older one as outdated. |
| InteractionHandler.SlashCommand | src/FMBot.Bot/Handlers/InteractionHandler.cs:45-138 | The checks run in order: slash command, command search, blocked user, server then channel disabled lists, username, session, guild only, index. Each outcome happens exactly when every earlier check passes and its own check fails. The command runs exactly when all pass. |
| InteractionHandler.ExecutedIffAllChecksPass | src/FMBot.Bot/Handlers/InteractionHandler.cs:45-134 | The command runs exactly when every check passes. |
| InteractionHandler.BlockedUserFirst | src/FMBot.Bot/Handlers/InteractionHandler.cs:65-69 | A blocked user is turned away before any check about the command. |
| InteractionHandler.NoIndexCheckOutsideGuild | src/FMBot.Bot/Handlers/InteractionHandler.cs:110-154 | Outside a server, neither the index check nor the disabled lists can stop a command. |
| InteractionHandler.FewerRequirementsStillRun | src/FMBot.Bot/Handlers/InteractionHandler.cs:76-132 | A command that requires less runs wherever one that requires more runs. |
| InteractionHandler.Logged | src/FMBot.Bot/Handlers/InteractionHandler.cs:85-129 | Each response is logged for exactly its outcomes: "user blocked" for a blocked user, "username not set" for a missing username or session, "not supported in DMs" for a server-only command in a DM, and "index required" for both index failures. Nothing is logged for the other outcomes. |
| InteractionHandler.LoggedExactlyWhenTurnedAway | src/FMBot.Bot/Handlers/InteractionHandler.cs:45-134 | A response is logged exactly for a found command that is turned away by the block, or by a check after the disabled-command lookup. The "username not set" response covers both user checks. |
| ArtistModels.OrderType.Value | src/FMBot.Bot/Models/ArtistModels.cs:28-32 | The order types carry the values 1 and 2. |
| ArtistModels.OrderTypeFromValue | src/FMBot.Bot/Models/ArtistModels.cs:28-32 | An integer names an order type exactly when it is 1 or 2. |
| ArtistModels.OrderTypeValues | src/FMBot.Bot/Models/ArtistModels.cs:28-32 | Order types and their values round-trip in both directions. |
| ArtistModels.Int32Increment | src/FMBot.Bot/Models/ArtistModels.cs:118 | C#'s unchecked int increment: one more, except that the largest int wraps to the smallest. |
| ArtistModels.NewArtistSearch | src/FMBot.Bot/Models/ArtistModels.cs:113-120 | A search is random exactly when both the position and the play count are given. The position is shifted to one-based, and the largest int wraps to the smallest. A missing position stays missing. Everything else is copied. |
| ArtistModels.RandomPositionRoundTrip | src/FMBot.Bot/Models/ArtistModels.cs:117-118 | Subtracting one from a random search's shown position gives the zero-based position back. |

## Left out

- Discord, HTTP, database and Last.fm I/O. Their results are parameters:
  the user, server and channel records, the album-info and search
  responses, the indexed rows and the filter and renderer functions. Their
  own code is not part of this model.
- Image download, decoding, resizing, drawing and fonts (SkiaSharp), and
  the rainbow hue sort. The placement loop receives the images already in
  their final order, and every tile has the side the resizing produces.
- Random draws (`new Random().Next`) become booleans: `hintRoll` for the
  re-index hint and `tipRoll` for the cover tip. The supporter name is a
  parameter.
- `SettingService.GetTimePeriod`: only whether it reports a play-count
  period matters here (`periodUsesPlays`). The time-period fields it fills
  in are not modelled.
- The `Task.Delay` pauses of the countdown, and the typing indicators.
- The supporter command's paging (`ChunkBy`) and supporter query. Only the
  per-line type suffix is modelled.
- StaticCommands.SupporterLineKind: the line break `AppendLine` adds after
  each supporter line is not part of the modelled line.
- `Constants.BotProductionId` and `Constants.BotDevelopId` are not part of
  this model, so `IsBotSelfHosted` takes them as parameters.
- Text.ToLower: only ASCII letters are lower-cased. C#'s culture-aware
  `ToLower` maps more characters.
- The static cooldown lists are shared between threads in the source. The
  model is sequential.
- The cooldown checks read the clock twice: once for the window test and
  once for the seconds left (StaticCommands.cs:626 and 630,
  PlaySlashCommands.cs:57 and 61). The model reads one instant, `now`, for
  both. `StaticCommands.PleaseWaitIsPlural` and
  `PlaySlash.FmWarningAfterOneSecond` rely on this. With two reads a few
  ticks apart, the second count could be one lower at the window's edge.
- The 300 ms timeout of the size pattern's regular expression. The pattern
  is short and anchored, so it does not change which options match.
- Chart.PlaceTiles requires a width of at least one, as `SetSettings`
  always leaves it. Layouts for a width below one are not modelled.
- AlbumWhoKnows.AggregateOf: the average is computed exactly and then
  truncated. The source's floating-point `Average` and a possible `int`
  overflow of the total are not modelled.
- ArtistModels: the DTOs other than the WhoKnows rows and `ArtistSearch`
  (`GuildRankingSettings`, `GuildArtist`, `ArtistSpotifyCoverDto`, the
  affinity types) are plain property bags that the modelled code never
  reads.
- `InteractionHandler.AutoCompleteAsync` and `UserCommandAsync` execute
  without any checks. The statistics counter after execution is left
  out, as are the response texts.
- The status and shard commands, and every other command of the static
  commands class, are not part of this model.

## Findings

| source | as written | input that shows it | evidently intended | confidence | as-written member | corrected member |
|---|---|---|---|---|---|---|
| src/FMBot.Bot/Services/WhoKnows/WhoKnowsPlayService.cs:38-40 | The write caches the artist, album and track names exactly as they arrive. The three readers (lines 63, 103 and 143) compare the cached names with the lower-cased query using `==`. | User 2 is now playing "Airbag" by "Radiohead", and user 1 asks about "Radiohead". The cached "Radiohead" never equals "radiohead", so nobody is found. This holds for any name with a capital letter. | Lower-case the names when writing them to the cache, so that the readers' lower-cased comparison matches plays regardless of case. | medium — not executed; the callers of the write are not part of this model and could lower-case the names themselves | Presence.CapitalisedArtistNeverMatches, Presence.CapitalisedArtistExample (over RecentPlayCache.AddRecentPlayToCache) | RecentPlayCache.RecordPlay, Presence.RecordedPlayIsFoundAnyCase, Presence.RecordedAlbumIsFoundAnyCase, RecentPlayCache.LastWriteWins |

=== FILE: album_who_knows.dfy ===
/** The decision logic of the album WhoKnows commands: how the search text
    becomes an artist and album, how the album lookup's answers become a
    reply, and how the server, global and friends leaderboards choose their
    description and footer notes. The leaderboard rows come from services
    that are not part of this model (the play-count repository, the member
    and privacy filters and the list renderer); they enter as values and
    function parameters. */
module AlbumWhoKnows {
  import opened Wrappers
  import Text
  import opened ArtistModels
  import RecentPlayCache
  import Presence
  import Arith

  // ---------------------------------------------------------------------
  // Search text
  // ---------------------------------------------------------------------

  /** The separator between artist and album in a search. */
  const Separator: string := " | "

  /** What the album search looks for. */
  datatype AlbumSearch =
    | FromNowPlaying
    | ArtistAndAlbum(artistName: string, albumName: string)
    | FreeText(query: string)

  /** The search text after the "featured" keyword has been expanded into
      the featured artist and album. */
  function SearchValue(albumValues: string, featuredArtist: string, featuredAlbum: string): string {
    if Text.ToLower(albumValues) == "featured" then featuredArtist + Separator + featuredAlbum
    else albumValues
  }

  /** The first part of `SearchAlbum`: a blank search means the user's
      current track; a search containing the separator names the artist
      (the text before the first separator) and the album (the text up to
      the next one; anything after it is dropped); anything else is a free
      text search. */
  function ResolveSearch(albumValues: Option<string>, featuredArtist: string,
                         featuredAlbum: string): (r: AlbumSearch)
    ensures r.FromNowPlaying? <==> Text.IsNullOrWhiteSpace(albumValues)
    ensures !Text.IsNullOrWhiteSpace(albumValues) ==>
              var v := SearchValue(albumValues.value, featuredArtist, featuredAlbum);
              && (r.ArtistAndAlbum? <==> Text.Contains(v, Separator))
              && (r.ArtistAndAlbum? ==>
                    var i := Text.Find(v, Separator).value;
                    var rest := v[i + |Separator|..];
                    && r.artistName == v[..i]
                    && r.albumName == (if Text.Contains(rest, Separator)
                                       then rest[..Text.Find(rest, Separator).value] else rest)
                    && !Text.Contains(r.albumName, Separator))
              && (r.FreeText? ==> r.query == albumValues.value)
  {
    if Text.IsNullOrWhiteSpace(albumValues) then FromNowPlaying
    else
      var v := SearchValue(albumValues.value, featuredArtist, featuredAlbum);
      if Text.Contains(v, Separator) then
        var parts := Text.Split(v, Separator);
        Text.SplitFirstTwo(v, Separator);
        ArtistAndAlbum(parts[0], parts[1])
      else
        assert Text.Contains(featuredArtist + Separator + featuredAlbum, Separator) by {
          assert (featuredArtist + Separator + featuredAlbum)[|featuredArtist|..]
                 == Separator + featuredAlbum;
          Text.ContainsAt(featuredArtist + Separator + featuredAlbum, Separator, |featuredArtist|);
        }
        FreeText(albumValues.value)
  }

  /** "featured", in any case, searches for the featured artist and album,
      provided neither name contains a bar. */
  lemma FeaturedSearch(albumValues: string, featuredArtist: string, featuredAlbum: string)
    requires Text.ToLower(albumValues) == "featured"
    requires '|' !in featuredArtist && '|' !in featuredAlbum
    ensures ResolveSearch(Some(albumValues), featuredArtist, featuredAlbum)
            == ArtistAndAlbum(featuredArtist, featuredAlbum)
  {
    assert !Text.IsNullOrWhiteSpace(Some(albumValues)) by {
      assert Text.ToLower(albumValues)[0] == 'f';
    }
    SplitPair(featuredArtist, featuredAlbum);
  }

  /** Typing "{artist} | {album}", with no bar in either name, searches
      for exactly that artist and album. */
  lemma TypedPairSearch(artist: string, album: string, fa: string, fb: string)
    requires '|' !in artist && '|' !in album
    ensures ResolveSearch(Some(artist + Separator + album), fa, fb) == ArtistAndAlbum(artist, album)
  {
    var v := artist + Separator + album;
    assert Text.ToLower(v) != "featured" by {
      assert Text.ToLower(v)[|artist| + 1] == '|';
      assert '|' !in "featured";
    }
    assert !Text.IsNullOrWhiteSpace(Some(v)) by {
      assert v[|artist| + 1] == '|';
    }
    SplitPair(artist, album);
  }

  /** "{a} | {b}" splits into `a` and `b` when neither contains a bar. */
  lemma SplitPair(a: string, b: string)
    requires '|' !in a && '|' !in b
    ensures Text.Contains(a + Separator + b, Separator)
    ensures Text.Split(a + Separator + b, Separator) == [a, b]
  {
    var v := a + Separator + b;
    FirstSeparatorAfterArtist(a, b);
    assert v[|a| + |Separator|..] == b;
    assert v[..|a|] == a;
    NoBarNoSplit(b);
    assert Text.Split(v, Separator) == [a] + Text.Split(b, Separator);
  }

  /** In "{artist} | {album}", with no bar in the artist, the first
      separator follows the artist. */
  lemma FirstSeparatorAfterArtist(a: string, b: string)
    requires '|' !in a
    ensures Text.Find(a + Separator + b, Separator) == Some(|a|)
  {
    var v := a + Separator + b;
    assert v[|a|..] == Separator + b;
    forall j | 0 <= j < |a| ensures !Text.OccursAt(v, Separator, j) {
      assert v[j + 1] == if j + 1 < |a| then a[j + 1] else ' ';
    }
    assert Text.OccursAt(v, Separator, |a|);
  }

  /** A text without a bar is one piece. */
  lemma NoBarNoSplit(b: string)
    requires '|' !in b
    ensures Text.Split(b, Separator) == [b]
  {
    forall j | 0 <= j <= |b| ensures !Text.OccursAt(b, Separator, j) {
      if j + 1 < |b| {
        assert b[j + 1] in b;
      }
    }
  }

  // ---------------------------------------------------------------------
  // The album lookup
  // ---------------------------------------------------------------------

  /** The album facts the leaderboards use. */
  datatype AlbumInfo = AlbumInfo(artistName: string, albumName: string, userPlaycount: Option<int>)

  /** The error kinds of a Last.fm response that the search tells apart. */
  datatype ResponseStatus = MissingParameters | OtherError(code: int)

  /** An album-info response: a success flag, an error kind and maybe
      content. */
  datatype InfoResponse = InfoResponse(success: bool, error: ResponseStatus, content: Option<AlbumInfo>)

  /** A search hit. */
  datatype AlbumHit = AlbumHit(artistName: string, name: string)

  /** A free-text search response: a success flag and the hits. */
  datatype SearchResponse = SearchResponse(success: bool, hits: seq<AlbumHit>)

  /** The last track of the user's recent-tracks feed. */
  datatype LastTrack = LastTrack(artistName: string, albumName: Option<string>)

  /** How `SearchAlbum` ends: with an album, or with nothing after sending
      a "not found" or a "Last.fm error" reply, or (after a failed
      recent-tracks call, which sends its own reply, or a hit whose details
      are missing) with nothing further. */
  datatype SearchReply = Found(album: AlbumInfo) | NotFoundReply | LastFmErrorReply | NoReply

  /** The remote calls of `SearchAlbum`: the album-info call (cached or
      not) and the free-text search; `recent` is the recent-tracks call's
      last track, `None` when the call failed. */
  datatype Remote = Remote(
    lookup: (string, string) -> InfoResponse,
    searchCall: string -> SearchResponse,
    recent: Option<LastTrack>)

  /** `SearchAlbum` after the search text has been resolved. */
  function SearchAlbum(search: AlbumSearch, remote: Remote): (r: SearchReply)
    ensures r.Found? ==>
              match search
              case ArtistAndAlbum(a, b) =>
                remote.lookup(a, b).success && remote.lookup(a, b).content == Some(r.album)
              case FreeText(q) =>
                && remote.searchCall(q).success && |remote.searchCall(q).hits| > 0
                && var hit := remote.searchCall(q).hits[0];
                   remote.lookup(hit.artistName, hit.name).content == Some(r.album)
              case FromNowPlaying =>
                && remote.recent.Some? && remote.recent.value.albumName.Some?
                && var t := remote.recent.value;
                   remote.lookup(t.artistName, t.albumName.value).success
                   && remote.lookup(t.artistName, t.albumName.value).content == Some(r.album)
    ensures search.ArtistAndAlbum? ==>
              var resp := remote.lookup(search.artistName, search.albumName);
              && (r == NotFoundReply <==> !resp.success && resp.error == MissingParameters)
              && (r == LastFmErrorReply <==>
                    (resp.success || resp.error != MissingParameters)
                    && (!resp.success || resp.content.None?))
              && r != NoReply
    ensures search.FreeText? ==>
              var result := remote.searchCall(search.query);
              && (r == NotFoundReply <==> result.success && |result.hits| == 0)
              && (r == LastFmErrorReply <==> !result.success)
              && (r.Found? <==> result.success && |result.hits| > 0
                                && remote.lookup(result.hits[0].artistName, result.hits[0].name).content.Some?)
    ensures search.FromNowPlaying? ==>
              && (r == NoReply <==> remote.recent.None?)
              && r != LastFmErrorReply
              && (remote.recent.Some? && Text.IsNullOrWhiteSpace(remote.recent.value.albumName)
                  ==> r == NotFoundReply)
    ensures search.FromNowPlaying? && remote.recent.Some?
            && !Text.IsNullOrWhiteSpace(remote.recent.value.albumName) ==>
              var t := remote.recent.value;
              var resp := remote.lookup(t.artistName, t.albumName.value);
              && (r.Found? <==> resp.success && resp.content.Some?)
              && (!r.Found? ==> r == NotFoundReply)
  {
    match search
    case ArtistAndAlbum(a, b) =>
      var resp := remote.lookup(a, b);
      if !resp.success && resp.error == MissingParameters then NotFoundReply
      else if !resp.success || resp.content.None? then LastFmErrorReply
      else Found(resp.content.value)
    case FreeText(q) =>
      var result := remote.searchCall(q);
      if result.success && |result.hits| > 0 then
        var hit := result.hits[0];
        match remote.lookup(hit.artistName, hit.name).content
        case Some(album) => Found(album)
        case None => NoReply
      else if result.success then NotFoundReply
      else LastFmErrorReply
    case FromNowPlaying =>
      if remote.recent.None? then NoReply
      else if Text.IsNullOrWhiteSpace(remote.recent.value.albumName) then NotFoundReply
      else
        var t := remote.recent.value;
        var resp := remote.lookup(t.artistName, t.albumName.value);
        if resp.content.None? || !resp.success then NotFoundReply
        else Found(resp.content.value)
  }

  /** The whole `SearchAlbum`: resolve the text, then ask Last.fm. */
  function FindAlbum(albumValues: Option<string>, featuredArtist: string, featuredAlbum: string,
                     remote: Remote): SearchReply
  {
    SearchAlbum(ResolveSearch(albumValues, featuredArtist, featuredAlbum), remote)
  }

  /** Typing "{artist} | {album}" (no bar in either name) asks for exactly
      that artist and album: the outcome is decided by that one album-info
      response, and the free-text search and the recent tracks play no
      part. */
  lemma ExplicitSearchLooksUpTypedNames(artist: string, album: string, fa: string, fb: string,
                                        remote: Remote)
    requires '|' !in artist && '|' !in album
    ensures var r := FindAlbum(Some(artist + Separator + album), fa, fb, remote);
            var resp := remote.lookup(artist, album);
            && (r.Found? <==> resp.success && resp.content.Some?)
            && (r.Found? ==> r.album == resp.content.value)
            && (r == NotFoundReply <==> !resp.success && resp.error == MissingParameters)
  {
    TypedPairSearch(artist, album, fa, fb);
  }

  /** A text without the separator (other than "featured") goes to the
      free-text search as typed, and the first hit's details are the
      answer. */
  lemma FreeTextSearchUsesFirstHit(query: string, fa: string, fb: string, remote: Remote)
    requires !Text.IsNullOrWhiteSpace(Some(query)) && !Text.Contains(query, Separator)
    requires Text.ToLower(query) != "featured"
    requires remote.searchCall(query).success && |remote.searchCall(query).hits| > 0
    ensures var hit := remote.searchCall(query).hits[0];
            FindAlbum(Some(query), fa, fb, remote).Found?
            <==> remote.lookup(hit.artistName, hit.name).content.Some?
  {
  }

  // ---------------------------------------------------------------------
  // Rows and the aggregate line
  // ---------------------------------------------------------------------

  /** A leaderboard row: who, under which display name, with how many
      plays. */
  datatype Row = Row(userId: int, name: string, playcount: int)

  function Sum(rows: seq<Row>): int
    decreases |rows|
  {
    if |rows| == 0 then 0 else Sum(rows[..|rows| - 1]) + rows[|rows| - 1].playcount
  }

  /** The listener count, the total play count and the average. */
  datatype Aggregate = Aggregate(listeners: nat, total: int, average: int)

  /** The aggregate line is shown only when more than one listener is
      left; the average is the mean truncated to an integer. */
  function AggregateOf(rows: seq<Row>): (r: Option<Aggregate>)
    ensures r.Some? <==> |rows| > 1
    ensures r.Some? ==> r.value.listeners == |rows| && r.value.total == Sum(rows)
    ensures r.Some? && Sum(rows) >= 0 ==>
              r.value.average * |rows| <= Sum(rows) < (r.value.average + 1) * |rows|
  {
    if |rows| > 1 then Some(Aggregate(|rows|, Sum(rows), Arith.TruncDiv(Sum(rows), |rows|)))
    else None
  }

  predicate PlaycountsWithin(rows: seq<Row>, lo: int, hi: int) {
    forall k :: 0 <= k < |rows| ==> lo <= rows[k].playcount <= hi
  }

  lemma {:induction false} SumWithin(rows: seq<Row>, lo: int, hi: int)
    requires PlaycountsWithin(rows, lo, hi)
    ensures |rows| * lo <= Sum(rows) <= |rows| * hi
    decreases |rows|
  {
    if |rows| > 0 {
      var init := rows[..|rows| - 1];
      var n := |init|;
      assert PlaycountsWithin(init, lo, hi) by {
        forall k | 0 <= k < n ensures lo <= init[k].playcount <= hi {
          assert init[k] == rows[k];
        }
      }
      SumWithin(init, lo, hi);
      var last := rows[n].playcount;
      assert Sum(rows) == Sum(init) + last;
      assert lo <= last <= hi;
      assert |rows| * lo == n * lo + lo && |rows| * hi == n * hi + hi;
    }
  }

  /** The average lies between the smallest and the largest play count
      shown, for non-negative counts. */
  lemma AverageWithinRange(rows: seq<Row>, lo: nat, hi: nat)
    requires |rows| > 1 && PlaycountsWithin(rows, lo, hi)
    ensures lo <= AggregateOf(rows).value.average <= hi
  {
    SumWithin(rows, lo, hi);
    var n := |rows|;
    var a := AggregateOf(rows).value.average;
    Arith.LessAfterScaling(lo, a + 1, n);
    Arith.LessAfterScaling(a, hi + 1, n);
  }

  /** Three listeners with 100, 75 and 50 plays: 225 in total, 75 on
      average. */
  lemma AggregateScenario()
    ensures AggregateOf([Row(1, "A", 100), Row(3, "C", 75), Row(2, "B", 50)])
            == Some(Aggregate(3, 225, 75))
  {
    var rows := [Row(1, "A", 100), Row(3, "C", 75), Row(2, "B", 50)];
    assert rows[..1] == [Row(1, "A", 100)] && Sum(rows[..1]) == 100;
    assert rows[..2] == [Row(1, "A", 100), Row(3, "C", 75)] && Sum(rows[..2]) == 175;
  }

  // ---------------------------------------------------------------------
  // Footer notes
  // ---------------------------------------------------------------------

  /** The notes a footer can carry, each on its own line. */
  datatype FooterNote =
    | IndexHint(prefix: string)
    | HiddenFriends(count: nat)
    | FriendsRequestedBy(userTitle: string)
    | ListenerStats(stats: Aggregate)
    | FilteredUsers(count: nat)
    | WhitelistOnly
    | AlsoPlaying(text: string)
    | AdminView
    | NotGloballyVisible(prefix: string)
    | PrivateUsersHidden

  /** The position of each kind of note in every footer that has it. */
  function Rank(n: FooterNote): nat {
    match n
    case IndexHint(_) => 0
    case HiddenFriends(_) => 1
    case FriendsRequestedBy(_) => 2
    case ListenerStats(_) => 3
    case FilteredUsers(_) => 4
    case WhitelistOnly => 5
    case AlsoPlaying(_) => 6
    case AdminView => 7
    case NotGloballyVisible(_) => 8
    case PrivateUsersHidden => 9
  }

  /** Which notes a footer carries. Each command decides each note on its
      own; the lines always come out in the one fixed order. */
  datatype Footer = Footer(
    indexHint: Option<string>,
    hiddenFriends: Option<nat>,
    friendsRequestedBy: Option<string>,
    stats: Option<Aggregate>,
    filteredUsers: Option<nat>,
    whitelistOnly: bool,
    alsoPlaying: Option<string>,
    adminView: bool,
    notGloballyVisible: Option<string>,
    privateUsersHidden: bool)

  const NoNotes: Footer := Footer(None, None, None, None, None, false, None, false, None, false)

  function LineIf<T>(o: Option<T>, note: T -> FooterNote): seq<FooterNote> {
    match o
    case None => []
    case Some(v) => [note(v)]
  }

  /** The line a footer has at rank `r`, if any. */
  function LineAt(f: Footer, r: nat): (s: seq<FooterNote>)
    ensures |s| <= 1
    ensures forall k :: 0 <= k < |s| ==> Rank(s[k]) == r
  {
    if r == 0 then LineIf(f.indexHint, p => IndexHint(p))
    else if r == 1 then LineIf(f.hiddenFriends, c => HiddenFriends(c))
    else if r == 2 then LineIf(f.friendsRequestedBy, t => FriendsRequestedBy(t))
    else if r == 3 then LineIf(f.stats, a => ListenerStats(a))
    else if r == 4 then LineIf(f.filteredUsers, c => FilteredUsers(c))
    else if r == 5 then (if f.whitelistOnly then [WhitelistOnly] else [])
    else if r == 6 then LineIf(f.alsoPlaying, t => AlsoPlaying(t))
    else if r == 7 then (if f.adminView then [AdminView] else [])
    else if r == 8 then LineIf(f.notGloballyVisible, p => NotGloballyVisible(p))
    else if r == 9 then (if f.privateUsersHidden then [PrivateUsersHidden] else [])
    else []
  }

  /** The lines of ranks below `k`, in rank order. */
  function LinesBelow(f: Footer, k: nat): seq<FooterNote>
    decreases k
  {
    if k == 0 then [] else LinesBelow(f, k - 1) + LineAt(f, k - 1)
  }

  /** The footer's lines. */
  function Lines(f: Footer): seq<FooterNote> {
    LinesBelow(f, 10)
  }

  /** The notes appear in rank order, each kind at most once. */
  predicate InOrder(notes: seq<FooterNote>) {
    forall i, j :: 0 <= i < j < |notes| ==> Rank(notes[i]) < Rank(notes[j])
  }

  lemma AppendInOrder(a: seq<FooterNote>, b: seq<FooterNote>, m: nat)
    requires InOrder(a) && InOrder(b)
    requires forall k :: 0 <= k < |a| ==> Rank(a[k]) < m
    requires forall k :: 0 <= k < |b| ==> Rank(b[k]) == m
    ensures InOrder(a + b)
  {
  }

  lemma {:induction false} LinesBelowInOrder(f: Footer, k: nat)
    ensures InOrder(LinesBelow(f, k))
    ensures forall i :: 0 <= i < |LinesBelow(f, k)| ==> Rank(LinesBelow(f, k)[i]) < k
    decreases k
  {
    if k > 0 {
      LinesBelowInOrder(f, k - 1);
      AppendInOrder(LinesBelow(f, k - 1), LineAt(f, k - 1), k - 1);
    }
  }

  lemma {:induction false} LinesBelowMembers(f: Footer, k: nat, n: FooterNote)
    ensures n in LinesBelow(f, k) <==> Rank(n) < k && n in LineAt(f, Rank(n))
    decreases k
  {
    if k > 0 {
      LinesBelowMembers(f, k - 1, n);
      assert n in LineAt(f, k - 1) ==> Rank(n) == k - 1;
    }
  }

  /** Whether the footer carries exactly this note. */
  predicate Carries(f: Footer, n: FooterNote) {
    match n
    case IndexHint(p) => f.indexHint == Some(p)
    case HiddenFriends(c) => f.hiddenFriends == Some(c)
    case FriendsRequestedBy(t) => f.friendsRequestedBy == Some(t)
    case ListenerStats(a) => f.stats == Some(a)
    case FilteredUsers(c) => f.filteredUsers == Some(c)
    case WhitelistOnly => f.whitelistOnly
    case AlsoPlaying(t) => f.alsoPlaying == Some(t)
    case AdminView => f.adminView
    case NotGloballyVisible(p) => f.notGloballyVisible == Some(p)
    case PrivateUsersHidden => f.privateUsersHidden
  }

  lemma LineAtCarries(f: Footer, n: FooterNote)
    ensures n in LineAt(f, Rank(n)) <==> Carries(f, n)
  {
  }

  /** Every footer's lines are in rank order, and a line is present exactly
      when the footer carries that note: the notes never depend on each
      other. */
  lemma LinesFaithful(f: Footer)
    ensures InOrder(Lines(f))
    ensures forall n :: n in Lines(f) <==> Carries(f, n)
  {
    LinesBelowInOrder(f, 10);
    forall n ensures n in Lines(f) <==> Carries(f, n) {
      LinesBelowMembers(f, 10, n);
      LineAtCarries(f, n);
    }
  }

  /** The plural helpers of the string extensions ("listener"/"listeners",
      "play"/"plays", "friend"/"friends"). */
  datatype PluralWords = PluralWords(listeners: int -> string, plays: int -> string,
                                     friends: int -> string)

  function NoteText(n: FooterNote, w: PluralWords): string {
    match n
    case IndexHint(p) => "Missing members? Update with " + p + "index"
    case HiddenFriends(c) => Text.IntToString(c) + " non-fmbot " + w.friends(c) + " not visible"
    case FriendsRequestedBy(t) => "Friends WhoKnow album requested by " + t
    case ListenerStats(a) =>
      Text.IntToString(a.listeners) + " " + w.listeners(a.listeners) + " - "
      + Text.IntToString(a.total) + " total " + w.plays(a.total) + " - "
      + Text.IntToString(a.average) + " avg " + w.plays(a.average)
    case FilteredUsers(c) => Text.IntToString(c) + " inactive/blocked users filtered"
    case WhitelistOnly => "Users with WhoKnows whitelisted role only"
    case AlsoPlaying(t) => t
    case AdminView => "Admin view enabled - not for public channels"
    case NotGloballyVisible(p) =>
      "You are currently not globally visible - use '" + p + "privacy global' to enable."
    case PrivateUsersHidden => "All private users are hidden from results"
  }

  /** The header, then each note after a line break. */
  function Render(header: string, notes: seq<FooterNote>, w: PluralWords): string
    decreases |notes|
  {
    if |notes| == 0 then header
    else Render(header, notes[..|notes| - 1], w) + "\n" + NoteText(notes[|notes| - 1], w)
  }

  /** The footer text. */
  function FooterText(header: string, f: Footer, w: PluralWords): string {
    Render(header, Lines(f), w)
  }

  /** The footer is built by appending only: it starts with its header, and
      every note adds at least its line break. */
  lemma {:induction false} RenderAppendOnly(header: string, notes: seq<FooterNote>, w: PluralWords)
    ensures header <= Render(header, notes, w)
    ensures |Render(header, notes, w)| >= |header| + |notes|
    decreases |notes|
  {
    if |notes| > 0 {
      RenderAppendOnly(header, notes[..|notes| - 1], w);
    }
  }

  /** The aggregate line of a footer: three listeners with 225 plays. */
  lemma StatsLineScenario(w: PluralWords)
    requires w.listeners(3) == "listeners" && w.plays(225) == "plays" && w.plays(75) == "plays"
    ensures NoteText(ListenerStats(Aggregate(3, 225, 75)), w)
            == "3" + " " + "listeners" + " - " + "225" + " total " + "plays" + " - "
               + "75" + " avg " + "plays"
  {
    var text := NoteText(ListenerStats(Aggregate(3, 225, 75)), w);
    assert text == Text.IntToString(3) + " " + w.listeners(3) + " - "
                   + Text.IntToString(225) + " total " + w.plays(225) + " - "
                   + Text.IntToString(75) + " avg " + w.plays(75);
    ScenarioNumbers();
  }

  lemma ScenarioNumbers()
    ensures Text.IntToString(3) == "3" && Text.IntToString(225) == "225"
    ensures Text.IntToString(75) == "75"
  {
    assert Text.NatToString(2) == "2";
    assert Text.NatToString(22) == "22";
    assert Text.NatToString(7) == "7";
  }

  // ---------------------------------------------------------------------
  // The three leaderboards
  // ---------------------------------------------------------------------

  const Day: int := 24 * 60 * 60

  /** The age beyond which the server leaderboard may hint at re-indexing. */
  const IndexHintAge: int := 30 * Day

  /** The parts of a server that the leaderboards read. */
  datatype GuildInfo = GuildInfo(
    members: seq<Presence.GuildUser>,
    whitelistRoleId: Option<nat>,
    specialGuild: Option<bool>)

  function AsPresenceGuild(guild: Option<GuildInfo>): Option<Presence.Guild> {
    match guild
    case None => None
    case Some(g) => Some(Presence.Guild(Some(g.members)))
  }

  /** A leaderboard reply: the description, the footer's header and its
      notes. */
  datatype Reply = Reply(description: string, header: string, footer: Footer)

  /** The services the leaderboards call and this model does not contain:
      the insert-or-replace of the requester's own row with their fresh
      play count, the member and privacy filters, the step that shows
      server members in the global list, and the list renderer (rows,
      requester, privacy level, hide private users). */
  datatype Services = Services(
    addOrReplace: (seq<Row>, int) -> seq<Row>,
    filterGuildUsers: seq<Row> -> seq<Row>,
    filterGlobalUsers: seq<Row> -> seq<Row>,
    showGuildMembers: (seq<Row>, seq<Presence.GuildUser>) -> seq<Row>,
    listToString: (seq<Row>, int, PrivacyLevel, bool) -> string)

  const ServerNobody: string := "Nobody in this server (not even you) has listened to this album."
  const GlobalNobody: string := "Nobody that uses .fmbot has listened to this album."
  const FriendsNobody: string := "None of your friends have listened to this album."

  /** The rows after the requester's own play count has been merged in,
      when it is known and the merge applies. */
  function Merged(rows: seq<Row>, userPlaycount: Option<int>, applies: bool, s: Services): (r: seq<Row>)
    ensures userPlaycount.None? || !applies ==> r == rows
    ensures userPlaycount.Some? && applies ==> r == s.addOrReplace(rows, userPlaycount.value)
  {
    if userPlaycount.Some? && applies then s.addOrReplace(rows, userPlaycount.value) else rows
  }

  /** The description: the rendered list, or the sentinel when the list is
      empty. */
  function Description(rows: seq<Row>, nobody: string, requester: int, level: PrivacyLevel,
                       hidePrivate: bool, s: Services): (d: string)
    ensures |rows| == 0 ==> d == nobody
    ensures |rows| > 0 ==> d == s.listToString(rows, requester, level, hidePrivate)
  {
    if |rows| == 0 then nobody else s.listToString(rows, requester, level, hidePrivate)
  }

  predicate HasMember(members: seq<Presence.GuildUser>, userId: int) {
    exists k :: 0 <= k < |members| && members[k].userId == userId
  }

  /** The member list the presence scan sees in the server leaderboard:
      the requester is added when missing. */
  function MembersWithRequester(members: seq<Presence.GuildUser>, requester: Presence.GuildUser)
    : (r: seq<Presence.GuildUser>)
    ensures forall u :: u in members ==> u in r
    ensures forall u :: u in r ==> u in members || u == requester
    ensures HasMember(members, requester.userId) ==> r == members
    ensures !HasMember(members, requester.userId) ==> r == members + [requester]
    ensures HasMember(r, requester.userId)
  {
    if HasMember(members, requester.userId) then members
    else
      assert (members + [requester])[|members|] == requester;
      members + [requester]
  }

  /** Adding the requester to the member list never changes the presence
      scan, because the scan skips the requester. */
  lemma {:induction false} RequesterDoesNotChangePresence(
    cache: RecentPlayCache.Cache, now: int, requester: int, q: Presence.PlayQuery,
    members: seq<Presence.GuildUser>, me: Presence.GuildUser)
    requires me.userId == requester
    ensures Presence.FindAlsoPlaying(cache, now, requester, q, members + [me])
            == Presence.FindAlsoPlaying(cache, now, requester, q, members)
    decreases |members|
  {
    if |members| == 0 {
      assert [me][1..] == [];
    } else {
      assert (members + [me])[1..] == members[1..] + [me];
      RequesterDoesNotChangePresence(cache, now, requester, q, members[1..], me);
    }
  }

  /** Hence the server leaderboard's "also listening" sentence is the one
      for the member list as stored. */
  lemma PresenceIgnoresAddedRequester(cache: RecentPlayCache.Cache, now: int,
                                      requester: Presence.GuildUser,
                                      members: seq<Presence.GuildUser>, album: AlbumInfo,
                                      timeAgo: int -> string)
    ensures Presence.GuildAlsoPlayingAlbum(cache, now, requester.userId,
                                           Some(Presence.Guild(Some(MembersWithRequester(members, requester)))),
                                           album.artistName, album.albumName, timeAgo)
            == Presence.GuildAlsoPlayingAlbum(cache, now, requester.userId,
                                              Some(Presence.Guild(Some(members))),
                                              album.artistName, album.albumName, timeAgo)
  {
    var q := Presence.AlbumQuery(album.artistName, album.albumName);
    if !HasMember(members, requester.userId) {
      RequesterDoesNotChangePresence(cache, now, requester.userId, q, members, requester);
      if |members| == 0 {
        assert MembersWithRequester(members, requester) == [requester];
      }
    }
  }

  /** The inputs of one leaderboard call that are the same for all three. */
  datatype Request = Request(
    requester: Presence.GuildUser,
    prefix: string,
    userTitle: string,
    now: int,
    cache: RecentPlayCache.Cache,
    timeAgo: int -> string)

  /** `WhoKnowsAlbumAsync` after the album was found: the server list with
      the requester's fresh play count, filtered to active members; the
      sentinel when nobody is left; and a footer with the occasional
      re-index hint, the aggregate, either the count of filtered users or
      the whitelist note, and the "also listening" sentence. */
  function ServerWhoKnows(req: Request, album: AlbumInfo, indexed: seq<Row>, guild: GuildInfo,
                          lastIndex: Option<int>, hintRoll: bool, s: Services): (r: Reply)
    ensures var users := Merged(indexed, album.userPlaycount, true, s);
            var filtered := s.filterGuildUsers(users);
            var f := r.footer;
            && r.description == Description(filtered, ServerNobody, req.requester.userId, Server, false, s)
            && r.header == "WhoKnows album requested by " + req.userTitle
            && (f.indexHint.Some? <==>
                  hintRoll && lastIndex.Some? && lastIndex.value < req.now - IndexHintAge)
            && (f.indexHint.Some? ==> f.indexHint.value == req.prefix)
            && f.stats == AggregateOf(filtered)
            && (f.filteredUsers.Some? <==> |users| > |filtered| && guild.whitelistRoleId.None?)
            && (f.filteredUsers.Some? ==> f.filteredUsers.value == |users| - |filtered|)
            && (f.whitelistOnly <==> guild.whitelistRoleId.Some?)
            && !(f.filteredUsers.Some? && f.whitelistOnly)
            && f.alsoPlaying == Presence.GuildAlsoPlayingAlbum(req.cache, req.now, req.requester.userId,
                                                               AsPresenceGuild(Some(guild)),
                                                               album.artistName, album.albumName, req.timeAgo)
            && f.hiddenFriends.None? && f.friendsRequestedBy.None? && !f.adminView
            && f.notGloballyVisible.None? && !f.privateUsersHidden
  {
    var users := Merged(indexed, album.userPlaycount, true, s);
    var filtered := s.filterGuildUsers(users);
    var members := MembersWithRequester(guild.members, req.requester);
    var alsoPlaying := Presence.GuildAlsoPlayingAlbum(req.cache, req.now, req.requester.userId,
                                                      Some(Presence.Guild(Some(members))),
                                                      album.artistName, album.albumName, req.timeAgo);
    PresenceIgnoresAddedRequester(req.cache, req.now, req.requester, guild.members, album, req.timeAgo);
    var footer := NoNotes.(
      indexHint := if hintRoll && lastIndex.Some? && lastIndex.value < req.now - IndexHintAge
                   then Some(req.prefix) else None,
      stats := AggregateOf(filtered),
      filteredUsers := if |users| > |filtered| && guild.whitelistRoleId.None?
                       then Some(|users| - |filtered|) else None,
      whitelistOnly := guild.whitelistRoleId.Some?,
      alsoPlaying := alsoPlaying);
    Reply(Description(filtered, ServerNobody, req.requester.userId, Server, false, s),
          "WhoKnows album requested by " + req.userTitle, footer)
  }

  /** The privacy level the global list is rendered with: server level,
      which shows names, only for an admin view in a special server. */
  function GlobalPrivacyLevel(adminView: bool, guild: Option<GuildInfo>): (p: PrivacyLevel)
    ensures p == Server <==> adminView && guild.Some? && guild.value.specialGuild == Some(true)
    ensures p != Private
  {
    if guild.Some? && adminView && guild.value.specialGuild == Some(true) then Server else Global
  }

  /** The WhoKnows options the global command reads. */
  datatype WhoKnowsSettings = WhoKnowsSettings(adminView: bool, hidePrivateUsers: bool)

  /** `GlobalWhoKnowsAlbumAsync` after the album was found. The requester's
      play count is merged whenever the command runs in a server
      (`inGuild`); the members are shown, and the admin view may apply,
      only when that server has a stored record (`guild`). The footer
      carries the aggregate, the "also listening" sentence, and, each on
      its own condition, the admin-view warning, the not-globally-visible
      hint and the hidden-private-users note. */
  function GlobalWhoKnows(req: Request, album: AlbumInfo, indexed: seq<Row>, inGuild: bool,
                          guild: Option<GuildInfo>, settings: WhoKnowsSettings,
                          userPrivacy: PrivacyLevel, s: Services): (r: Reply)
    ensures var users := Merged(indexed, album.userPlaycount, inGuild, s);
            var globalRows := s.filterGlobalUsers(users);
            var shown := if guild.Some? then s.showGuildMembers(globalRows, guild.value.members)
                         else globalRows;
            var f := r.footer;
            && r.description == Description(shown, GlobalNobody, req.requester.userId,
                                            GlobalPrivacyLevel(settings.adminView, guild),
                                            settings.hidePrivateUsers, s)
            && r.header == "Global WhoKnows album requested by " + req.userTitle
            && f.stats == AggregateOf(shown)
            && f.alsoPlaying == Presence.GuildAlsoPlayingAlbum(req.cache, req.now, req.requester.userId,
                                                               AsPresenceGuild(guild),
                                                               album.artistName, album.albumName, req.timeAgo)
            && (f.adminView <==> settings.adminView)
            && (f.notGloballyVisible.Some? <==> userPrivacy != Global)
            && (f.notGloballyVisible.Some? ==> f.notGloballyVisible.value == req.prefix)
            && (f.privateUsersHidden <==> settings.hidePrivateUsers)
            && f.indexHint.None? && f.hiddenFriends.None? && f.friendsRequestedBy.None?
            && f.filteredUsers.None? && !f.whitelistOnly
  {
    var users := Merged(indexed, album.userPlaycount, inGuild, s);
    var globalRows := s.filterGlobalUsers(users);
    var shown := if guild.Some? then s.showGuildMembers(globalRows, guild.value.members)
                 else globalRows;
    var level := GlobalPrivacyLevel(settings.adminView, guild);
    var footer := NoNotes.(
      stats := AggregateOf(shown),
      alsoPlaying := Presence.GuildAlsoPlayingAlbum(req.cache, req.now, req.requester.userId,
                                                    AsPresenceGuild(guild),
                                                    album.artistName, album.albumName, req.timeAgo),
      adminView := settings.adminView,
      notGloballyVisible := if userPrivacy != Global then Some(req.prefix) else None,
      privateUsersHidden := settings.hidePrivateUsers);
    Reply(Description(shown, GlobalNobody, req.requester.userId, level, settings.hidePrivateUsers, s),
          "Global WhoKnows album requested by " + req.userTitle, footer)
  }

  /** Outside a server there is no server record: the global list is the
      filtered rows as indexed, never rendered at server level, and has no
      "also listening" line. */
  lemma GlobalOutsideServer(req: Request, album: AlbumInfo, indexed: seq<Row>,
                            settings: WhoKnowsSettings, userPrivacy: PrivacyLevel, s: Services)
    ensures var r := GlobalWhoKnows(req, album, indexed, false, None, settings, userPrivacy, s);
            && r.footer.alsoPlaying.None?
            && (|s.filterGlobalUsers(indexed)| > 0 ==>
                  r.description == s.listToString(s.filterGlobalUsers(indexed), req.requester.userId,
                                                  Global, settings.hidePrivateUsers))
  {
  }

  /** In a server without a stored record the requester's fresh play count
      is still merged before the global filter; only the member display and
      the server-level rendering need the record. */
  lemma GlobalInServerWithoutRecord(req: Request, album: AlbumInfo, indexed: seq<Row>,
                                    settings: WhoKnowsSettings, userPrivacy: PrivacyLevel, s: Services)
    requires album.userPlaycount.Some?
    ensures var r := GlobalWhoKnows(req, album, indexed, true, None, settings, userPrivacy, s);
            var rows := s.filterGlobalUsers(s.addOrReplace(indexed, album.userPlaycount.value));
            && r.footer.stats == AggregateOf(rows)
            && (|rows| > 0 ==>
                  r.description == s.listToString(rows, req.requester.userId, Global,
                                                  settings.hidePrivateUsers))
  {
  }

  /** A friend entry; a friend who does not use the bot has no user id. */
  datatype Friend = Friend(friendUserId: Option<int>)

  /** The number of friends who do not use the bot. */
  function HiddenFriendCount(friends: seq<Friend>): (n: nat)
    ensures n <= |friends|
    ensures n == 0 <==> forall k :: 0 <= k < |friends| ==> friends[k].friendUserId.Some?
    ensures n == |friends| <==> forall k :: 0 <= k < |friends| ==> friends[k].friendUserId.None?
    decreases |friends|
  {
    if |friends| == 0 then 0
    else
      var rest := HiddenFriendCount(friends[..|friends| - 1]);
      assert forall k :: 0 <= k < |friends| - 1 ==> friends[..|friends| - 1][k] == friends[k];
      rest + (if friends[|friends| - 1].friendUserId.None? then 1 else 0)
  }

  /** Counting distributes over concatenation, so the count is the number
      of friends without an id, one by one. */
  lemma {:induction false} HiddenFriendCountAppend(a: seq<Friend>, b: seq<Friend>)
    ensures HiddenFriendCount(a + b) == HiddenFriendCount(a) + HiddenFriendCount(b)
    decreases |b|
  {
    if |b| == 0 {
      assert a + b == a;
    } else {
      var n := |b| - 1;
      assert (a + b)[..|a + b| - 1] == a + b[..n];
      HiddenFriendCountAppend(a, b[..n]);
      assert (a + b)[|a + b| - 1] == b[n];
    }
  }

  /** One friend counts exactly when they have no id. */
  lemma HiddenFriendCountOne(f: Friend)
    ensures HiddenFriendCount([f]) == if f.friendUserId.None? then 1 else 0
  {
    assert [f][..0] == [];
  }

  /** How the friends command ends. */
  datatype FriendsOutcome = NoFriends | SearchStopped(stopped: SearchReply) | Shown(reply: Reply)

  /** `FriendWhoKnowsAlbumAsync`: a user without friends is told how to
      add some before any search; otherwise, once the album is found, the
      friends' list with the requester's fresh play count (merged inside a
      server), the sentinel when it is empty, and a footer with the count
      of friends who do not use the bot (when there are any), the
      requester line and the aggregate. The footer has no header of its
      own: every line starts with a line break. */
  function FriendsWhoKnows(req: Request, friends: Option<seq<Friend>>, search: SearchReply,
                           indexed: seq<Row>, inGuild: bool, s: Services): (r: FriendsOutcome)
    ensures r == NoFriends <==> friends.None? || |friends.value| == 0
    ensures r.SearchStopped? <==> r != NoFriends && !search.Found?
    ensures r.SearchStopped? ==> r.stopped == search
    ensures r.Shown? ==>
              var users := Merged(indexed, search.album.userPlaycount, inGuild, s);
              var hidden := HiddenFriendCount(friends.value);
              var f := r.reply.footer;
              && r.reply.description == Description(users, FriendsNobody, req.requester.userId, Server, false, s)
              && r.reply.header == ""
              && (f.hiddenFriends.Some? <==> exists k :: 0 <= k < |friends.value|
                                                  && friends.value[k].friendUserId.None?)
              && (f.hiddenFriends.Some? ==> f.hiddenFriends.value == hidden)
              && f.friendsRequestedBy == Some(req.userTitle)
              && f.stats == AggregateOf(users)
              && f.indexHint.None? && f.filteredUsers.None? && !f.whitelistOnly
              && f.alsoPlaying.None? && !f.adminView && f.notGloballyVisible.None?
              && !f.privateUsersHidden
  {
    if friends.None? || |friends.value| == 0 then NoFriends
    else if !search.Found? then SearchStopped(search)
    else
      var users := Merged(indexed, search.album.userPlaycount, inGuild, s);
      var hidden := HiddenFriendCount(friends.value);
      var footer := NoNotes.(
        hiddenFriends := if hidden > 0 then Some(hidden) else None,
        friendsRequestedBy := Some(req.userTitle),
        stats := AggregateOf(users));
      Shown(Reply(Description(users, FriendsNobody, req.requester.userId, Server, false, s), "", footer))
  }
}

=== FILE: arith.dfy ===
/** Small facts about integer multiplication and Euclidean division that
    the solver does not find on its own. */
module Arith {
  /** Multiplying both sides by the same positive number keeps a strict
      order, so it can be cancelled. */
  lemma LessAfterScaling(x: int, y: int, n: int)
    requires n > 0 && x * n < y * n
    ensures x < y
  {
  }

  /** Multiplying by a non-negative number keeps a weak order. */
  lemma MulMonotone(a: int, b: int, n: int)
    requires n >= 0 && a <= b
    ensures n * a <= n * b
  {
  }

  /** Euclidean division is unique: a quotient and remainder that rebuild
      the dividend, with the remainder below the divisor, are the ones
      `/` and `%` give. */
  lemma DivModUnique(i: int, w: int, q: int, c: int)
    requires w >= 1 && 0 <= c < w && i == q * w + c
    ensures i / w == q && i % w == c
  {
    var q2 := i / w;
    var c2 := i % w;
    assert (q - q2) * w == c2 - c;
    MultipleOfDivisor(q - q2, w);
  }

  /** A non-zero multiple of a positive number is at least that number
      away from zero. */
  lemma MultipleOfDivisor(d: int, w: int)
    requires w >= 1
    ensures d >= 1 ==> d * w >= w
    ensures d <= -1 ==> d * w <= -w
  {
  }

  /** The `(int)` cast of a quotient computed in floating point: division
      that rounds toward zero, so the quotient times the divisor lies
      between zero and the dividend, less than one divisor away from it. */
  function TruncDiv(a: int, b: int): (q: int)
    requires b > 0
    ensures a >= 0 ==> q == a / b && 0 <= q * b <= a < q * b + b
    ensures a < 0 ==> a <= q * b <= 0 && q * b < a + b
  {
    if a >= 0 then
      DivBounds(a, b);
      a / b
    else
      DivBounds(-a, b);
      -((-a) / b)
  }

  /** Euclidean division of a non-negative number: the quotient times the
      divisor is at most the dividend, and less than one divisor below it. */
  lemma DivBounds(a: int, b: int)
    requires a >= 0 && b > 0
    ensures 0 <= (a / b) * b <= a < (a / b) * b + b
  {
    var q := a / b;
    var c := a % b;
    assert a == q * b + c && 0 <= c < b;
    assert q >= 0;
    MulMonotone(0, q, b);
  }
}

=== FILE: artist_models.dfy ===
/** The record types behind the artist leaderboards, and the constructor of
    `ArtistSearch`, which flags a search as "random" when it carries both a
    random position and a random play count. */
module ArtistModels {
  import opened Wrappers

  /** The smallest and largest values of a C# `int`. */
  const Int32Min: int := -0x8000_0000
  const Int32Max: int := 0x7FFF_FFFF

  predicate IsInt32(x: int) {
    Int32Min <= x <= Int32Max
  }

  /** Who may see a user in a leaderboard. The enum itself is declared in a
      domain project that is not part of this model; these are the levels the
      leaderboard code refers to. */
  datatype PrivacyLevel = Private | Server | Global

  /** How a server ranking is ordered; the C# enum carries the values 1 and 2. */
  datatype OrderType = Playcount | Listeners {
    function Value(): (v: int)
      ensures 1 <= v <= 2
    {
      match this
      case Playcount => 1
      case Listeners => 2
    }
  }

  /** The declared member with this value, if there is one. */
  function OrderTypeFromValue(v: int): (r: Option<OrderType>)
    ensures r.Some? <==> v == 1 || v == 2
  {
    if v == 1 then Some(Playcount)
    else if v == 2 then Some(Listeners)
    else None
  }

  /** The two members and their values are in one-to-one correspondence. */
  lemma OrderTypeValues(o: OrderType, v: int)
    ensures OrderTypeFromValue(o.Value()) == Some(o)
    ensures OrderTypeFromValue(v).Some? ==> OrderTypeFromValue(v).value.Value() == v
    ensures Playcount.Value() == 1 && Listeners.Value() == 2
  {
  }

  /** A row of a server artist leaderboard. A `DateTime?` is a second count,
      a `bool?` an optional boolean. */
  datatype WhoKnowsArtistDto = WhoKnowsArtistDto(
    userId: int,
    name: string,
    playcount: int,
    userNameLastFm: string,
    lastUsed: Option<int>,
    discordUserId: nat,
    userName: string,
    whoKnowsWhitelisted: Option<bool>)

  /** A row of the global artist leaderboard; it carries the user's privacy
      level so that the global list can hide users. */
  datatype WhoKnowsGlobalArtistDto = WhoKnowsGlobalArtistDto(
    userId: int,
    name: string,
    playcount: int,
    userNameLastFm: string,
    discordUserId: nat,
    registeredLastFm: Option<int>,
    privacyLevel: PrivacyLevel)

  /** The result of an artist search. `A` is the artist info and `R` the
      response model, both opaque here. */
  datatype ArtistSearch<A, R> = ArtistSearch(
    artist: A,
    response: R,
    isRandom: bool,
    randomArtistPosition: Option<int>,
    randomArtistPlaycount: Option<int>)

  /** C#'s unchecked `int` addition of one: `int.MaxValue + 1` wraps to
      `int.MinValue`. */
  function Int32Increment(x: int): (r: int)
    requires IsInt32(x)
    ensures IsInt32(r)
    ensures x < Int32Max ==> r == x + 1
    ensures x == Int32Max ==> r == Int32Min
  {
    if x == Int32Max then Int32Min else x + 1
  }

  /** The constructor: the search is random iff both optional arguments are
      present; the position is shifted from zero-based to one-based (a lifted
      `int?` addition, so a missing position stays missing); everything else
      is copied. */
  function NewArtistSearch<A, R>(artist: A, response: R,
                                 randomArtistPosition: Option<int>,
                                 randomArtistPlaycount: Option<int>): (r: ArtistSearch<A, R>)
    requires randomArtistPosition.Some? ==> IsInt32(randomArtistPosition.value)
    ensures r.isRandom <==> randomArtistPosition.Some? && randomArtistPlaycount.Some?
    ensures r.randomArtistPosition.Some? <==> randomArtistPosition.Some?
    ensures randomArtistPosition.Some? && randomArtistPosition.value < Int32Max ==>
              r.randomArtistPosition.value == randomArtistPosition.value + 1
    ensures randomArtistPosition == Some(Int32Max) ==> r.randomArtistPosition == Some(Int32Min)
    ensures r.randomArtistPlaycount == randomArtistPlaycount
    ensures r.artist == artist && r.response == response
  {
    var position := match randomArtistPosition
      case None => None
      case Some(p) => Some(Int32Increment(p));
    ArtistSearch(artist, response,
                 randomArtistPosition.Some? && randomArtistPlaycount.Some?,
                 position, randomArtistPlaycount)
  }

  /** A random search remembers where the artist stood: subtracting one from
      the shown position gives the zero-based position back. */
  lemma RandomPositionRoundTrip<A, R>(artist: A, response: R, position: nat, playcount: int)
    requires position < Int32Max
    ensures var s := NewArtistSearch(artist, response, Some(position), Some(playcount));
            s.isRandom && s.randomArtistPosition.value - 1 == position
  {
  }
}

=== FILE: chart.dfy ===
/** The chart command's option parser, the text it adds to the chart's
    description, and the integer layout of the chart grid. Image download,
    decoding, resizing and drawing are not part of this model: an image is
    the handful of facts the layout reads, and every tile has the size the
    resizing step gives it. */
module Chart {
  import opened Wrappers
  import Text
  import Arith

  // ---------------------------------------------------------------------
  // Settings
  // ---------------------------------------------------------------------

  datatype TitleSetting = Titles | TitlesDisabled | ClassicTitles

  /** The chart settings the parser, the description and the layout read
      and write. `censoredAlbums` is a nullable counter. */
  datatype ChartSettings = ChartSettings(
    titleSetting: TitleSetting,
    skipWithoutImage: bool,
    skipNsfw: bool,
    rainbowSortingEnabled: bool,
    customOptionsEnabled: bool,
    width: int,
    height: int,
    usePlays: bool,
    imagesNeeded: int,
    artistChart: bool,
    containsNsfw: bool,
    censoredAlbums: Option<int>)

  const DefaultChartSize: int := 3

  predicate NoTitlesOption(options: seq<string>) {
    "notitles" in options || "nt" in options
  }

  predicate ClassicTitlesOption(options: seq<string>) {
    "classictitles" in options || "ct" in options
  }

  predicate SkipOption(options: seq<string>) {
    "skipemptyimages" in options || "skipemptyalbums" in options || "skipalbums" in options
    || "skip" in options || "s" in options
  }

  predicate RainbowOption(options: seq<string>) {
    "rainbow" in options || "pride" in options
  }

  /** Whether the options hold a recognised flag (the size option is not
      one). Options are compared exactly, case and all. */
  predicate AnyFlag(options: seq<string>) {
    NoTitlesOption(options) || ClassicTitlesOption(options) || SkipOption(options)
    || "sfw" in options || RainbowOption(options)
  }

  // ---------------------------------------------------------------------
  // The size option
  // ---------------------------------------------------------------------

  /** One side of the size pattern: 1 to 9, 10 to 49, or 50, written
      without a leading zero. */
  function Side(s: string): (r: Option<int>)
    ensures r.Some? ==> 1 <= r.value <= 50
  {
    if |s| == 1 && '1' <= s[0] <= '9' then Some(Text.DigitValue(s[0]))
    else if |s| == 2 && '1' <= s[0] <= '4' && Text.IsDigit(s[1]) then
      Some(10 * Text.DigitValue(s[0]) + Text.DigitValue(s[1]))
    else if s == "50" then Some(50)
    else None
  }

  /** The text after the pattern's end anchor may hold one final line
      feed, which the anchor lets through. */
  function DropFinalNewline(s: string): string {
    if |s| > 0 && s[|s| - 1] == '\n' then s[..|s| - 1] else s
  }

  /** The case-insensitive size pattern "{side}x{side}". A matching
      option is lower-cased and split at its one `x`. */
  function SizeOf(option: string): (r: Option<(int, int)>)
    ensures r.Some? ==> 1 <= r.value.0 <= 50 && 1 <= r.value.1 <= 50
    ensures r.Some? ==> Text.ToLower(DropFinalNewline(option))
                        == Text.NatToString(r.value.0) + "x" + Text.NatToString(r.value.1)
  {
    match Text.Find(Text.ToLower(option), "x")
    case None => None
    case Some(k) =>
      match (Side(option[..k]), Side(DropFinalNewline(option[k + 1..])))
      case (Some(w), Some(h)) =>
        SizeOfShape(option, k);
        Some((w, h))
      case _ => None
  }

  /** An accepted option is, up to the case of its `x` and a final line
      feed, the decimal text of its two sides around an `x`. */
  lemma SizeOfShape(option: string, k: nat)
    requires Text.Find(Text.ToLower(option), "x") == Some(k)
    requires Side(option[..k]).Some? && Side(DropFinalNewline(option[k + 1..])).Some?
    ensures Text.ToLower(DropFinalNewline(option))
            == Text.NatToString(Side(option[..k]).value) + "x"
               + Text.NatToString(Side(DropFinalNewline(option[k + 1..])).value)
  {
    var a := option[..k];
    var b := DropFinalNewline(option[k + 1..]);
    SideIsDecimal(a);
    SideIsDecimal(b);
    DigitsAreLower(a);
    DigitsAreLower(b);
    assert Text.ToLower([option[k]]) == "x" by {
      assert Text.ToLower(option)[k] == 'x';
    }
    assert DropFinalNewline(option) == a + [option[k]] + b;
    Text.ToLowerAppend(a, [option[k]]);
    Text.ToLowerAppend(a + [option[k]], b);
  }

  /** The converse of `SizeOfShape`: the pattern is matched ignoring case
      and before a final line feed, so every option that is "{w}x{h}" up
      to the case of its `x` and a final line feed reads as (w, h). */
  lemma SizeOfAnyCase(option: string, w: int, h: int)
    requires 1 <= w <= 50 && 1 <= h <= 50
    requires Text.ToLower(DropFinalNewline(option))
             == Text.NatToString(w) + "x" + Text.NatToString(h)
    ensures SizeOf(option) == Some((w, h))
  {
    var a := Text.NatToString(w);
    var b := Text.NatToString(h);
    var d := DropFinalNewline(option);
    var k := |a|;
    SideOfDecimal(w);
    SideOfDecimal(h);
    DropFinalNewlineParts(option, k + 1);
    var l := Text.ToLower(option);
    assert l[..|d|] == a + "x" + b by {
      Text.ToLowerSlice(option, 0, |d|);
    }
    assert Text.Find(l, "x") == Some(k) by {
      assert l[k] == l[..|d|][k];
      assert forall j :: 0 <= j < k ==> l[j] == l[..|d|][j] == a[j];
      FirstXAt(l, k);
    }
    assert option[..k] == a by {
      assert l[..k] == l[..|d|][..k];
      LowerPrefixIsDigits(option, a);
    }
    assert DropFinalNewline(option[k + 1..]) == b by {
      Text.ToLowerSlice(d, k + 1, |d|);
      assert (a + "x" + b)[k + 1..] == b;
      assert Text.ToLower(d[k + 1..]) == b;
      Text.LowerDigitsWereDigits(d[k + 1..]);
    }
    SizeOfFromParts(option, k);
  }

  /** `SizeOf` reads its sides around the first `x`. */
  lemma SizeOfFromParts(option: string, k: nat)
    requires Text.Find(Text.ToLower(option), "x") == Some(k)
    requires Side(option[..k]).Some? && Side(DropFinalNewline(option[k + 1..])).Some?
    ensures SizeOf(option)
            == Some((Side(option[..k]).value, Side(DropFinalNewline(option[k + 1..])).value))
  {
  }

  /** "5X8" and "5x8" followed by a line feed are both read as five by
      eight. */
  lemma AnyCaseScenario()
    ensures SizeOf("5x8\n") == Some((5, 8))
    ensures IsSizeOption("5X8")
  {
    assert Text.NatToString(5) + "x" + Text.NatToString(8) == "5x8";
    assert DropFinalNewline("5x8\n") == "5x8";
    assert Text.ToLower("5x8") == "5x8";
    SizeOfAnyCase("5x8\n", 5, 8);
    assert DropFinalNewline("5X8") == "5X8";
    assert Text.ToLower("5X8") == "5x8";
    SizeOptionAnyCase("5X8", 5, 8);
  }

  /** Dropping a final line feed keeps a prefix of the string, and it
      commutes with dropping a non-empty part of what it keeps. */
  lemma DropFinalNewlineParts(s: string, k: nat)
    requires k < |DropFinalNewline(s)|
    ensures |DropFinalNewline(s)| <= |s|
    ensures s[..|DropFinalNewline(s)|] == DropFinalNewline(s)
    ensures DropFinalNewline(s[k..]) == DropFinalNewline(s)[k..]
  {
  }

  /** In a string whose characters before position `k` are digits, the
      first `x` is at `k` when there is one there. */
  lemma FirstXAt(s: string, k: nat)
    requires k < |s| && s[k] == 'x'
    requires forall j :: 0 <= j < k ==> Text.IsDigit(s[j])
    ensures Text.Find(s, "x") == Some(k)
  {
    forall j | 0 <= j < k ensures !Text.OccursAt(s, "x", j) {
      assert s[j..][0] == s[j];
    }
    assert s[k..][0] == s[k];
    assert Text.OccursAt(s, "x", k);
  }

  /** A prefix that lower-cases to decimal digits is those digits. */
  lemma LowerPrefixIsDigits(s: string, a: string)
    requires Text.AllDigits(a) && |a| <= |s|
    requires Text.ToLower(s)[..|a|] == a
    ensures s[..|a|] == a
  {
    Text.ToLowerSlice(s, 0, |a|);
    Text.LowerDigitsWereDigits(s[..|a|]);
  }

  /** Any case of "{w}x{h}", with or without a final line feed, that fits
      the five-character limit of the size loop is a size option. */
  lemma SizeOptionAnyCase(option: string, w: int, h: int)
    requires 1 <= w <= 50 && 1 <= h <= 50 && |option| <= 5
    requires Text.ToLower(DropFinalNewline(option))
             == Text.NatToString(w) + "x" + Text.NatToString(h)
    ensures IsSizeOption(option)
  {
    SizeOfAnyCase(option, w, h);
    SideOfDecimal(w);
    var d := DropFinalNewline(option);
    DropFinalNewlineParts(option, 0);
    assert Text.IsDigit(Text.ToLower(d)[0]);
    assert Text.IsDigit(option[0]) by {
      assert option[0] == d[0];
      assert Text.ToLower(d)[0] == Text.LowerChar(d[0]);
    }
    assert !Text.IsWhiteSpace(option[0]);
  }

  /** Lower-casing leaves decimal digits alone. */
  lemma DigitsAreLower(s: string)
    requires Text.AllDigits(s)
    ensures Text.ToLower(s) == s
  {
    assert forall i :: 0 <= i < |s| ==> Text.ToLower(s)[i] == s[i];
  }

  /** The options the size loop looks at: not blank, three to five
      characters long, and matching the pattern. */
  predicate IsSizeOption(option: string) {
    !Text.IsNullOrWhiteSpace(Some(option)) && 3 <= |option| <= 5 && SizeOf(option).Some?
  }

  /** The last element of `xs` that satisfies `p`, if any. */
  function LastWhere<T>(xs: seq<T>, p: T -> bool): (r: Option<T>)
    ensures r.Some? ==> r.value in xs && p(r.value)
    decreases |xs|
  {
    if |xs| == 0 then None
    else if p(xs[|xs| - 1]) then Some(xs[|xs| - 1])
    else LastWhere(xs[..|xs| - 1], p)
  }

  lemma {:induction false} LastWhereNone<T>(xs: seq<T>, p: T -> bool)
    ensures LastWhere(xs, p).None? <==> forall k :: 0 <= k < |xs| ==> !p(xs[k])
    decreases |xs|
  {
    if |xs| > 0 {
      var init := xs[..|xs| - 1];
      LastWhereNone(init, p);
      assert forall k :: 0 <= k < |init| ==> init[k] == xs[k];
    }
  }

  lemma {:induction false} LastWhereIsLast<T>(before: seq<T>, x: T, after: seq<T>, p: T -> bool)
    requires p(x) && forall k :: 0 <= k < |after| ==> !p(after[k])
    ensures LastWhere(before + [x] + after, p) == Some(x)
    decreases |after|
  {
    var xs := before + [x] + after;
    if |after| == 0 {
      assert xs[|xs| - 1] == x;
    } else {
      var shorter := after[..|after| - 1];
      LastWhereIsLast(before, x, shorter, p);
      assert xs[..|xs| - 1] == before + [x] + shorter;
      assert xs[|xs| - 1] == after[|after| - 1];
    }
  }

  /** The size given by the last size option, if any: the size loop
      overwrites the width and height at every size option. */
  function LastSize(options: seq<string>): (r: Option<(int, int)>)
    ensures r.Some? ==> 1 <= r.value.0 <= 50 && 1 <= r.value.1 <= 50
  {
    match LastWhere(options, IsSizeOption)
    case None => None
    case Some(o) => SizeOf(o)
  }

  /** The default size is kept exactly when no option is a size option. */
  lemma LastSizeNone(options: seq<string>)
    ensures LastSize(options).None? <==> forall k :: 0 <= k < |options| ==> !IsSizeOption(options[k])
  {
    LastWhereNone(options, IsSizeOption);
  }

  /** A side's text is the decimal text of its value, so `int.TryParse`
      reads the value back; and every value from 1 to 50 has exactly one
      text. */
  lemma SideIsDecimal(s: string)
    requires Side(s).Some?
    ensures s == Text.NatToString(Side(s).value)
    ensures Text.AllDigits(s) && Text.ParseDigits(s) == Side(s).value
  {
    var n := Side(s).value;
    if |s| == 2 {
      assert Text.NatToString(n) == Text.NatToString(n / 10) + [Text.DigitChar(n % 10)];
      assert s == [s[0]] + [s[1]];
    }
    Text.ParseNatToString(n);
  }

  lemma {:induction false} SideOfDecimal(n: int)
    requires 1 <= n <= 50
    ensures Side(Text.NatToString(n)) == Some(n)
    ensures |Text.NatToString(n)| <= 2
  {
    var s := Text.NatToString(n);
    if n >= 10 {
      assert s == Text.NatToString(n / 10) + [Text.DigitChar(n % 10)];
      assert Text.NatToString(n / 10) == [Text.DigitChar(n / 10)];
      if n == 50 {
        assert s == "50";
      }
    }
  }

  /** Writing a size and reading it back gives the size. */
  lemma SizeRoundTrip(w: int, h: int)
    requires 1 <= w <= 50 && 1 <= h <= 50
    ensures var o := Text.NatToString(w) + "x" + Text.NatToString(h);
            IsSizeOption(o) && SizeOf(o) == Some((w, h))
  {
    var a := Text.NatToString(w);
    var b := Text.NatToString(h);
    SizeTextParses(w, h);
    SideOfDecimal(w);
    SideOfDecimal(h);
    var o := a + "x" + b;
    assert 3 <= |o| <= 5;
    assert !Text.IsWhiteSpace(o[|a|]);
  }

  lemma SizeTextParses(w: int, h: int)
    requires 1 <= w <= 50 && 1 <= h <= 50
    ensures var o := Text.NatToString(w) + "x" + Text.NatToString(h);
            SizeOf(o) == Some((w, h))
  {
    SideOfDecimal(w);
    SideOfDecimal(h);
    SizeOfParts(Text.NatToString(w), Text.NatToString(h));
  }

  /** Two sides joined by an `x` read back as those sides. */
  lemma SizeOfParts(a: string, b: string)
    requires Side(a).Some? && Side(b).Some? && Text.AllDigits(a) && Text.AllDigits(b)
    ensures SizeOf(a + "x" + b) == Some((Side(a).value, Side(b).value))
  {
    var o := a + "x" + b;
    FirstXAfterDigits(a, b);
    assert o[..|a|] == a;
    assert o[|a| + 1..] == b;
    assert Text.IsDigit(b[|b| - 1]);
  }

  lemma FirstXAfterDigits(a: string, b: string)
    requires Text.AllDigits(a)
    ensures Text.Find(Text.ToLower(a + "x" + b), "x") == Some(|a|)
  {
    var lower := Text.ToLower(a + "x" + b);
    forall j | 0 <= j < |a| ensures !Text.OccursAt(lower, "x", j) {
      assert lower[j..][0] == a[j];
    }
    assert Text.OccursAt(lower, "x", |a|);
  }

  // ---------------------------------------------------------------------
  // SetSettings
  // ---------------------------------------------------------------------

  /** The flag options of `SetSettings`: each recognised flag switches its
      setting on and marks the chart as customised; "rainbow" and "pride"
      also switch on skipping missing images, and "classictitles" wins over
      "notitles". */
  function ApplyFlags(current: ChartSettings, options: seq<string>): (r: ChartSettings)
    ensures r.customOptionsEnabled <==> AnyFlag(options)
    ensures ClassicTitlesOption(options) ==> r.titleSetting == ClassicTitles
    ensures !ClassicTitlesOption(options) && NoTitlesOption(options) ==> r.titleSetting == TitlesDisabled
    ensures !ClassicTitlesOption(options) && !NoTitlesOption(options) ==> r.titleSetting == current.titleSetting
    ensures r.skipWithoutImage <==> current.skipWithoutImage || SkipOption(options) || RainbowOption(options)
    ensures r.skipNsfw <==> current.skipNsfw || "sfw" in options
    ensures r.rainbowSortingEnabled <==> current.rainbowSortingEnabled || RainbowOption(options)
    ensures r.rainbowSortingEnabled ==> r.skipWithoutImage || !RainbowOption(options)
    ensures r.width == current.width && r.height == current.height && r.usePlays == current.usePlays
    ensures r.imagesNeeded == current.imagesNeeded && r.artistChart == current.artistChart
    ensures r.containsNsfw == current.containsNsfw && r.censoredAlbums == current.censoredAlbums
  {
    current.(titleSetting := TitleAfter(current.titleSetting, options),
             skipWithoutImage := SkipsWithoutImage(current, options),
             skipNsfw := SkipsNsfw(current, options),
             rainbowSortingEnabled := SortsRainbow(current, options),
             customOptionsEnabled := AnyFlag(options))
  }

  /** The title setting after the options: "classictitles" is applied after
      "notitles" and so wins over it. */
  function TitleAfter(current: TitleSetting, options: seq<string>): TitleSetting {
    if ClassicTitlesOption(options) then ClassicTitles
    else if NoTitlesOption(options) then TitlesDisabled
    else current
  }

  /** A skip option or a rainbow option switches on skipping missing
      images; nothing switches it off. */
  predicate SkipsWithoutImage(current: ChartSettings, options: seq<string>) {
    current.skipWithoutImage || SkipOption(options) || RainbowOption(options)
  }

  predicate SkipsNsfw(current: ChartSettings, options: seq<string>) {
    current.skipNsfw || "sfw" in options
  }

  predicate SortsRainbow(current: ChartSettings, options: seq<string>) {
    current.rainbowSortingEnabled || RainbowOption(options)
  }

  /** The size loop of `SetSettings`: the default three by three, unless a
      size option overrides it. */
  function ChartSize(options: seq<string>): (r: (int, int))
    ensures 1 <= r.0 <= 50 && 1 <= r.1 <= 50
    ensures LastSize(options).None? ==> r == (DefaultChartSize, DefaultChartSize)
    ensures LastSize(options).Some? ==> r == LastSize(options).value
  {
    LastSize(options).GetOr((DefaultChartSize, DefaultChartSize))
  }

  /** `SetSettings`. `periodUsesPlays` is whether the time-period parser
      (not part of this model) reads the options as a play-count period. */
  function SetSettings(current: ChartSettings, options: seq<string>, periodUsesPlays: bool)
    : (r: ChartSettings)
    ensures r.(width := current.width, height := current.height, usePlays := current.usePlays)
            == ApplyFlags(current, options)
    ensures 1 <= r.width <= 50 && 1 <= r.height <= 50
    ensures LastSize(options).None? ==> r.width == DefaultChartSize && r.height == DefaultChartSize
    ensures LastSize(options).Some? ==> (r.width, r.height) == LastSize(options).value
    ensures r.usePlays <==> current.usePlays || periodUsesPlays
  {
    var size := ChartSize(options);
    ApplyFlags(current, options).(width := size.0, height := size.1,
                                  usePlays := UsesPlays(current, periodUsesPlays))
  }

  /** A play-count period switches play counting on; "weekly" then stands
      in for the period. */
  predicate UsesPlays(current: ChartSettings, periodUsesPlays: bool) {
    current.usePlays || periodUsesPlays
  }

  /** Flags are only ever switched on: applying the options again changes
      nothing. */
  lemma SetSettingsIdempotent(current: ChartSettings, options: seq<string>, periodUsesPlays: bool)
    ensures var once := SetSettings(current, options, periodUsesPlays);
            SetSettings(once, options, periodUsesPlays) == once
  {
  }

  /** The last size option wins, whatever came before it. */
  lemma LastSizeOptionWins(current: ChartSettings, before: seq<string>, option: string,
                           after: seq<string>, periodUsesPlays: bool)
    requires IsSizeOption(option)
    requires forall k :: 0 <= k < |after| ==> !IsSizeOption(after[k])
    ensures var r := SetSettings(current, before + [option] + after, periodUsesPlays);
            (r.width, r.height) == SizeOf(option).value
  {
    LastWhereIsLast(before, option, after, IsSizeOption);
  }

  /** "5x8" makes a five by eight chart; "rainbow" also skips images that
      are missing, and counts as a custom option. */
  lemma SetSettingsScenario(current: ChartSettings)
    ensures var r := SetSettings(current, ["rainbow", "5x8"], false);
            && r.width == 5 && r.height == 8
            && r.rainbowSortingEnabled && r.skipWithoutImage && r.customOptionsEnabled
  {
    ScenarioSize();
  }

  /** The size part of the scenario above: "5x8" is the last size option. */
  lemma ScenarioSize()
    ensures LastSize(["rainbow", "5x8"]) == Some((5, 8))
  {
    SizeRoundTrip(5, 8);
    assert Text.NatToString(5) + "x" + Text.NatToString(8) == "5x8";
    LastWhereIsLast(["rainbow"], "5x8", [], IsSizeOption);
    assert ["rainbow"] + ["5x8"] + [] == ["rainbow", "5x8"];
  }

  // ---------------------------------------------------------------------
  // The description
  // ---------------------------------------------------------------------

  /** The lines `AddSettingsToDescription` can append, in the order it
      appends them. `noun` is "Album"/"Albums" or "Artist"/"Artists". */
  datatype ChartNote =
    | OptionsHeading
    | SkippedWithoutImages(noun: string)
    | SkippedNsfw(noun: string)
    | TitlesDisabledNote(noun: string)
    | ClassicTitlesNote
    | RainbowNote
    | CoverTip
    | PlaysNotSupported
    | Supporter(name: string)

  function Rank(n: ChartNote): nat {
    match n
    case OptionsHeading => 0
    case SkippedWithoutImages(_) => 1
    case SkippedNsfw(_) => 2
    case TitlesDisabledNote(_) => 3
    case ClassicTitlesNote => 4
    case RainbowNote => 5
    case CoverTip => 6
    case PlaysNotSupported => 7
    case Supporter(_) => 8
  }

  function Single(chart: ChartSettings): string {
    if chart.artistChart then "Artist" else "Album"
  }

  function Multiple(chart: ChartSettings): string {
    if chart.artistChart then "Artists" else "Albums"
  }

  /** What decides each line. `tipRoll` stands for the one-in-three random
      draw of the cover tip; `randomSupporter` is the supporter's name, if
      one was drawn. */
  predicate Shows(chart: ChartSettings, randomSupporter: Option<string>, tipRoll: bool, n: ChartNote) {
    match n
    case OptionsHeading => chart.customOptionsEnabled
    case SkippedWithoutImages(noun) => chart.skipWithoutImage && noun == Multiple(chart)
    case SkippedNsfw(noun) => chart.skipNsfw && noun == Multiple(chart)
    case TitlesDisabledNote(noun) => chart.titleSetting == TitlesDisabled && noun == Single(chart)
    case ClassicTitlesNote => chart.titleSetting == ClassicTitles
    case RainbowNote => chart.rainbowSortingEnabled
    case CoverTip => chart.imagesNeeded == 1 && tipRoll && !chart.artistChart
    case PlaysNotSupported => chart.usePlays
    case Supporter(name) => !Text.IsNullOrEmpty(randomSupporter) && name == randomSupporter.value
  }

  /** The line of rank `r`, if the settings call for it. */
  function NoteAt(chart: ChartSettings, randomSupporter: Option<string>, tipRoll: bool, r: nat)
    : (s: seq<ChartNote>)
    ensures |s| <= 1
    ensures forall k :: 0 <= k < |s| ==> Rank(s[k]) == r
  {
    if r == 0 then (if chart.customOptionsEnabled then [OptionsHeading] else [])
    else if r == 1 then (if chart.skipWithoutImage then [SkippedWithoutImages(Multiple(chart))] else [])
    else if r == 2 then (if chart.skipNsfw then [SkippedNsfw(Multiple(chart))] else [])
    else if r == 3 then
      (if chart.titleSetting == TitlesDisabled then [TitlesDisabledNote(Single(chart))] else [])
    else if r == 4 then (if chart.titleSetting == ClassicTitles then [ClassicTitlesNote] else [])
    else if r == 5 then (if chart.rainbowSortingEnabled then [RainbowNote] else [])
    else if r == 6 then
      (if chart.imagesNeeded == 1 && tipRoll && !chart.artistChart then [CoverTip] else [])
    else if r == 7 then (if chart.usePlays then [PlaysNotSupported] else [])
    else if r == 8 then
      (if !Text.IsNullOrEmpty(randomSupporter) then [Supporter(randomSupporter.value)] else [])
    else []
  }

  function NotesBelow(chart: ChartSettings, randomSupporter: Option<string>, tipRoll: bool, k: nat)
    : seq<ChartNote>
    decreases k
  {
    if k == 0 then []
    else NotesBelow(chart, randomSupporter, tipRoll, k - 1) + NoteAt(chart, randomSupporter, tipRoll, k - 1)
  }

  /** The lines appended to the description, in order. */
  function Notes(chart: ChartSettings, randomSupporter: Option<string>, tipRoll: bool): seq<ChartNote> {
    NotesBelow(chart, randomSupporter, tipRoll, 9)
  }

  predicate InOrder(notes: seq<ChartNote>) {
    forall i, j :: 0 <= i < j < |notes| ==> Rank(notes[i]) < Rank(notes[j])
  }

  lemma AppendInOrder(a: seq<ChartNote>, b: seq<ChartNote>, m: nat)
    requires InOrder(a) && InOrder(b)
    requires forall k :: 0 <= k < |a| ==> Rank(a[k]) < m
    requires forall k :: 0 <= k < |b| ==> Rank(b[k]) == m
    ensures InOrder(a + b)
  {
  }

  lemma {:induction false} NotesBelowInOrder(chart: ChartSettings, randomSupporter: Option<string>,
                                             tipRoll: bool, k: nat)
    ensures InOrder(NotesBelow(chart, randomSupporter, tipRoll, k))
    ensures forall i :: 0 <= i < |NotesBelow(chart, randomSupporter, tipRoll, k)| ==>
              Rank(NotesBelow(chart, randomSupporter, tipRoll, k)[i]) < k
    decreases k
  {
    if k > 0 {
      NotesBelowInOrder(chart, randomSupporter, tipRoll, k - 1);
      AppendInOrder(NotesBelow(chart, randomSupporter, tipRoll, k - 1),
                    NoteAt(chart, randomSupporter, tipRoll, k - 1), k - 1);
    }
  }

  lemma {:induction false} NotesBelowMembers(chart: ChartSettings, randomSupporter: Option<string>,
                                             tipRoll: bool, k: nat, n: ChartNote)
    ensures n in NotesBelow(chart, randomSupporter, tipRoll, k)
            <==> Rank(n) < k && n in NoteAt(chart, randomSupporter, tipRoll, Rank(n))
    decreases k
  {
    if k > 0 {
      NotesBelowMembers(chart, randomSupporter, tipRoll, k - 1, n);
      var at := NoteAt(chart, randomSupporter, tipRoll, k - 1);
      assert n in at ==> Rank(n) == k - 1;
    }
  }

  lemma NoteAtShows(chart: ChartSettings, randomSupporter: Option<string>, tipRoll: bool, n: ChartNote)
    ensures n in NoteAt(chart, randomSupporter, tipRoll, Rank(n)) <==> Shows(chart, randomSupporter, tipRoll, n)
  {
  }

  /** The appended lines come in the fixed order, and each is there
      exactly when the settings call for it, with "Artist(s)" in place of
      "Album(s)" for an artist chart. */
  lemma NotesFaithful(chart: ChartSettings, randomSupporter: Option<string>, tipRoll: bool)
    ensures InOrder(Notes(chart, randomSupporter, tipRoll))
    ensures forall n :: n in Notes(chart, randomSupporter, tipRoll) <==> Shows(chart, randomSupporter, tipRoll, n)
  {
    NotesBelowInOrder(chart, randomSupporter, tipRoll, 9);
    forall n ensures n in Notes(chart, randomSupporter, tipRoll) <==> Shows(chart, randomSupporter, tipRoll, n) {
      NotesBelowMembers(chart, randomSupporter, tipRoll, 9, n);
      NoteAtShows(chart, randomSupporter, tipRoll, n);
    }
  }

  /** The heading comes first when it is there, and it is there exactly
      when custom options are on. */
  lemma HeadingFirst(chart: ChartSettings, randomSupporter: Option<string>, tipRoll: bool)
    ensures var notes := Notes(chart, randomSupporter, tipRoll);
            chart.customOptionsEnabled <==> |notes| > 0 && notes[0] == OptionsHeading
  {
    var notes := Notes(chart, randomSupporter, tipRoll);
    NotesFaithful(chart, randomSupporter, tipRoll);
    if chart.customOptionsEnabled {
      assert Shows(chart, randomSupporter, tipRoll, OptionsHeading);
      LaterRanksPositive(notes);
    } else {
      assert !Shows(chart, randomSupporter, tipRoll, OptionsHeading);
    }
  }

  lemma LaterRanksPositive(notes: seq<ChartNote>)
    requires InOrder(notes)
    ensures forall j :: 0 < j < |notes| ==> Rank(notes[j]) > 0
  {
    forall j | 0 < j < |notes| ensures Rank(notes[j]) > 0 {
      assert Rank(notes[0]) < Rank(notes[j]);
    }
  }

  /** A chart whose settings are all defaults adds nothing but the lines
      that do not depend on options. */
  lemma DefaultChartAddsNoOptionLines(chart: ChartSettings, randomSupporter: Option<string>, tipRoll: bool)
    requires !chart.customOptionsEnabled && !chart.skipWithoutImage && !chart.skipNsfw
    requires chart.titleSetting == Titles && !chart.rainbowSortingEnabled && !chart.usePlays
    requires chart.imagesNeeded != 1 && Text.IsNullOrEmpty(randomSupporter)
    ensures Notes(chart, randomSupporter, tipRoll) == []
  {
    NotesFaithful(chart, randomSupporter, tipRoll);
    var notes := Notes(chart, randomSupporter, tipRoll);
    assert forall n :: !Shows(chart, randomSupporter, tipRoll, n);
  }

  /** The text of each line. */
  function NoteText(n: ChartNote): string {
    match n
    case OptionsHeading => "Chart options:\n"
    case SkippedWithoutImages(noun) => "- " + noun + " without images skipped\n"
    case SkippedNsfw(noun) => "- " + noun + " with NSFW images skipped\n"
    case TitlesDisabledNote(noun) => "- " + noun + " titles disabled\n"
    case ClassicTitlesNote => "- Classic titles enabled\n"
    case RainbowNote => "- Secret rainbow option enabled! (Not perfect but hey, it somewhat exists)\n"
    case CoverTip =>
      "*Linus Tech Tip: If you want the cover of the album you're currently listening to, use `.cover` or `.co`.*\n"
    case PlaysNotSupported =>
      "⚠️ Sorry, but using time periods that use your play history isn't supported for this command.\n"
    case Supporter(name) =>
      "*This chart was brought to you by .fmbot supporter " + name
      + ". Also want to help .fmbot and get some small perks? [Get .fmbot supporter here.](https://opencollective.com/fmbot/contribute)*\n"
  }

  function Render(notes: seq<ChartNote>): string
    decreases |notes|
  {
    if |notes| == 0 then "" else NoteText(notes[0]) + Render(notes[1..])
  }

  /** `AddSettingsToDescription`: the description only grows, by the text
      of the lines the settings call for, in order. */
  function AddSettingsToDescription(chart: ChartSettings, description: string,
                                    randomSupporter: Option<string>, tipRoll: bool): (r: string)
    ensures description <= r
    ensures r[|description|..] == Render(Notes(chart, randomSupporter, tipRoll))
  {
    var added := Render(Notes(chart, randomSupporter, tipRoll));
    assert (description + added)[|description|..] == added;
    description + added
  }

  /** An album chart that skips images without a cover gains exactly the
      heading and that line; the same chart of artists says "Artists". */
  lemma DescriptionScenario(chart: ChartSettings, d: string)
    requires chart.customOptionsEnabled && chart.skipWithoutImage && !chart.skipNsfw
    requires chart.titleSetting == Titles && !chart.rainbowSortingEnabled && !chart.usePlays
    requires chart.imagesNeeded == 9
    ensures Notes(chart, None, true) == [OptionsHeading, SkippedWithoutImages(Multiple(chart))]
    ensures AddSettingsToDescription(chart, d, None, true)
            == d + "Chart options:\n" + ("- " + Multiple(chart) + " without images skipped\n")
  {
    var notes := Notes(chart, None, true);
    assert notes == [OptionsHeading, SkippedWithoutImages(Multiple(chart))];
    assert notes[1..][1..] == [];
    assert Render(notes[1..]) == NoteText(notes[1]) + "";
  }

  // ---------------------------------------------------------------------
  // The grid
  // ---------------------------------------------------------------------

  /** The side of a tile: 300 pixels, or 180 for charts of more than 40
      images. */
  function TileSide(imagesNeeded: int): (side: int)
    ensures imagesNeeded > 40 <==> side == 180
    ensures imagesNeeded <= 40 <==> side == 300
  {
    if imagesNeeded > 40 then 180 else 300
  }

  /** What the layout knows of a prepared image. */
  datatype ChartImage = ChartImage(nsfw: bool, validImage: bool, censored: bool)

  predicate Keep(chart: ChartSettings, image: ChartImage) {
    (!chart.skipNsfw || !image.nsfw) && (!chart.skipWithoutImage || image.validImage)
  }

  /** The images that survive the NSFW and missing-image filters, in their
      order. */
  function Filtered(chart: ChartSettings, images: seq<ChartImage>): (r: seq<ChartImage>)
    ensures |r| <= |images|
    decreases |images|
  {
    if |images| == 0 then []
    else
      var init := Filtered(chart, images[..|images| - 1]);
      var last := images[|images| - 1];
      if Keep(chart, last) then init + [last] else init
  }

  /** An image survives the filters exactly when it passes both. */
  lemma {:induction false} FilteredMembers(chart: ChartSettings, images: seq<ChartImage>, x: ChartImage)
    ensures x in Filtered(chart, images) <==> x in images && Keep(chart, x)
    decreases |images|
  {
    if |images| > 0 {
      var init := images[..|images| - 1];
      FilteredMembers(chart, init, x);
      assert images == init + [images[|images| - 1]];
    }
  }

  /** The filters keep the relative order: filtering a concatenation is
      concatenating the filtered parts. */
  lemma {:induction false} FilteredAppend(chart: ChartSettings, a: seq<ChartImage>, b: seq<ChartImage>)
    ensures Filtered(chart, a + b) == Filtered(chart, a) + Filtered(chart, b)
    decreases |b|
  {
    if |b| > 0 {
      var b' := b[..|b| - 1];
      FilteredAppend(chart, a, b');
      var last := b[|b| - 1];
      var kept := if Keep(chart, last) then [last] else [];
      assert (a + b)[..|a + b| - 1] == a + b';
      assert Filtered(chart, a + b) == Filtered(chart, a + b') + kept;
      assert Filtered(chart, b) == Filtered(chart, b') + kept;
    } else {
      assert a + b == a;
    }
  }

  /** A drawn tile: the image and the top-left corner. */
  datatype Tile = Tile(image: ChartImage, x: int, y: int)

  function CountCensored(tiles: seq<ChartImage>): (n: nat)
    ensures n <= |tiles|
    decreases |tiles|
  {
    if |tiles| == 0 then 0
    else CountCensored(tiles[..|tiles| - 1]) + (if tiles[|tiles| - 1].censored then 1 else 0)
  }

  function Min(a: int, b: int): int {
    if a < b then a else b
  }

  /** The tiles sit on a grid `width` tiles wide, row by row, left to
      right, each `side` pixels square. */
  ghost predicate LaidOut(tiles: seq<Tile>, width: int, side: int)
    requires width >= 1
  {
    forall k :: 0 <= k < |tiles| ==>
      tiles[k].x == side * (k % width) && tiles[k].y == side * (k / width)
  }

  lemma LaidOutAppend(tiles: seq<Tile>, width: int, side: int, row: int, col: int, t: Tile)
    requires width >= 1 && LaidOut(tiles, width, side)
    requires 0 <= col < width && |tiles| == row * width + col
    requires t.x == side * col && t.y == side * row
    ensures LaidOut(tiles + [t], width, side)
  {
    Arith.DivModUnique(|tiles|, width, row, col);
  }

  /** The loop's row-break test holds exactly at the last column. */
  lemma RowBreak(i: int, width: int, row: int, col: int)
    requires width >= 1 && 0 <= row && 0 <= col < width && i == row * width + col
    ensures EndsRow(i, width, row) <==> col == width - 1
    ensures col == width - 1 ==> i + 1 == (row + 1) * width
  {
    Arith.MultipleOfDivisor(row, width);
  }

  /** The state of the placement loop: the tiles drawn so far, the cursor
      (`offset`, `offsetTop`, `heightRow`) and the two chart fields the
      loop updates. */
  datatype Canvas = Canvas(
    tiles: seq<Tile>,
    offset: int,
    offsetTop: int,
    heightRow: int,
    containsNsfw: bool,
    censoredAlbums: Option<int>)

  /** One drawing step of the placement loop for the image at index `i`:
      the image is drawn at the cursor, the cursor moves right or, after
      the last column, to the start of the next row, and the NSFW flag and
      the censored count are updated. */
  function Draw(c: Canvas, image: ChartImage, i: int, width: int, side: int): Canvas {
    var tiles := c.tiles + [Tile(image, c.offset, c.offsetTop)];
    var c' :=
      if EndsRow(i, width, c.heightRow)
      then c.(tiles := tiles, offsetTop := c.offsetTop + side, heightRow := c.heightRow + 1, offset := 0)
      else c.(tiles := tiles, offset := c.offset + side);
    c'.(containsNsfw := NsfwAfter(c.containsNsfw, image),
        censoredAlbums := CensoredAfter(c.censoredAlbums, image))
  }

  /** The loop's row-break test: the first row ends at index `width - 1`,
      and a later row when the index less the tiles of the finished rows
      is `width - 1`. */
  predicate EndsRow(i: int, width: int, heightRow: int) {
    i == width - 1 || i - width * heightRow == width - 1
  }

  predicate NsfwAfter(containsNsfw: bool, image: ChartImage) {
    containsNsfw || image.nsfw
  }

  /** The nullable censored counter after one more image: a censored
      image counts one, starting from one when the counter is null. */
  function CensoredAfter(censoredAlbums: Option<int>, image: ChartImage): Option<int> {
    if !image.censored then censoredAlbums
    else if censoredAlbums.Some? then Some(censoredAlbums.value + 1)
    else Some(1)
  }

  /** The tiles are the first filtered images, in order. */
  ghost predicate Sequenced(c: Canvas, shown: seq<ChartImage>) {
    |c.tiles| <= |shown| && Images(c.tiles) == shown[..|c.tiles|]
  }

  /** The cursor is just after the last tile, and the tiles are on the
      grid. */
  ghost predicate Gridded(c: Canvas, width: int, side: int)
    requires width >= 1
  {
    var col := |c.tiles| - c.heightRow * width;
    && 0 <= c.heightRow && 0 <= col < width
    && c.offset == side * col && c.offsetTop == side * c.heightRow
    && LaidOut(c.tiles, width, side)
  }

  /** The NSFW flag and the censored count account for the tiles drawn. */
  ghost predicate Flagged(c: Canvas, chart: ChartSettings) {
    NsfwFlagged(c, chart) && CensorCounted(c, chart)
  }

  ghost predicate NsfwFlagged(c: Canvas, chart: ChartSettings) {
    c.containsNsfw <==> chart.containsNsfw || exists k :: 0 <= k < |c.tiles| && c.tiles[k].image.nsfw
  }

  ghost predicate CensorCounted(c: Canvas, chart: ChartSettings) {
    var n := CountCensored(Images(c.tiles));
    && (n == 0 ==> c.censoredAlbums == chart.censoredAlbums)
    && (n > 0 ==> c.censoredAlbums == Some(chart.censoredAlbums.GetOr(0) + n))
  }

  lemma DrawSequenced(c: Canvas, shown: seq<ChartImage>, i: int, width: int, side: int)
    requires Sequenced(c, shown) && i == |c.tiles| < |shown|
    ensures Sequenced(Draw(c, shown[i], i, width, side), shown)
  {
    ImagesAppend(c.tiles, Tile(shown[i], c.offset, c.offsetTop));
    assert shown[..i + 1] == shown[..i] + [shown[i]];
  }

  lemma DrawGridded(c: Canvas, image: ChartImage, i: int, width: int, side: int)
    requires width >= 1 && Gridded(c, width, side) && i == |c.tiles|
    ensures Gridded(Draw(c, image, i, width, side), width, side)
  {
    var col := i - c.heightRow * width;
    LaidOutAppend(c.tiles, width, side, c.heightRow, col, Tile(image, c.offset, c.offsetTop));
    RowBreak(i, width, c.heightRow, col);
  }

  lemma DrawFlagged(c: Canvas, chart: ChartSettings, image: ChartImage, i: int, width: int, side: int)
    requires Flagged(c, chart)
    ensures Flagged(Draw(c, image, i, width, side), chart)
  {
    DrawNsfwFlagged(c, chart, image, i, width, side);
    ImagesAppend(c.tiles, Tile(image, c.offset, c.offsetTop));
  }

  lemma DrawNsfwFlagged(c: Canvas, chart: ChartSettings, image: ChartImage, i: int, width: int, side: int)
    requires NsfwFlagged(c, chart)
    ensures NsfwFlagged(Draw(c, image, i, width, side), chart)
  {
    var tiles := Draw(c, image, i, width, side).tiles;
    assert tiles[|c.tiles|].image == image;
    assert forall k :: 0 <= k < |c.tiles| ==> tiles[k] == c.tiles[k];
  }

  /** The placement loop of `GenerateChartAsync`. For each index `i` below
      the number of images needed and the number of images, the `i`-th
      filtered image is drawn, if there is one. The chart's width is at
      least one, as the option parser leaves it. The result: the filtered
      images, as many as are needed, laid out row by row, left to right.
      Before the loop the canvas is sized from the first image, and
      `First()` throws on an empty image list: `thrown` reports that case,
      in which no chart is produced and nothing is drawn. */
  method PlaceTiles(chart: ChartSettings, images: seq<ChartImage>)
    returns (thrown: bool, tiles: seq<Tile>, containsNsfw: bool, censoredAlbums: Option<int>)
    requires chart.width >= 1
    ensures thrown <==> |images| == 0
    ensures thrown ==> tiles == [] && containsNsfw == chart.containsNsfw
                       && censoredAlbums == chart.censoredAlbums
    ensures var shown := Filtered(chart, images);
            && |tiles| == (if chart.imagesNeeded <= 0 then 0 else Min(chart.imagesNeeded, |shown|))
            && Images(tiles) == shown[..|tiles|]
    ensures LaidOut(tiles, chart.width, TileSide(chart.imagesNeeded))
    ensures containsNsfw <==> chart.containsNsfw || exists k :: 0 <= k < |tiles| && tiles[k].image.nsfw
    ensures var n := CountCensored(Images(tiles));
            && (n == 0 ==> censoredAlbums == chart.censoredAlbums)
            && (n > 0 ==> censoredAlbums == Some(chart.censoredAlbums.GetOr(0) + n))
  {
    if |images| == 0 {
      return true, [], chart.containsNsfw, chart.censoredAlbums;
    }
    thrown := false;
    var side := TileSide(chart.imagesNeeded);
    var shown := Filtered(chart, images);
    var bound := Min(chart.imagesNeeded, |images|);
    var canvas := Canvas([], 0, 0, 0, chart.containsNsfw, chart.censoredAlbums);
    var i := 0;
    while i < bound
      invariant 0 <= i && (i <= bound || i == 0)
      invariant |canvas.tiles| == Min(i, |shown|)
      invariant Sequenced(canvas, shown)
      invariant Gridded(canvas, chart.width, side)
      invariant Flagged(canvas, chart)
      decreases bound - i
    {
      if i >= |shown| {
        i := i + 1;
        continue;
      }
      DrawSequenced(canvas, shown, i, chart.width, side);
      DrawGridded(canvas, shown[i], i, chart.width, side);
      DrawFlagged(canvas, chart, shown[i], i, chart.width, side);
      canvas := Draw(canvas, shown[i], i, chart.width, side);
      i := i + 1;
    }
    tiles := canvas.tiles;
    containsNsfw := canvas.containsNsfw;
    censoredAlbums := canvas.censoredAlbums;
  }

  function Images(tiles: seq<Tile>): (r: seq<ChartImage>)
    ensures |r| == |tiles| && forall k :: 0 <= k < |tiles| ==> r[k] == tiles[k].image
  {
    seq(|tiles|, k requires 0 <= k < |tiles| => tiles[k].image)
  }

  lemma ImagesAppend(tiles: seq<Tile>, t: Tile)
    ensures Images(tiles + [t]) == Images(tiles) + [t.image]
    ensures CountCensored(Images(tiles + [t]))
            == CountCensored(Images(tiles)) + (if t.image.censored then 1 else 0)
  {
    assert Images(tiles + [t])[..|tiles|] == Images(tiles);
  }

  /** With no more images than cells, every tile lies inside the canvas
      of `width` by `height` tiles. */
  lemma TileInsideCanvas(chart: ChartSettings, k: int)
    requires chart.width >= 1 && chart.height >= 1
    requires 0 <= k < chart.width * chart.height
    ensures var side := TileSide(chart.imagesNeeded);
            && 0 <= side * (k % chart.width) && side * (k % chart.width) + side <= side * chart.width
            && 0 <= side * (k / chart.width) && side * (k / chart.width) + side <= side * chart.height
  {
    var w := chart.width;
    var side := TileSide(chart.imagesNeeded);
    var q := k / w;
    var c := k % w;
    assert q * w <= k < chart.height * w;
    Arith.LessAfterScaling(q, chart.height, w);
    Arith.MulMonotone(0, c, side);
    Arith.MulMonotone(c + 1, w, side);
    Arith.MulMonotone(0, q, side);
    Arith.MulMonotone(q + 1, chart.height, side);
    assert side * c + side == side * (c + 1);
    assert side * q + side == side * (q + 1);
  }
}

=== FILE: cooldown.dfy ===
/** A pair of per-user cooldown lists, as the countdown and `/fm` commands
    each keep one of their own: a list of targets and a parallel list of
    the times they last got through. A
    first use appends the target with the current time; a use while the
    window since the stored time is still open is refused and changes
    nothing; a later use stores the current time again. The clock counts
    milliseconds and is passed in as `now`. */
module Cooldown {
  import opened Wrappers

  /** Milliseconds per second: `AddSeconds` moves the clock by this much. */
  const Second: int := 1000

  /** The two parallel lists. */
  datatype Tracker = Tracker(targets: seq<int>, timers: seq<int>)

  /** The lists have the same length, so every target has a time. */
  predicate Parallel(t: Tracker) {
    |t.targets| == |t.timers|
  }

  /** No target is listed twice. */
  predicate Distinct(xs: seq<int>) {
    forall i, j :: 0 <= i < j < |xs| ==> xs[i] != xs[j]
  }

  const Empty: Tracker := Tracker([], [])

  /** `List.IndexOf`: the first position of `x`, or -1. */
  function IndexOf(xs: seq<int>, x: int): (r: int)
    ensures -1 <= r < |xs|
    ensures r == -1 <==> x !in xs
    ensures r >= 0 ==> xs[r] == x && forall k :: 0 <= k < r ==> xs[k] != x
    decreases |xs|
  {
    if |xs| == 0 then -1
    else if xs[0] == x then 0
    else
      var r := IndexOf(xs[1..], x);
      assert x in xs[1..] ==> x in xs;
      if r == -1 then -1 else r + 1
  }

  /** The time the target last got through, if it is tracked. */
  function LastUse(t: Tracker, target: int): (r: Option<int>)
    requires Parallel(t)
    ensures r.None? <==> target !in t.targets
  {
    var i := IndexOf(t.targets, target);
    if i == -1 then None else Some(t.timers[i])
  }

  /** The outcome of one use: the lists afterwards and whether the command
      may run. */
  datatype Gate = Gate(tracker: Tracker, allowed: bool)

  /** One use of the command by `target` at `now`, with a window of
      `window` milliseconds after the stored time. The stored time is
      checked with `>=`: a use exactly at the end of the window is still
      refused. */
  function Use(t: Tracker, target: int, now: int, window: int): (g: Gate)
    requires Parallel(t)
    ensures Parallel(g.tracker)
    ensures g.allowed <==> LastUse(t, target).None? || LastUse(t, target).value + window < now
    ensures !g.allowed ==> g.tracker == t
    ensures g.allowed ==> LastUse(g.tracker, target) == Some(now)
    ensures target !in t.targets ==> g.tracker == Tracker(t.targets + [target], t.timers + [now])
    ensures target in t.targets ==> g.tracker.targets == t.targets
  {
    var i := IndexOf(t.targets, target);
    if i == -1 then
      Gate(Tracker(t.targets + [target], t.timers + [now]), true)
    else if t.timers[i] + window >= now then
      Gate(t, false)
    else
      Gate(t.(timers := t.timers[i := now]), true)
  }

  /** A use leaves every other target's time as it was. */
  lemma UseIsolation(t: Tracker, target: int, now: int, window: int, other: int)
    requires Parallel(t) && other != target
    ensures LastUse(Use(t, target, now, window).tracker, other) == LastUse(t, other)
  {
    var i := IndexOf(t.targets, target);
    if i == -1 {
      var t' := Use(t, target, now, window).tracker;
      var j := IndexOf(t.targets, other);
      if j == -1 {
        assert other !in t'.targets;
      } else {
        assert IndexOf(t'.targets, other) == j by {
          assert t'.targets[j] == other;
          assert forall k :: 0 <= k < j ==> t'.targets[k] == t.targets[k];
        }
      }
    }
  }

  /** The lists never list a target twice. */
  lemma UseKeepsDistinct(t: Tracker, target: int, now: int, window: int)
    requires Parallel(t) && Distinct(t.targets)
    ensures Distinct(Use(t, target, now, window).tracker.targets)
  {
    var t' := Use(t, target, now, window).tracker;
    if target !in t.targets {
      forall i, j | 0 <= i < j < |t'.targets| ensures t'.targets[i] != t'.targets[j] {
        if j == |t.targets| {
          assert t'.targets[i] == t.targets[i];
        }
      }
    }
  }

  /** Once a use gets through, every use by the same target up to the end
      of the window is refused, and the first use after it gets through. */
  lemma WindowAfterUse(t: Tracker, target: int, now: int, window: int, later: int)
    requires Parallel(t) && Use(t, target, now, window).allowed
    ensures var t' := Use(t, target, now, window).tracker;
            Use(t', target, later, window).allowed <==> later > now + window
  {
  }

  /** The cooldown lists after a sequence of uses, each with its own time
      and window. */
  datatype Request = Request(target: int, now: int, window: int)

  function Replay(t: Tracker, requests: seq<Request>): (r: Tracker)
    requires Parallel(t)
    ensures Parallel(r)
    decreases |requests|
  {
    if |requests| == 0 then t
    else
      var q := requests[|requests| - 1];
      Use(Replay(t, requests[..|requests| - 1]), q.target, q.now, q.window).tracker
  }

  /** Starting from empty lists, the lists stay parallel and no target is
      ever listed twice. */
  lemma {:induction false} ReplayKeepsDistinct(requests: seq<Request>)
    ensures Parallel(Replay(Empty, requests))
    ensures Distinct(Replay(Empty, requests).targets)
    decreases |requests|
  {
    if |requests| > 0 {
      var q := requests[|requests| - 1];
      ReplayKeepsDistinct(requests[..|requests| - 1]);
      UseKeepsDistinct(Replay(Empty, requests[..|requests| - 1]), q.target, q.now, q.window);
    }
  }
}

=== FILE: interaction_handler.dfy ===
/** The precondition gate of slash commands: the ordered checks the
    interaction handler makes before it executes a command, and the
    disabled-command lookup it uses. The facts the handler reads (the user
    record, the disabled lists, the last member-index time) are gathered
    into one record; the clock counts seconds. */
module InteractionHandler {
  import opened Wrappers

  const Day: int := 24 * 60 * 60

  /** A server's member index older than this must be refreshed. */
  const IndexMaxAge: int := 120 * Day

  /** A slash command: its name and the precondition attributes it
      carries. */
  datatype SlashCommandInfo = SlashCommandInfo(
    name: string,
    usernameSetRequired: bool,
    userSessionRequired: bool,
    guildOnly: bool,
    requiresIndex: bool)

  /** The bot's record of the user, when there is one. */
  datatype BotUser = BotUser(blocked: bool, sessionKeyLastFm: Option<string>)

  /** What the handler reads about the server: its disabled commands and
      the time of its last member index. */
  datatype GuildFacts = GuildFacts(disabledCommands: Option<seq<string>>, lastIndex: Option<int>)

  /** What the handler reads about the channel: its disabled commands. */
  datatype ChannelFacts = ChannelFacts(disabledCommands: Option<seq<string>>)

  /** One interaction and the facts the handler reads for it. `command` is
      the result of the command search. */
  datatype Interaction = Interaction(
    isSlashCommand: bool,
    command: Option<SlashCommandInfo>,
    contextUser: Option<BotUser>,
    guild: Option<GuildFacts>,
    channel: Option<ChannelFacts>,
    now: int)

  /** How the handler ends, in the order of its checks. */
  datatype Outcome =
    | NotASlashCommand
    | UnknownCommand
    | UserBlocked
    | DisabledInGuild
    | DisabledInChannel
    | UsernameNotSet
    | SessionRequired
    | NotSupportedInDm
    | IndexMissing
    | IndexOutdated
    | Executed

  // ---------------------------------------------------------------------
  // CommandDisabled
  // ---------------------------------------------------------------------

  /** The result of `CommandDisabled`. Despite its name the method answers
      whether the command may run: its `true` is `Allowed` here. */
  datatype DisabledCheck = Allowed | GuildDisabled | ChannelDisabled

  predicate Lists(list: Option<seq<string>>, name: string) {
    list.Some? && name in list.value
  }

  /** Outside a server nothing is disabled. In a server, the server's list
      is looked at first and the channel's second. */
  function CommandDisabled(name: string, guild: Option<GuildFacts>, channel: Option<ChannelFacts>)
    : (r: DisabledCheck)
    ensures guild.None? ==> r == Allowed
    ensures r == GuildDisabled <==> guild.Some? && Lists(guild.value.disabledCommands, name)
    ensures r == ChannelDisabled <==>
              && guild.Some? && !Lists(guild.value.disabledCommands, name)
              && channel.Some? && Lists(channel.value.disabledCommands, name)
  {
    match guild
    case None => Allowed
    case Some(g) =>
      if Lists(g.disabledCommands, name) then GuildDisabled
      else if channel.Some? && Lists(channel.value.disabledCommands, name) then ChannelDisabled
      else Allowed
  }

  // ---------------------------------------------------------------------
  // SlashCommandAsync
  // ---------------------------------------------------------------------

  predicate IsBlocked(user: Option<BotUser>) {
    user.Some? && user.value.blocked
  }

  predicate HasSession(user: Option<BotUser>) {
    user.Some? && user.value.sessionKeyLastFm.Some?
  }

  /** The index check, made only for an index-requiring command in a
      server. */
  function IndexCheck(g: GuildFacts, now: int): (r: Option<Outcome>)
    ensures r.None? <==> g.lastIndex.Some? && g.lastIndex.value >= now - IndexMaxAge
    ensures r == Some(IndexMissing) <==> g.lastIndex.None?
    ensures r == Some(IndexOutdated) <==> g.lastIndex.Some? && g.lastIndex.value < now - IndexMaxAge
  {
    match g.lastIndex
    case None => Some(IndexMissing)
    case Some(t) => if t < now - IndexMaxAge then Some(IndexOutdated) else None
  }

  // Each check on its own. `Found` is the command search; the later ones
  // are about a command that was found.

  predicate Found(x: Interaction) {
    x.isSlashCommand && x.command.Some?
  }

  predicate NotDisabled(x: Interaction)
    requires Found(x)
  {
    CommandDisabled(x.command.value.name, x.guild, x.channel) == Allowed
  }

  predicate UsernameOk(x: Interaction)
    requires Found(x)
  {
    x.command.value.usernameSetRequired ==> x.contextUser.Some?
  }

  predicate SessionOk(x: Interaction)
    requires Found(x)
  {
    x.command.value.userSessionRequired ==> HasSession(x.contextUser)
  }

  predicate GuildOk(x: Interaction)
    requires Found(x)
  {
    x.command.value.guildOnly ==> x.guild.Some?
  }

  predicate IndexOk(x: Interaction)
    requires Found(x)
  {
    x.command.value.requiresIndex && x.guild.Some? ==>
      x.guild.value.lastIndex.Some? && x.guild.value.lastIndex.value >= x.now - IndexMaxAge
  }

  /** The checks before the disabled-command lookup pass. */
  predicate PassedUpToDisabled(x: Interaction) {
    Found(x) && !IsBlocked(x.contextUser)
  }

  /** The checks before the username check pass. */
  predicate PassedUpToUsername(x: Interaction) {
    PassedUpToDisabled(x) && NotDisabled(x)
  }

  /** The checks before the session check pass. */
  predicate PassedUpToSession(x: Interaction) {
    PassedUpToUsername(x) && UsernameOk(x)
  }

  /** The checks before the guild-only check pass. */
  predicate PassedUpToGuild(x: Interaction) {
    PassedUpToSession(x) && SessionOk(x)
  }

  /** The checks before the index check pass. */
  predicate PassedUpToIndex(x: Interaction) {
    PassedUpToGuild(x) && GuildOk(x)
  }

  /** `SlashCommandAsync`: each outcome happens exactly when every earlier
      check passes and its own check fails; when all pass the command is
      executed. */
  function SlashCommand(x: Interaction): (r: Outcome)
    ensures r == NotASlashCommand <==> !x.isSlashCommand
    ensures r == UnknownCommand <==> x.isSlashCommand && x.command.None?
    ensures r == UserBlocked <==> Found(x) && IsBlocked(x.contextUser)
    ensures r == DisabledInGuild <==>
              PassedUpToDisabled(x) && CommandDisabled(x.command.value.name, x.guild, x.channel) == GuildDisabled
    ensures r == DisabledInChannel <==>
              PassedUpToDisabled(x) && CommandDisabled(x.command.value.name, x.guild, x.channel) == ChannelDisabled
    ensures r == UsernameNotSet <==> PassedUpToUsername(x) && !UsernameOk(x)
    ensures r == SessionRequired <==> PassedUpToSession(x) && !SessionOk(x)
    ensures r == NotSupportedInDm <==> PassedUpToGuild(x) && !GuildOk(x)
    ensures r == IndexMissing <==>
              PassedUpToIndex(x) && x.command.value.requiresIndex && x.guild.Some?
              && x.guild.value.lastIndex.None?
    ensures r == IndexOutdated <==>
              PassedUpToIndex(x) && x.command.value.requiresIndex && x.guild.Some?
              && x.guild.value.lastIndex.Some? && x.guild.value.lastIndex.value < x.now - IndexMaxAge
    ensures r == Executed <==> PassedUpToIndex(x) && IndexOk(x)
  {
    if !x.isSlashCommand then NotASlashCommand
    else if x.command.None? then UnknownCommand
    else
      var cmd := x.command.value;
      if IsBlocked(x.contextUser) then UserBlocked
      else
        match CommandDisabled(cmd.name, x.guild, x.channel)
        case GuildDisabled => DisabledInGuild
        case ChannelDisabled => DisabledInChannel
        case Allowed =>
          if cmd.usernameSetRequired && x.contextUser.None? then UsernameNotSet
          else if cmd.userSessionRequired && !HasSession(x.contextUser) then SessionRequired
          else if cmd.guildOnly && x.guild.None? then NotSupportedInDm
          else if cmd.requiresIndex && x.guild.Some? && IndexCheck(x.guild.value, x.now).Some? then
            IndexCheck(x.guild.value, x.now).value
          else Executed
  }

  /** Every check, stated on its own. */
  predicate AllChecksPass(x: Interaction) {
    && x.isSlashCommand
    && x.command.Some?
    && !IsBlocked(x.contextUser)
    && CommandDisabled(x.command.value.name, x.guild, x.channel) == Allowed
    && (x.command.value.usernameSetRequired ==> x.contextUser.Some?)
    && (x.command.value.userSessionRequired ==> HasSession(x.contextUser))
    && (x.command.value.guildOnly ==> x.guild.Some?)
    && (x.command.value.requiresIndex && x.guild.Some? ==>
          x.guild.value.lastIndex.Some? && x.guild.value.lastIndex.value >= x.now - IndexMaxAge)
  }

  /** The command is executed exactly when every check passes. */
  lemma ExecutedIffAllChecksPass(x: Interaction)
    ensures SlashCommand(x) == Executed <==> AllChecksPass(x)
  {
  }

  /** A blocked user is turned away before any other check about the
      command, whatever the command requires and wherever it is used. */
  lemma BlockedUserFirst(x: Interaction)
    requires x.isSlashCommand && x.command.Some? && IsBlocked(x.contextUser)
    ensures SlashCommand(x) == UserBlocked
  {
  }

  /** Outside a server the index is never checked, and nothing is
      disabled. */
  lemma NoIndexCheckOutsideGuild(x: Interaction)
    requires x.guild.None?
    ensures SlashCommand(x) != IndexMissing && SlashCommand(x) != IndexOutdated
    ensures SlashCommand(x) != DisabledInGuild && SlashCommand(x) != DisabledInChannel
  {
  }

  /** A command that requires less runs wherever a command that requires
      more runs. */
  predicate RequiresAtMost(a: SlashCommandInfo, b: SlashCommandInfo) {
    && a.name == b.name
    && (a.usernameSetRequired ==> b.usernameSetRequired)
    && (a.userSessionRequired ==> b.userSessionRequired)
    && (a.guildOnly ==> b.guildOnly)
    && (a.requiresIndex ==> b.requiresIndex)
  }

  lemma FewerRequirementsStillRun(x: Interaction, lax: SlashCommandInfo)
    requires SlashCommand(x) == Executed && RequiresAtMost(lax, x.command.value)
    ensures SlashCommand(x.(command := Some(lax))) == Executed
  {
    ExecutedIffAllChecksPass(x);
    ExecutedIffAllChecksPass(x.(command := Some(lax)));
  }

  /** What the handler logs. A missing session is logged as a missing
      username, and both index failures as "index required"; a disabled
      command, an unknown command and a non-slash interaction log nothing
      here, and an executed command logs its own result. */
  datatype LoggedResponse = LogUserBlocked | LogUsernameNotSet | LogNotSupportedInDm | LogIndexRequired

  function Logged(o: Outcome): (r: Option<LoggedResponse>)
    ensures r == Some(LogUsernameNotSet) <==> o == UsernameNotSet || o == SessionRequired
    ensures r == Some(LogIndexRequired) <==> o == IndexMissing || o == IndexOutdated
    ensures r == Some(LogUserBlocked) <==> o == UserBlocked
    ensures r == Some(LogNotSupportedInDm) <==> o == NotSupportedInDm
    ensures r.None? <==> o in {NotASlashCommand, UnknownCommand, DisabledInGuild, DisabledInChannel, Executed}
  {
    match o
    case UserBlocked => Some(LogUserBlocked)
    case UsernameNotSet => Some(LogUsernameNotSet)
    case SessionRequired => Some(LogUsernameNotSet)
    case NotSupportedInDm => Some(LogNotSupportedInDm)
    case IndexMissing => Some(LogIndexRequired)
    case IndexOutdated => Some(LogIndexRequired)
    case _ => None
  }

  /** The handler logs a response exactly for a found command that is
      turned away by the block or by a check after the disabled-command
      lookup; the username response covers both user checks. */
  lemma LoggedExactlyWhenTurnedAway(x: Interaction)
    ensures Logged(SlashCommand(x)).Some? <==>
              Found(x) && (IsBlocked(x.contextUser) || (NotDisabled(x) && !AllChecksPass(x)))
    ensures Logged(SlashCommand(x)) == Some(LogUsernameNotSet) <==>
              PassedUpToUsername(x) && !(UsernameOk(x) && SessionOk(x))
  {
  }
}

=== FILE: play_slash.dfy ===
/** The decision logic of the play slash commands: the per-channel `/fm`
    cooldown and the caps on the amounts `/recent` and `/overview` show.
    The cooldown clock counts milliseconds. */
module PlaySlash {
  import opened Wrappers
  import Arith
  import opened Cooldown

  // ---------------------------------------------------------------------
  // The /fm cooldown
  // ---------------------------------------------------------------------

  /** The outcome of `/fm`'s cooldown step: the cooldown lists afterwards,
      whether the command goes on, and whether a refusal is explained. */
  datatype FmGate = FmGate(tracker: Tracker, runs: bool, warned: bool)

  /** `NowPlayingAsync` up to the cooldown check. The lists are consulted
      and changed only in a channel that has a cooldown (in seconds); a
      refused use is explained when at most the cooldown less two seconds
      are left, truncated to whole seconds. */
  function FmCooldown(t: Tracker, channelCooldown: Option<int>, user: int, now: int): (r: FmGate)
    requires Parallel(t)
    ensures Parallel(r.tracker)
    ensures channelCooldown.None? ==> r == FmGate(t, true, false)
    ensures channelCooldown.Some? ==>
              var g := Use(t, user, now, channelCooldown.value * Second);
              r.tracker == g.tracker && r.runs == g.allowed
    ensures r.warned ==> !r.runs
  {
    match channelCooldown
    case None => FmGate(t, true, false)
    case Some(cooldown) =>
      var g := Use(t, user, now, cooldown * Second);
      if g.allowed then FmGate(g.tracker, true, false)
      else
        var secondsLeft := Arith.TruncDiv(LastUse(t, user).value + cooldown * Second - now, Second);
        FmGate(t, false, secondsLeft <= cooldown - 2)
  }

  /** A refused `/fm` is explained exactly when more than a second has
      passed since the stored use: a repeat within the first second is
      dropped silently. */
  lemma FmWarningAfterOneSecond(t: Tracker, cooldown: int, user: int, now: int)
    requires Parallel(t) && user in t.targets
    requires !FmCooldown(t, Some(cooldown), user, now).runs
    ensures FmCooldown(t, Some(cooldown), user, now).warned <==> now > LastUse(t, user).value + Second
  {
  }

  /** Without a channel cooldown the lists are never touched, so any
      number of uses all go through. */
  lemma NoCooldownNoState(t: Tracker, user: int, now: int)
    requires Parallel(t)
    ensures FmCooldown(t, None, user, now).tracker == t && FmCooldown(t, None, user, now).runs
  {
  }

  // ---------------------------------------------------------------------
  // Amount caps
  // ---------------------------------------------------------------------

  const MaxRecent: int := 10
  const MaxOverviewDays: int := 8

  /** An upper cap with no lower bound: larger amounts become the cap and
      everything else, zero and negative amounts included, is kept. */
  function Cap(amount: int, max: int): (r: int)
    ensures r <= max || r == amount
    ensures amount <= max ==> r == amount
    ensures amount > max ==> r == max
  {
    if amount > max then max else amount
  }

  /** `RecentAsync`'s amount. */
  function RecentAmount(amount: int): (r: int)
    ensures r <= MaxRecent
    ensures amount <= MaxRecent ==> r == amount
    ensures amount > MaxRecent ==> r == MaxRecent
  {
    Cap(amount, MaxRecent)
  }

  /** `OverviewAsync`'s number of days. */
  function OverviewDays(amount: int): (r: int)
    ensures r <= MaxOverviewDays
    ensures amount <= MaxOverviewDays ==> r == amount
    ensures amount > MaxOverviewDays ==> r == MaxOverviewDays
  {
    Cap(amount, MaxOverviewDays)
  }

  /** Capping keeps the order of amounts and capping twice is capping
      once. */
  lemma CapMonotoneIdempotent(a: int, b: int, max: int)
    requires a <= b
    ensures Cap(a, max) <= Cap(b, max)
    ensures Cap(Cap(a, max), max) == Cap(a, max)
  {
  }
}

=== FILE: presence.dfy ===
/** The "also playing" detector: given a server's members, it scans the
    recent-play cache for members other than the requester whose last play
    matches the queried track, album or artist, and describes them in one
    sentence. */
module Presence {
  import opened Wrappers
  import Text
  import opened RecentPlayCache

  /** An artist-only match must also be younger than this. */
  const ArtistMatchWindow: int := 10 * Minute

  /** A member of a server, as stored in the member index. */
  datatype GuildUser = GuildUser(userId: int, userName: string)

  /** A server; its member list may be missing. */
  datatype Guild = Guild(guildUsers: Option<seq<GuildUser>>)

  /** What is being asked about. The names are as the caller passes them;
      the match lower-cases them. */
  datatype PlayQuery =
    | TrackQuery(artistName: string, trackName: string)
    | AlbumQuery(artistName: string, albumName: string)
    | ArtistQuery(artistName: string)
  {
    /** The word used for the query in the sentence. */
    function Kind(): string {
      match this
      case TrackQuery(_, _) => "track"
      case AlbumQuery(_, _) => "album"
      case ArtistQuery(_) => "artist"
    }
  }

  /** The match test of each read: the cached artist, and the cached track or
      album, must equal the lower-cased query; an artist-only match must
      instead have been played strictly after `now` minus ten minutes. */
  predicate PlayMatches(q: PlayQuery, play: UserPlay, now: int) {
    match q
    case TrackQuery(artist, track) =>
      play.artistName == Text.ToLower(artist) && play.trackName == Text.ToLower(track)
    case AlbumQuery(artist, album) =>
      play.artistName == Text.ToLower(artist) && play.albumName == Some(Text.ToLower(album))
    case ArtistQuery(artist) =>
      play.artistName == Text.ToLower(artist) && play.timePlayed > now - ArtistMatchWindow
  }

  /** A member, other than the requester, whose live cache entry matches. */
  predicate IsAlsoPlaying(cache: Cache, now: int, requester: int, q: PlayQuery, u: GuildUser) {
    && u.userId != requester
    && Lookup(cache, u.userId, now).Some?
    && PlayMatches(q, Lookup(cache, u.userId, now).value, now)
  }

  /** A member found by the scan, together with the play that matched. */
  datatype Found = Found(user: GuildUser, play: UserPlay)

  function Users(found: seq<Found>): (us: seq<GuildUser>)
    ensures |us| == |found|
    ensures forall k :: 0 <= k < |found| ==> us[k] == found[k].user
  {
    seq(|found|, k requires 0 <= k < |found| => found[k].user)
  }

  /** `xs` is `ys` with some elements left out and the rest in their
      original order. */
  predicate IsSubsequence<T(==)>(xs: seq<T>, ys: seq<T>)
    decreases |ys|
  {
    if |xs| == 0 then true
    else if |ys| == 0 then false
    else if xs[0] == ys[0] then IsSubsequence(xs[1..], ys[1..])
    else IsSubsequence(xs, ys[1..])
  }

  /** The scan of the member list, in member order. Every member found is
      also playing, with the play its live entry holds. */
  function FindAlsoPlaying(cache: Cache, now: int, requester: int, q: PlayQuery,
                           members: seq<GuildUser>): (found: seq<Found>)
    ensures |found| <= |members|
    ensures forall k :: 0 <= k < |found| ==>
              && found[k].user in members
              && IsAlsoPlaying(cache, now, requester, q, found[k].user)
              && Lookup(cache, found[k].user.userId, now) == Some(found[k].play)
    decreases |members|
  {
    if |members| == 0 then []
    else
      var u := members[0];
      var rest := FindAlsoPlaying(cache, now, requester, q, members[1..]);
      assert forall k :: 0 <= k < |rest| ==> rest[k].user in members;
      if IsAlsoPlaying(cache, now, requester, q, u) then
        [Found(u, Lookup(cache, u.userId, now).value)] + rest
      else
        rest
  }

  /** The scan misses nobody: every member that is also playing is found. */
  lemma {:induction false} FindAlsoPlayingComplete(cache: Cache, now: int, requester: int, q: PlayQuery,
                                                   members: seq<GuildUser>)
    ensures forall i :: 0 <= i < |members| && IsAlsoPlaying(cache, now, requester, q, members[i]) ==>
              members[i] in Users(FindAlsoPlaying(cache, now, requester, q, members))
    decreases |members|
  {
    if |members| > 0 {
      FindAlsoPlayingComplete(cache, now, requester, q, members[1..]);
      var rest := FindAlsoPlaying(cache, now, requester, q, members[1..]);
      var found := FindAlsoPlaying(cache, now, requester, q, members);
      assert forall i :: 1 <= i < |members| ==> members[i] == members[1..][i - 1];
      if IsAlsoPlaying(cache, now, requester, q, members[0]) {
        assert Users(found) == [members[0]] + Users(rest);
      }
    }
  }

  /** The scan keeps the member order. */
  lemma {:induction false} FindAlsoPlayingKeepsOrder(cache: Cache, now: int, requester: int, q: PlayQuery,
                                                     members: seq<GuildUser>)
    ensures IsSubsequence(Users(FindAlsoPlaying(cache, now, requester, q, members)), members)
    decreases |members|
  {
    if |members| > 0 {
      FindAlsoPlayingKeepsOrder(cache, now, requester, q, members[1..]);
      var rest := FindAlsoPlaying(cache, now, requester, q, members[1..]);
      var found := FindAlsoPlaying(cache, now, requester, q, members);
      if IsAlsoPlaying(cache, now, requester, q, members[0]) {
        assert Users(found)[1..] == Users(rest);
      } else {
        SkipHeadKeepsSubsequence(Users(rest), members);
      }
    }
  }

  /** Prepending an element to the larger sequence keeps a subsequence a
      subsequence. */
  lemma {:induction false} SkipHeadKeepsSubsequence<T>(xs: seq<T>, ys: seq<T>)
    requires |ys| > 0 && IsSubsequence(xs, ys[1..])
    ensures IsSubsequence(xs, ys)
    decreases |ys|, 0
  {
    if |xs| > 0 && xs[0] == ys[0] {
      SubsequenceDropHead(xs, ys[1..]);
    }
  }

  /** Dropping the first element of the smaller sequence keeps it a
      subsequence. */
  lemma {:induction false} SubsequenceDropHead<T>(xs: seq<T>, ys: seq<T>)
    requires |xs| > 0 && IsSubsequence(xs, ys)
    ensures IsSubsequence(xs[1..], ys)
    decreases |ys|, 1
  {
    if xs[0] == ys[0] {
      SkipHeadKeepsSubsequence(xs[1..], ys);
    } else {
      SubsequenceDropHead(xs, ys[1..]);
      SkipHeadKeepsSubsequence(xs[1..], ys);
    }
  }

  /** The sentence for a non-empty list of found members. Only the
      single-match form says how long ago the play was; it uses the
      `timeAgo` rendering of the play's time. */
  function Describe(kind: string, found: seq<Found>, timeAgo: int -> string): (s: string)
    requires |found| >= 1
    ensures |found| == 1 ==>
              s == found[0].user.userName + " was also listening to this " + kind + " "
                   + timeAgo(found[0].play.timePlayed) + "!"
    ensures |found| == 2 ==>
              s == found[0].user.userName + " and " + found[1].user.userName
                   + " were also recently listening to this " + kind + "!"
    ensures |found| == 3 ==>
              s == found[0].user.userName + ", " + found[1].user.userName + " and "
                   + found[2].user.userName
                   + " were also recently listening to this " + kind + "!"
    ensures |found| > 3 ==>
              s == found[0].user.userName + ", " + found[1].user.userName + ", "
                   + found[2].user.userName + " and " + Text.NatToString(|found| - 3)
                   + " others were also recently listening to this " + kind + "!"
  {
    var names := Users(found);
    if |found| == 1 then
      names[0].userName + " was also listening to this " + kind + " "
      + timeAgo(found[0].play.timePlayed) + "!"
    else if |found| == 2 then
      names[0].userName + " and " + names[1].userName
      + " were also recently listening to this " + kind + "!"
    else if |found| == 3 then
      names[0].userName + ", " + names[1].userName + " and " + names[2].userName
      + " were also recently listening to this " + kind + "!"
    else
      names[0].userName + ", " + names[1].userName + ", " + names[2].userName
      + " and " + Text.NatToString(|found| - 3)
      + " others were also recently listening to this " + kind + "!"
  }

  /** The shared body of the three reads: no guild, no member list or an
      empty one gives nothing, as does a scan that finds nobody. */
  function GuildAlsoPlaying(cache: Cache, now: int, requester: int, guild: Option<Guild>,
                            q: PlayQuery, timeAgo: int -> string): (r: Option<string>)
    ensures guild.None? || guild.value.guildUsers.None? || |guild.value.guildUsers.value| == 0 ==> r.None?
    ensures r.Some? <==>
              && guild.Some? && guild.value.guildUsers.Some?
              && exists i :: 0 <= i < |guild.value.guildUsers.value|
                             && IsAlsoPlaying(cache, now, requester, q, guild.value.guildUsers.value[i])
    ensures r.Some? ==>
              && guild.Some? && guild.value.guildUsers.Some?
              && var found := FindAlsoPlaying(cache, now, requester, q, guild.value.guildUsers.value);
                 |found| >= 1 && r.value == Describe(q.Kind(), found, timeAgo)
  {
    if guild.None? || guild.value.guildUsers.None? || |guild.value.guildUsers.value| == 0 then None
    else
      var members := guild.value.guildUsers.value;
      var found := FindAlsoPlaying(cache, now, requester, q, members);
      FindAlsoPlayingComplete(cache, now, requester, q, members);
      if |found| == 0 then
        assert forall i :: 0 <= i < |members| ==> !IsAlsoPlaying(cache, now, requester, q, members[i]);
        None
      else
        assert IsAlsoPlaying(cache, now, requester, q, found[0].user);
        Some(Describe(q.Kind(), found, timeAgo))
  }

  /** `GuildAlsoPlayingTrack`: some sentence iff another member's live entry
      has the lower-cased artist and track. */
  function GuildAlsoPlayingTrack(cache: Cache, now: int, requester: int, guild: Option<Guild>,
                                 artistName: string, trackName: string,
                                 timeAgo: int -> string): (r: Option<string>)
    ensures r.Some? <==>
              && guild.Some? && guild.value.guildUsers.Some?
              && exists i :: 0 <= i < |guild.value.guildUsers.value|
                   && var u := guild.value.guildUsers.value[i];
                      && u.userId != requester
                      && Lookup(cache, u.userId, now).Some?
                      && Lookup(cache, u.userId, now).value.artistName == Text.ToLower(artistName)
                      && Lookup(cache, u.userId, now).value.trackName == Text.ToLower(trackName)
    ensures r.Some? ==>
              && guild.Some? && guild.value.guildUsers.Some?
              && var found := FindAlsoPlaying(cache, now, requester, TrackQuery(artistName, trackName),
                                              guild.value.guildUsers.value);
                 |found| >= 1 && r.value == Describe("track", found, timeAgo)
  {
    GuildAlsoPlaying(cache, now, requester, guild, TrackQuery(artistName, trackName), timeAgo)
  }

  /** `GuildAlsoPlayingAlbum`: some sentence iff another member's live entry
      has the lower-cased artist and album. */
  function GuildAlsoPlayingAlbum(cache: Cache, now: int, requester: int, guild: Option<Guild>,
                                 artistName: string, albumName: string,
                                 timeAgo: int -> string): (r: Option<string>)
    ensures r.Some? <==>
              && guild.Some? && guild.value.guildUsers.Some?
              && exists i :: 0 <= i < |guild.value.guildUsers.value|
                   && var u := guild.value.guildUsers.value[i];
                      && u.userId != requester
                      && Lookup(cache, u.userId, now).Some?
                      && Lookup(cache, u.userId, now).value.artistName == Text.ToLower(artistName)
                      && Lookup(cache, u.userId, now).value.albumName == Some(Text.ToLower(albumName))
    ensures r.Some? ==>
              && guild.Some? && guild.value.guildUsers.Some?
              && var found := FindAlsoPlaying(cache, now, requester, AlbumQuery(artistName, albumName),
                                              guild.value.guildUsers.value);
                 |found| >= 1 && r.value == Describe("album", found, timeAgo)
  {
    GuildAlsoPlaying(cache, now, requester, guild, AlbumQuery(artistName, albumName), timeAgo)
  }

  /** `GuildAlsoPlayingArtist`: some sentence iff another member's live
      entry has the lower-cased artist and was played in the last ten
      minutes. */
  function GuildAlsoPlayingArtist(cache: Cache, now: int, requester: int, guild: Option<Guild>,
                                  artistName: string, timeAgo: int -> string): (r: Option<string>)
    ensures r.Some? <==>
              && guild.Some? && guild.value.guildUsers.Some?
              && exists i :: 0 <= i < |guild.value.guildUsers.value|
                   && var u := guild.value.guildUsers.value[i];
                      && u.userId != requester
                      && Lookup(cache, u.userId, now).Some?
                      && Lookup(cache, u.userId, now).value.artistName == Text.ToLower(artistName)
                      && Lookup(cache, u.userId, now).value.timePlayed > now - ArtistMatchWindow
    ensures r.Some? ==>
              && guild.Some? && guild.value.guildUsers.Some?
              && var found := FindAlsoPlaying(cache, now, requester, ArtistQuery(artistName),
                                              guild.value.guildUsers.value);
                 |found| >= 1 && r.value == Describe("artist", found, timeAgo)
  {
    GuildAlsoPlaying(cache, now, requester, guild, ArtistQuery(artistName), timeAgo)
  }

  // ---------------------------------------------------------------------
  // Properties of the sentence
  // ---------------------------------------------------------------------

  /** Only the single-match sentence depends on when the plays happened:
      with two or more matches, the plays' times and the time-ago rendering
      make no difference. */
  lemma OnlySingleMatchMentionsTime(kind: string, a: seq<Found>, b: seq<Found>,
                                    f: int -> string, g: int -> string)
    requires |a| >= 2 && Users(a) == Users(b)
    ensures Describe(kind, a, f) == Describe(kind, b, g)
  {
    assert |a| == |Users(a)| == |b|;
    assert a[0].user == Users(a)[0] == b[0].user;
    assert a[1].user == Users(a)[1] == b[1].user;
    if |a| >= 3 {
      assert a[2].user == Users(a)[2] == b[2].user;
    }
  }

  /** With more than three matches only the first three names and the count
      are shown. */
  lemma ManyMatchesShowFirstThree(kind: string, a: seq<Found>, b: seq<Found>, f: int -> string)
    requires |a| > 3 && |a| == |b|
    requires forall k :: 0 <= k < 3 ==> a[k].user.userName == b[k].user.userName
    ensures Describe(kind, a, f) == Describe(kind, b, f)
  {
  }

  /** The sentence always opens with the first member found, in member
      order. */
  lemma SentenceStartsWithFirstFound(kind: string, found: seq<Found>, f: int -> string)
    requires |found| >= 1
    ensures found[0].user.userName <= Describe(kind, found, f)
  {
  }

  // ---------------------------------------------------------------------
  // Scenarios
  // ---------------------------------------------------------------------

  /** Two matching members "Alice" and "Bob" for an artist. */
  lemma TwoMatchesScenario(pa: UserPlay, pb: UserPlay, f: int -> string)
    ensures Describe("artist", [Found(GuildUser(1, "Alice"), pa), Found(GuildUser(2, "Bob"), pb)], f)
            == "Alice and Bob" + " were also recently listening to this " + "artist" + "!"
  {
    var found := [Found(GuildUser(1, "Alice"), pa), Found(GuildUser(2, "Bob"), pb)];
    assert found[0].user.userName == "Alice" && found[1].user.userName == "Bob";
    assert "Alice" + " and " + "Bob" == "Alice and Bob";
  }

  /** Five matching members: the three first names and "2 others". */
  lemma FiveMatchesScenario(p: UserPlay, f: int -> string)
    ensures Describe("album", [Found(GuildUser(1, "A"), p), Found(GuildUser(2, "B"), p),
                               Found(GuildUser(3, "C"), p), Found(GuildUser(4, "D"), p),
                               Found(GuildUser(5, "E"), p)], f)
            == "A" + ", " + "B" + ", " + "C" + " and " + "2"
               + " others were also recently listening to this " + "album" + "!"
  {
    var found := [Found(GuildUser(1, "A"), p), Found(GuildUser(2, "B"), p),
                  Found(GuildUser(3, "C"), p), Found(GuildUser(4, "D"), p),
                  Found(GuildUser(5, "E"), p)];
    assert found[0].user.userName == "A" && found[1].user.userName == "B"
           && found[2].user.userName == "C";
    assert Text.NatToString(|found| - 3) == "2";
  }

  /** The requester is never reported, even when their own entry matches:
      a server whose only matching member is the requester gives nothing. */
  lemma RequesterAloneGivesNothing(cache: Cache, now: int, requester: GuildUser,
                                   q: PlayQuery, f: int -> string)
    ensures GuildAlsoPlaying(cache, now, requester.userId,
                             Some(Guild(Some([requester]))), q, f).None?
  {
  }

  // ---------------------------------------------------------------------
  // Case of the cached names (see the Findings of the README)
  // ---------------------------------------------------------------------

  /** As written, a cached name with a capital letter can never match: every
      query is lower-cased before the comparison, but the write stores the
      name as it arrived. */
  lemma CapitalisedArtistNeverMatches(q: PlayQuery, play: UserPlay, now: int)
    requires Text.HasUpper(play.artistName)
    ensures !PlayMatches(q, play, now)
  {
    var lower := Text.ToLower(q.artistName);
    assert !Text.HasUpper(lower);
    assert play.artistName != lower;
  }

  /** A concrete case: "Radiohead" is now playing for user 2 and user 1 asks
      about "Radiohead"; the as-written write leaves nothing to find. */
  lemma CapitalisedArtistExample(now: int, f: int -> string)
    ensures var track := RecentTrack("Radiohead", Some("OK Computer"), "Airbag", true, None);
            var cache := AddRecentPlayToCache(map[], now, 2, track);
            var guild := Some(Guild(Some([GuildUser(1, "req"), GuildUser(2, "thom")])));
            GuildAlsoPlayingArtist(cache, now, 1, guild, "Radiohead", f).None?
  {
    var track := RecentTrack("Radiohead", Some("OK Computer"), "Airbag", true, None);
    var cache := AddRecentPlayToCache(map[], now, 2, track);
    assert Text.IsUpper(cache[2].play.artistName[0]);
    CapitalisedArtistNeverMatches(ArtistQuery("Radiohead"), cache[2].play, now);
  }

  /** With the corrected write, a member whose current track was recorded
      is found by any query that spells the artist and track the same up to
      case, for the fifteen minutes the entry lives. */
  lemma RecordedPlayIsFoundAnyCase(cache: Cache, now: int, later: int, requester: int,
                                   members: seq<GuildUser>, i: nat, track: RecentTrack,
                                   artistName: string, trackName: string, f: int -> string)
    requires i < |members| && members[i].userId != requester
    requires track.nowPlaying && now <= later < now + CacheLifetime
    requires Text.ToLower(artistName) == Text.ToLower(track.artistName)
    requires Text.ToLower(trackName) == Text.ToLower(track.trackName)
    ensures GuildAlsoPlayingTrack(RecordPlay(cache, now, members[i].userId, track), later,
                                  requester, Some(Guild(Some(members))), artistName,
                                  trackName, f).Some?
  {
    var c := RecordPlay(cache, now, members[i].userId, track);
    assert Lookup(c, members[i].userId, later).Some?;
  }

  /** The same for the album reader: a recorded now-playing track with an
      album is found by any query that spells the artist and album the same
      up to case, for the fifteen minutes the entry lives. */
  lemma RecordedAlbumIsFoundAnyCase(cache: Cache, now: int, later: int, requester: int,
                                    members: seq<GuildUser>, i: nat, track: RecentTrack,
                                    artistName: string, albumName: string, f: int -> string)
    requires i < |members| && members[i].userId != requester
    requires track.nowPlaying && now <= later < now + CacheLifetime
    requires track.albumName.Some?
    requires Text.ToLower(artistName) == Text.ToLower(track.artistName)
    requires Text.ToLower(albumName) == Text.ToLower(track.albumName.value)
    ensures GuildAlsoPlayingAlbum(RecordPlay(cache, now, members[i].userId, track), later,
                                  requester, Some(Guild(Some(members))), artistName,
                                  albumName, f).Some?
  {
    var c := RecordPlay(cache, now, members[i].userId, track);
    assert Lookup(c, members[i].userId, later).Some?;
  }
}

=== FILE: recent_play_cache.dfy ===
/** The per-user "last play" cache of the WhoKnows presence feature. Each user
    has at most one entry, keyed by user id; a write replaces it and the entry
    expires a fixed time after the write. The clock is an explicit count of
    seconds, passed in as `now`. */
module RecentPlayCache {
  import opened Wrappers
  import Text

  const Minute: int := 60

  /** A play that is not "now playing" is only cached when it is younger than
      this. */
  const RecentPlayWindow: int := 8 * Minute

  /** How long an entry lives after it was written. */
  const CacheLifetime: int := 15 * Minute

  /** A track from a user's recent-tracks feed. `timePlayed` is missing for
      a track that is playing right now. */
  datatype RecentTrack = RecentTrack(
    artistName: string,
    albumName: Option<string>,
    trackName: string,
    nowPlaying: bool,
    timePlayed: Option<int>)

  /** The cached record of one user's last play. */
  datatype UserPlay = UserPlay(
    artistName: string,
    albumName: Option<string>,
    trackName: string,
    userId: int,
    timePlayed: int)

  /** A cached value together with its absolute expiry time. */
  datatype CacheEntry = CacheEntry(play: UserPlay, expiresAt: int)

  /** The memory cache, restricted to the `"{userId}-last-play"` keys; the key
      is a function of the user id alone, so the map is keyed by user id. */
  type Cache = map<int, CacheEntry>

  /** The write rule: a track is cached iff it is playing now or was played
      strictly after `now` minus eight minutes. */
  predicate IsAccepted(track: RecentTrack, now: int) {
    track.nowPlaying
    || (track.timePlayed.Some? && track.timePlayed.value > now - RecentPlayWindow)
  }

  /** `AddRecentPlayToCache`, as written: the names are stored exactly as
      they arrive. */
  function AddRecentPlayToCache(cache: Cache, now: int, userId: int, track: RecentTrack): (c: Cache)
    ensures !IsAccepted(track, now) ==> c == cache
    ensures IsAccepted(track, now) ==>
              && userId in c
              && c[userId].play == UserPlay(track.artistName, track.albumName, track.trackName,
                                            userId, track.timePlayed.GetOr(now))
              && c[userId].expiresAt == now + CacheLifetime
    ensures forall u :: u != userId ==> (u in c <==> u in cache)
    ensures forall u :: u != userId && u in cache ==> c[u] == cache[u]
  {
    if IsAccepted(track, now) then
      var play := UserPlay(track.artistName, track.albumName, track.trackName,
                           userId, track.timePlayed.GetOr(now));
      cache[userId := CacheEntry(play, now + CacheLifetime)]
    else
      cache
  }

  /** `TryGetValue` on the memory cache: an entry is returned until its
      absolute expiry time is reached. */
  function Lookup(cache: Cache, userId: int, now: int): (r: Option<UserPlay>)
    ensures r.Some? <==> userId in cache && now < cache[userId].expiresAt
    ensures r.Some? ==> r.value == cache[userId].play
  {
    if userId in cache && now < cache[userId].expiresAt then Some(cache[userId].play) else None
  }

  /** A cached play is recent: it is playing now or younger than eight
      minutes at the time of the write, and its timestamp is the track's own
      time when there is one and the write time otherwise. */
  lemma AcceptedPlayIsRecent(cache: Cache, now: int, userId: int, track: RecentTrack)
    requires IsAccepted(track, now)
    ensures var p := AddRecentPlayToCache(cache, now, userId, track)[userId].play;
            && p.userId == userId
            && (track.timePlayed.None? ==> p.timePlayed == now)
            && (!track.nowPlaying ==> p.timePlayed > now - RecentPlayWindow)
  {
  }

  /** Read your write: until fifteen minutes have passed, a lookup for the
      writer sees exactly the play just written, whatever was cached for
      that user before. */
  lemma ReadYourWrite(cache: Cache, now: int, userId: int, track: RecentTrack, later: int)
    requires IsAccepted(track, now) && later < now + CacheLifetime
    ensures Lookup(AddRecentPlayToCache(cache, now, userId, track), userId, later)
            == Some(UserPlay(track.artistName, track.albumName, track.trackName,
                             userId, track.timePlayed.GetOr(now)))
  {
  }

  /** Expiry: fifteen minutes after a write, the entry it made is gone. */
  lemma ExpiresAfterLifetime(cache: Cache, now: int, userId: int, track: RecentTrack, later: int)
    requires IsAccepted(track, now) && later >= now + CacheLifetime
    ensures Lookup(AddRecentPlayToCache(cache, now, userId, track), userId, later).None?
  {
  }

  /** A write for one user is never visible as a write for another, at any
      time. */
  lemma WriteIsolation(cache: Cache, now: int, userId: int, track: RecentTrack, other: int, t: int)
    requires other != userId
    ensures Lookup(AddRecentPlayToCache(cache, now, userId, track), other, t) == Lookup(cache, other, t)
  {
  }

  // ---------------------------------------------------------------------
  // The corrected write (see the Findings of the README)
  // ---------------------------------------------------------------------

  /** The track with its names lower-cased, the form the readers compare
      against. */
  function NormalizedTrack(track: RecentTrack): (t: RecentTrack)
    ensures t.nowPlaying == track.nowPlaying && t.timePlayed == track.timePlayed
    ensures t.artistName == Text.ToLower(track.artistName)
    ensures t.trackName == Text.ToLower(track.trackName)
    ensures t.albumName.Some? <==> track.albumName.Some?
    ensures track.albumName.Some? ==> t.albumName.value == Text.ToLower(track.albumName.value)
  {
    track.(artistName := Text.ToLower(track.artistName),
           albumName := match track.albumName
             case None => None
             case Some(a) => Some(Text.ToLower(a)),
           trackName := Text.ToLower(track.trackName))
  }

  /** The write with the match keys lower-cased at the cache boundary; the
      acceptance rule, the key and the expiry are those of
      `AddRecentPlayToCache`. */
  function RecordPlay(cache: Cache, now: int, userId: int, track: RecentTrack): (c: Cache)
    ensures !IsAccepted(track, now) ==> c == cache
    ensures IsAccepted(track, now) ==>
              && userId in c
              && c[userId].play.artistName == Text.ToLower(track.artistName)
              && c[userId].play.trackName == Text.ToLower(track.trackName)
              && (c[userId].play.albumName.Some? <==> track.albumName.Some?)
              && (track.albumName.Some? ==>
                    c[userId].play.albumName.value == Text.ToLower(track.albumName.value))
              && c[userId].play.userId == userId
              && c[userId].play.timePlayed == track.timePlayed.GetOr(now)
              && c[userId].expiresAt == now + CacheLifetime
    ensures forall u :: u != userId ==> (u in c <==> u in cache)
    ensures forall u :: u != userId && u in cache ==> c[u] == cache[u]
  {
    AddRecentPlayToCache(cache, now, userId, NormalizedTrack(track))
  }

  // ---------------------------------------------------------------------
  // A stream of activity events
  // ---------------------------------------------------------------------

  /** One call of the activity-ingestion path. */
  datatype Activity = Activity(now: int, userId: int, track: RecentTrack)

  /** The cache after applying a sequence of activity events in order. */
  function ApplyAll(cache: Cache, events: seq<Activity>): Cache
    decreases |events|
  {
    if |events| == 0 then cache
    else
      var e := events[|events| - 1];
      RecordPlay(ApplyAll(cache, events[..|events| - 1]), e.now, e.userId, e.track)
  }

  /** An event for `userId` that the write rule accepts. */
  predicate AcceptedFor(e: Activity, userId: int) {
    e.userId == userId && IsAccepted(e.track, e.now)
  }

  /** The position of the last event for `userId` that the write rule
      accepted: `None` exactly when there is none, and otherwise an
      accepted event of that user after which no event of that user is
      accepted. */
  function LastAcceptedAt(events: seq<Activity>, userId: int): (r: Option<nat>)
    ensures r.None? <==> forall k :: 0 <= k < |events| ==> !AcceptedFor(events[k], userId)
    ensures r.Some? ==> r.value < |events| && AcceptedFor(events[r.value], userId)
    ensures r.Some? ==> forall k :: r.value < k < |events| ==> !AcceptedFor(events[k], userId)
    decreases |events|
  {
    if |events| == 0 then None
    else
      var n := |events| - 1;
      if AcceptedFor(events[n], userId) then Some(n)
      else
        LastAcceptedBefore(events, userId);
        LastAcceptedAt(events[..n], userId)
  }

  lemma LastAcceptedBefore(events: seq<Activity>, userId: int)
    requires |events| > 0
    ensures forall k :: 0 <= k < |events| - 1 ==> events[..|events| - 1][k] == events[k]
  {
  }

  /** The last event for `userId` that the write rule accepted, if any. */
  function LastAccepted(events: seq<Activity>, userId: int): (r: Option<Activity>)
    ensures r.None? <==> forall k :: 0 <= k < |events| ==> !AcceptedFor(events[k], userId)
    ensures r.Some? ==> AcceptedFor(r.value, userId)
    ensures r.Some? ==> var i := LastAcceptedAt(events, userId).value;
                        r.value == events[i]
                        && forall k :: i < k < |events| ==> !AcceptedFor(events[k], userId)
  {
    match LastAcceptedAt(events, userId)
    case None => None
    case Some(i) => Some(events[i])
  }

  /** Last write wins: after any sequence of events, a lookup for a user
      sees the play of the last accepted event for that user while it is
      younger than fifteen minutes, nothing once it is older, and the
      original cache contents when no event for that user was accepted. No
      other user's events matter. */
  lemma {:induction false} LastWriteWins(cache: Cache, events: seq<Activity>, userId: int, t: int)
    ensures var last := LastAccepted(events, userId);
            Lookup(ApplyAll(cache, events), userId, t)
            == match last
               case None => Lookup(cache, userId, t)
               case Some(e) =>
                 if t < e.now + CacheLifetime
                 then Some(AddRecentPlayToCache(map[], e.now, userId, NormalizedTrack(e.track))[userId].play)
                 else None
    decreases |events|
  {
    if |events| > 0 {
      LastWriteWins(cache, events[..|events| - 1], userId, t);
    }
  }
}

=== FILE: static_commands.dfy ===
/** The decision logic of the bot's static commands: the countdown's
    clamp, cooldown and message sequence, the help command's prefix
    handling, the self-hosting test and the supporter list's type suffix.
    The cooldown clock counts milliseconds. */
module StaticCommands {
  import opened Wrappers
  import Text
  import Arith
  import opened Cooldown

  // ---------------------------------------------------------------------
  // Countdown
  // ---------------------------------------------------------------------

  /** The countdown length is clamped into one to five seconds. */
  function ClampCountdown(requested: int): (c: int)
    ensures 1 <= c <= 5
    ensures 1 <= requested <= 5 ==> c == requested
    ensures requested > 5 ==> c == 5
    ensures requested < 1 ==> c == 1
  {
    if requested > 5 then 5 else if requested < 1 then 1 else requested
  }

  /** What the countdown command does. */
  datatype CountdownReply =
    | NotSupportedInDm
    | PleaseWait(secondsLeft: int)
    | Refused
    | Started(countdown: int)

  datatype CountdownResult = CountdownResult(tracker: Tracker, reply: CountdownReply)

  /** The cooldown window of a countdown of `c` seconds: `c + 20`
      seconds. */
  function CountdownWindow(c: int): int {
    (c + 20) * Second
  }

  /** `CountdownAsync` up to the first message: direct messages are
      refused first; then the length is clamped and the cooldown list is
      consulted. A refused use answers only when at most twenty seconds
      are left, counting `c + 30` seconds from the stored time and
      truncating to whole seconds. */
  function Countdown(t: Tracker, inDm: bool, author: int, requested: int, now: int): (r: CountdownResult)
    requires Parallel(t)
    ensures Parallel(r.tracker)
    ensures inDm ==> r == CountdownResult(t, NotSupportedInDm)
    ensures !inDm ==>
              var g := Use(t, author, now, CountdownWindow(ClampCountdown(requested)));
              && r.tracker == g.tracker
              && (r.reply.Started? <==> g.allowed)
    ensures r.reply.Started? ==> r.reply.countdown == ClampCountdown(requested)
    ensures !inDm ==> !r.reply.NotSupportedInDm?
    ensures r.reply.PleaseWait? ==> 10 <= r.reply.secondsLeft <= 20
    ensures r.reply.PleaseWait? || r.reply.Refused? ==> LastUse(t, author).Some?
    ensures r.reply.PleaseWait? ==>
              var left := LastUse(t, author).value + (ClampCountdown(requested) + 30) * Second - now;
              r.reply.secondsLeft * Second <= left < (r.reply.secondsLeft + 1) * Second
    ensures r.reply.Refused? ==>
              LastUse(t, author).value + (ClampCountdown(requested) + 30) * Second - now >= 21 * Second
  {
    if inDm then CountdownResult(t, NotSupportedInDm)
    else
      var c := ClampCountdown(requested);
      var g := Use(t, author, now, CountdownWindow(c));
      if g.allowed then CountdownResult(g.tracker, Started(c))
      else
        var secondsLeft := Arith.TruncDiv(LastUse(t, author).value + (c + 30) * Second - now, Second);
        CountdownResult(t, if secondsLeft <= 20 then PleaseWait(secondsLeft) else Refused)
  }

  /** While a countdown's cooldown runs, the first `c + 9` seconds after
      the stored time are refused silently and the rest of the window is
      answered with "please wait". */
  lemma CountdownAnswerWindow(t: Tracker, author: int, requested: int, now: int)
    requires Parallel(t) && author in t.targets
    requires !Use(t, author, now, CountdownWindow(ClampCountdown(requested))).allowed
    ensures var stored := LastUse(t, author).value;
            var c := ClampCountdown(requested);
            var reply := Countdown(t, false, author, requested, now).reply;
            && (reply.PleaseWait? <==> now > stored + (c + 9) * Second)
            && (reply.Refused? <==> now <= stored + (c + 9) * Second)
  {
  }

  /** "second" or "seconds". */
  function SecondWord(n: int): (w: string)
    ensures w == "second" <==> n == 1
    ensures n != 1 ==> w == "seconds"
  {
    if n == 1 then "second" else "seconds"
  }

  /** The text of the "please wait" reply. */
  function PleaseWaitText(secondsLeft: int): string {
    "Please wait " + Text.IntToString(secondsLeft) + " " + SecondWord(secondsLeft)
    + " before starting another countdown."
  }

  /** The "please wait" reply always counts at least ten seconds, so the
      singular "second" is never used: its text is always the plural
      sentence. */
  lemma PleaseWaitIsPlural(t: Tracker, author: int, requested: int, now: int)
    requires Parallel(t)
    requires Countdown(t, false, author, requested, now).reply.PleaseWait?
    ensures var n := Countdown(t, false, author, requested, now).reply.secondsLeft;
            && SecondWord(n) == "seconds"
            && PleaseWaitText(n)
               == "Please wait " + Text.NatToString(n) + " seconds before starting another countdown."
  {
    PluralText(Countdown(t, false, author, requested, now).reply.secondsLeft);
  }

  /** Above one, the "please wait" text is the plural sentence. */
  lemma PluralText(n: int)
    requires n > 1
    ensures SecondWord(n) == "seconds"
    ensures PleaseWaitText(n)
            == "Please wait " + Text.NatToString(n) + " seconds before starting another countdown."
  {
  }

  /** The messages of a started countdown: the announcement, the numbers
      from `countdown` down to one, and "Go!". The delays between them are
      not part of this model. */
  method CountdownLines(countdown: int) returns (lines: seq<string>)
    ensures |lines| == (if countdown > 0 then countdown else 0) + 2
    ensures lines[0] == "Countdown for `" + Text.IntToString(countdown) + "` seconds starting!"
    ensures forall k :: 1 <= k < |lines| - 1 ==> lines[k] == Text.IntToString(countdown + 1 - k)
    ensures lines[|lines| - 1] == "Go!"
  {
    lines := ["Countdown for `" + Text.IntToString(countdown) + "` seconds starting!"];
    var i := countdown;
    while i > 0
      invariant i <= countdown
      invariant i >= 0 || i == countdown
      invariant |lines| == 1 + countdown - i
      invariant lines[0] == "Countdown for `" + Text.IntToString(countdown) + "` seconds starting!"
      invariant forall k :: 1 <= k < |lines| ==> lines[k] == Text.IntToString(countdown + 1 - k)
      decreases i
    {
      lines := lines + [Text.IntToString(i)];
      i := i - 1;
    }
    lines := lines + ["Go!"];
  }

  // ---------------------------------------------------------------------
  // Help
  // ---------------------------------------------------------------------

  /** The help command shows the "custom prefix" hints when the server's
      prefix is not the bot's default one. */
  function CustomPrefix(prefix: string, defaultPrefix: string): (custom: bool)
    ensures custom <==> prefix != defaultPrefix
  {
    prefix != defaultPrefix
  }

  /** What the help command searches for. */
  datatype HelpQuery =
    | GeneralHelp
    | SearchFor(text: string)
    | ReplaceFails

  /** The help command's argument: blank means the general help; an
      argument longer than the prefix that contains it has every
      occurrence of the prefix removed. `string.Replace` throws on an empty
      pattern, which an empty prefix would reach. */
  function HelpSearch(extraValues: Option<string>, prefix: string): (r: HelpQuery)
    ensures r.GeneralHelp? <==> Text.IsNullOrWhiteSpace(extraValues)
    ensures r.ReplaceFails? <==> !Text.IsNullOrWhiteSpace(extraValues) && |prefix| == 0
    ensures r.SearchFor? ==> |r.text| <= |extraValues.value|
    ensures r.SearchFor? && !(|extraValues.value| > |prefix| && Text.Contains(extraValues.value, prefix))
            ==> r.text == extraValues.value
    ensures r.SearchFor? && |extraValues.value| > |prefix| && Text.Contains(extraValues.value, prefix)
            ==> r.text == Text.Replace(extraValues.value, prefix, "") && |r.text| < |extraValues.value|
  {
    if Text.IsNullOrWhiteSpace(extraValues) then GeneralHelp
    else
      var v := extraValues.value;
      if |v| > |prefix| && Text.Contains(v, prefix) then
        if |prefix| == 0 then ReplaceFails
        else
          Text.RemoveShortens(v, prefix);
          SearchFor(Text.Replace(v, prefix, ""))
      else
        assert |prefix| == 0 ==> Text.Contains(v, prefix) by {
          if |prefix| == 0 {
            Text.ContainsAt(v, prefix, 0);
          }
        }
        SearchFor(v)
  }

  /** A command name typed after the prefix is searched without it, as
      long as the name does not contain the prefix's first character. */
  lemma HelpPrefixStripped(prefix: string, name: string)
    requires |prefix| > 0 && |name| > 0 && !Text.IsWhiteSpace(prefix[0]) && prefix[0] !in name
    ensures HelpSearch(Some(prefix + name), prefix) == SearchFor(name)
  {
    var v := prefix + name;
    assert !Text.IsNullOrWhiteSpace(Some(v)) by {
      assert v[0] == prefix[0];
    }
    assert prefix <= v;
    Text.ContainsAt(v, prefix, 0);
    assert v[|prefix|..] == name;
    assert Text.Replace(v, prefix, "") == "" + Text.Replace(name, prefix, "");
    Text.FirstCharAbsent(name, prefix);
    Text.ReplaceAbsent(name, prefix, "");
  }

  /** The fields of the quick-start guide, which the help command shows
      when it was given no argument or the search found no command. */
  datatype GuideField =
    | MainCommand(prefix: string)
    | ConnectAccount(prefix: string)
    | CustomizeFm(prefix: string)
    | CommandInformation(prefix: string)
    | CustomPrefixNote(prefix: string)
    | SelfHostedNote
    | LastFmIssuesNote

  /** The position of each kind of field in every guide that has it. */
  function FieldRank(f: GuideField): nat {
    match f
    case MainCommand(_) => 0
    case ConnectAccount(_) => 1
    case CustomizeFm(_) => 1
    case CommandInformation(_) => 2
    case CustomPrefixNote(_) => 3
    case SelfHostedNote => 4
    case LastFmIssuesNote => 5
  }

  predicate FieldsInOrder(fields: seq<GuideField>) {
    forall i, j :: 0 <= i < j < |fields| ==> FieldRank(fields[i]) < FieldRank(fields[j])
  }

  /** What the guide reads besides the server's prefix: the bot's default
      prefix, whether the user is registered, the bot's own id and the two
      official ids, and whether Last.fm reports issues. */
  datatype GuideContext = GuideContext(
    defaultPrefix: string,
    registered: bool,
    botId: int,
    productionId: int,
    developId: int,
    issuesAtLastFm: bool)

  /** The quick-start guide: the main command, then either the login hint
      for an unregistered user or the mode hint for a registered one, the
      command information, and then, each on its own condition, the custom
      prefix note, the self-hosting note and the Last.fm issues note. */
  function QuickStartGuide(prefix: string, g: GuideContext): (fields: seq<GuideField>)
    ensures |fields| >= 3 && FieldsInOrder(fields)
    ensures fields[0] == MainCommand(prefix)
    ensures fields[1] == if g.registered then CustomizeFm(prefix) else ConnectAccount(prefix)
    ensures fields[2] == CommandInformation(prefix)
    ensures CustomPrefixNote(prefix) in fields <==> prefix != g.defaultPrefix
    ensures SelfHostedNote in fields <==> g.botId != g.productionId && g.botId != g.developId
    ensures LastFmIssuesNote in fields <==> g.issuesAtLastFm
    ensures forall k :: 3 <= k < |fields| ==>
              fields[k] in [CustomPrefixNote(prefix), SelfHostedNote, LastFmIssuesNote]
  {
    var account := if g.registered then CustomizeFm(prefix) else ConnectAccount(prefix);
    var custom := CustomPrefix(prefix, g.defaultPrefix);
    var selfHosted := IsBotSelfHosted(g.botId, g.productionId, g.developId);
    assert RanksBelow([MainCommand(prefix), account, CommandInformation(prefix)], 3);
    GuideShape([MainCommand(prefix), account, CommandInformation(prefix)], prefix,
               custom, selfHosted, g.issuesAtLastFm);
    [MainCommand(prefix), account, CommandInformation(prefix)]
    + FieldIf(custom, CustomPrefixNote(prefix))
    + FieldIf(selfHosted, SelfHostedNote)
    + FieldIf(g.issuesAtLastFm, LastFmIssuesNote)
  }

  function FieldIf(b: bool, f: GuideField): seq<GuideField> {
    if b then [f] else []
  }

  predicate RanksBelow(fields: seq<GuideField>, r: nat) {
    forall k :: 0 <= k < |fields| ==> FieldRank(fields[k]) < r
  }

  /** Appending a field of a higher rank keeps the order, and the field is
      then present exactly when it was appended. */
  lemma AppendField(fields: seq<GuideField>, r: nat, b: bool, f: GuideField)
    requires FieldsInOrder(fields) && RanksBelow(fields, r) && FieldRank(f) == r
    ensures var out := fields + FieldIf(b, f);
            && FieldsInOrder(out) && RanksBelow(out, r + 1)
            && out[..|fields|] == fields
            && (forall k :: |fields| <= k < |out| ==> out[k] == f)
            && (forall x :: x in out <==> x in fields || (b && x == f))
  {
  }

  lemma GuideShape(base: seq<GuideField>, prefix: string, custom: bool, selfHosted: bool, issues: bool)
    requires |base| == 3 && FieldsInOrder(base) && RanksBelow(base, 3)
    ensures var fields := base + FieldIf(custom, CustomPrefixNote(prefix))
                          + FieldIf(selfHosted, SelfHostedNote) + FieldIf(issues, LastFmIssuesNote);
            && |fields| >= 3 && fields[..3] == base && FieldsInOrder(fields)
            && (CustomPrefixNote(prefix) in fields <==> custom)
            && (SelfHostedNote in fields <==> selfHosted)
            && (LastFmIssuesNote in fields <==> issues)
            && forall k :: 3 <= k < |fields| ==>
                 fields[k] in [CustomPrefixNote(prefix), SelfHostedNote, LastFmIssuesNote]
  {
    var s1 := base + FieldIf(custom, CustomPrefixNote(prefix));
    AppendField(base, 3, custom, CustomPrefixNote(prefix));
    var s2 := s1 + FieldIf(selfHosted, SelfHostedNote);
    AppendField(s1, 4, selfHosted, SelfHostedNote);
    var s3 := s2 + FieldIf(issues, LastFmIssuesNote);
    AppendField(s2, 5, issues, LastFmIssuesNote);
    assert s3[..3] == s2[..|s2|][..3];
    forall k | 3 <= k < |s3|
      ensures s3[k] in [CustomPrefixNote(prefix), SelfHostedNote, LastFmIssuesNote]
    {
      if k < |s1| {
        assert s3[k] == s1[k];
      } else if k < |s2| {
        assert s3[k] == s2[k];
      }
    }
  }

  /** The guide has no notes exactly for the official bots with the
      default prefix while Last.fm has no issues. */
  lemma GuideWithoutNotes(prefix: string, g: GuideContext)
    ensures |QuickStartGuide(prefix, g)| == 3
            <==> && prefix == g.defaultPrefix
                 && (g.botId == g.productionId || g.botId == g.developId)
                 && !g.issuesAtLastFm
  {
    var fields := QuickStartGuide(prefix, g);
    if |fields| == 3 {
      assert CustomPrefixNote(prefix) !in fields;
      assert SelfHostedNote !in fields;
      assert LastFmIssuesNote !in fields;
    }
  }

  /** How the help command ends: with the help of the command found, with
      the quick-start guide, or with the exception an empty prefix makes
      `Replace` throw. */
  datatype HelpReply = CommandHelp(query: string) | Guide(fields: seq<GuideField>) | HelpFailed

  /** `HelpAsync`: the argument is searched for after the prefix is
      stripped; the command found is described, and otherwise the guide is
      shown. `found` is the command service's search. */
  function Help(extraValues: Option<string>, prefix: string, g: GuideContext, found: string -> bool)
    : (r: HelpReply)
    ensures r.HelpFailed? <==> !Text.IsNullOrWhiteSpace(extraValues) && |prefix| == 0
    ensures r.CommandHelp? <==> HelpSearch(extraValues, prefix).SearchFor?
                                && found(HelpSearch(extraValues, prefix).text)
    ensures r.CommandHelp? ==> r.query == HelpSearch(extraValues, prefix).text
    ensures Text.IsNullOrWhiteSpace(extraValues) ==> r == Guide(QuickStartGuide(prefix, g))
    ensures r.Guide? ==> r.fields == QuickStartGuide(prefix, g)
  {
    match HelpSearch(extraValues, prefix)
    case ReplaceFails => HelpFailed
    case SearchFor(q) => if found(q) then CommandHelp(q) else Guide(QuickStartGuide(prefix, g))
    case GeneralHelp => Guide(QuickStartGuide(prefix, g))
  }

  // ---------------------------------------------------------------------
  // Self-hosting and supporters
  // ---------------------------------------------------------------------

  /** A bot is self-hosted unless it is the production bot or the
      development bot. The two ids are constants of the code base that are
      not part of this model, so they are parameters. */
  function IsBotSelfHosted(botId: int, productionId: int, developId: int): (selfHosted: bool)
    ensures selfHosted <==> botId != productionId && botId != developId
  {
    botId != productionId && botId != developId
  }

  /** The kinds of supporter, and any other value the enum may hold. */
  datatype SupporterType = User | Guild | Company | OtherType

  /** The suffix after a supporter's name. */
  function SupporterSuffix(kind: SupporterType): (s: string)
    ensures kind.Guild? ==> s == " (server)"
    ensures kind.Company? ==> s == " (business)"
    ensures !kind.Guild? && !kind.Company? ==> s == ""
  {
    match kind
    case Guild => " (server)"
    case Company => " (business)"
    case _ => ""
  }

  /** One line of the supporter list. */
  function SupporterLine(name: string, kind: SupporterType): string {
    " - **" + name + "** " + SupporterSuffix(kind)
  }

  predicate EndsWith(s: string, suffix: string) {
    |suffix| <= |s| && s[|s| - |suffix|..] == suffix
  }

  /** A line can be read back: it ends in " (server)" exactly for a
      server, in " (business)" exactly for a business, and in the space
      after the name otherwise. */
  lemma SupporterLineKind(name: string, kind: SupporterType)
    ensures EndsWith(SupporterLine(name, kind), " (server)") <==> kind.Guild?
    ensures EndsWith(SupporterLine(name, kind), " (business)") <==> kind.Company?
    ensures !kind.Guild? && !kind.Company? ==> SupporterLine(name, kind)[|SupporterLine(name, kind)| - 1] == ' '
  {
    var line := SupporterLine(name, kind);
    var head := " - **" + name + "** ";
    assert line == head + SupporterSuffix(kind);
    assert head[|head| - 1] == ' ';
    if kind.Guild? {
      assert line[|line| - 9..] == " (server)";
      assert line[|line| - 1] == ')';
    } else if kind.Company? {
      assert line[|line| - 11..] == " (business)";
      assert line[|line| - 1] == ')';
    } else {
      assert line == head;
    }
    assert EndsWith(line, " (server)") ==> line[|line| - 1] == ')';
    assert EndsWith(line, " (business)") ==> line[|line| - 1] == ')';
    assert EndsWith(line, " (server)") ==> line[|line| - 2] == 'r';
    assert EndsWith(line, " (business)") ==> line[|line| - 2] == 's';
  }
}

=== FILE: text.dfy ===
/** The string operations the bot takes from .NET (`ToLower`, `Contains`,
    `Split`, `Replace`, `IsNullOrWhiteSpace`, integer formatting and parsing),
    written out over `seq<char>` so that the rest of the model can reason about
    them. Lower-casing covers ASCII letters only. */
module Text {
  import opened Wrappers

  // ---------------------------------------------------------------------
  // Case
  // ---------------------------------------------------------------------

  predicate IsUpper(c: char) {
    'A' <= c <= 'Z'
  }

  function LowerChar(c: char): (r: char)
    ensures !IsUpper(r)
    ensures IsUpper(c) ==> r as int == c as int + 32
    ensures !IsUpper(c) ==> r == c
  {
    if IsUpper(c) then (c as int + 32) as char else c
  }

  /** `string.ToLower()`, restricted to ASCII letters. */
  function ToLower(s: string): (r: string)
    ensures |r| == |s|
    ensures forall i {:trigger r[i]} :: 0 <= i < |s| ==> r[i] == LowerChar(s[i])
  {
    seq(|s|, i requires 0 <= i < |s| => LowerChar(s[i]))
  }

  predicate HasUpper(s: string) {
    exists i :: 0 <= i < |s| && IsUpper(s[i])
  }

  /** Lower-casing is idempotent, and it leaves a string without capitals
      unchanged. */
  lemma ToLowerIdempotent(s: string)
    ensures ToLower(ToLower(s)) == ToLower(s)
    ensures !HasUpper(s) <==> ToLower(s) == s
  {
    if !HasUpper(s) {
      assert forall i :: 0 <= i < |s| ==> ToLower(s)[i] == s[i];
    } else {
      var i :| 0 <= i < |s| && IsUpper(s[i]);
      assert ToLower(s)[i] != s[i];
    }
  }

  /** Lower-casing works character by character, so it distributes over
      concatenation. */
  lemma ToLowerAppend(a: string, b: string)
    ensures ToLower(a + b) == ToLower(a) + ToLower(b)
  {
    assert forall i :: 0 <= i < |a + b| ==> ToLower(a + b)[i] == (ToLower(a) + ToLower(b))[i];
  }

  /** Lower-casing a slice is slicing the lower-cased string. */
  lemma ToLowerSlice(s: string, i: nat, j: nat)
    requires i <= j <= |s|
    ensures ToLower(s[i..j]) == ToLower(s)[i..j]
  {
    assert forall k :: 0 <= k < j - i ==> ToLower(s[i..j])[k] == ToLower(s)[i..j][k];
  }

  /** Only a digit lower-cases to a digit, so a string whose lower-cased
      form is all digits was already those digits. */
  lemma LowerDigitsWereDigits(s: string)
    requires forall k :: 0 <= k < |s| ==> IsDigit(ToLower(s)[k])
    ensures s == ToLower(s)
  {
    forall k | 0 <= k < |s| ensures s[k] == ToLower(s)[k] {
      assert ToLower(s)[k] == LowerChar(s[k]);
    }
  }

  // ---------------------------------------------------------------------
  // White space
  // ---------------------------------------------------------------------

  /** `char.IsWhiteSpace`: the Unicode space separators, the line and
      paragraph separators, and the control characters U+0009..U+000D,
      U+0085 and U+00A0. */
  predicate IsWhiteSpace(c: char) {
    c == ' ' || '\t' <= c <= '\r' || c == '\U{0085}' || c == '\U{00A0}'
    || c == '\U{1680}' || '\U{2000}' <= c <= '\U{200A}' || c == '\U{2028}'
    || c == '\U{2029}' || c == '\U{202F}' || c == '\U{205F}' || c == '\U{3000}'
  }

  /** `string.IsNullOrWhiteSpace`. */
  predicate IsNullOrWhiteSpace(s: Option<string>) {
    s.None? || forall i :: 0 <= i < |s.value| ==> IsWhiteSpace(s.value[i])
  }

  /** `string.IsNullOrEmpty`. */
  predicate IsNullOrEmpty(s: Option<string>) {
    s.None? || |s.value| == 0
  }

  // ---------------------------------------------------------------------
  // Searching
  // ---------------------------------------------------------------------

  /** `p` occurs in `s` starting at position `j`. */
  predicate OccursAt(s: string, p: string, j: int) {
    0 <= j <= |s| && p <= s[j..]
  }

  /** The position of the first (ordinal) occurrence of `p` in `s`. */
  function Find(s: string, p: string): (r: Option<nat>)
    ensures r.Some? ==> r.value + |p| <= |s| && OccursAt(s, p, r.value)
    ensures r.Some? ==> forall j :: 0 <= j < r.value ==> !OccursAt(s, p, j)
    ensures r.None? ==> forall j :: 0 <= j <= |s| ==> !OccursAt(s, p, j)
    decreases |s|
  {
    if p <= s then Some(0)
    else if |s| == 0 then None
    else
      assert forall j :: 1 <= j <= |s| ==> (OccursAt(s, p, j) <==> OccursAt(s[1..], p, j - 1)) by {
        forall j | 1 <= j <= |s| ensures s[j..] == s[1..][j - 1..] { }
      }
      match Find(s[1..], p)
      case None => None
      case Some(i) => Some(i + 1)
  }

  /** `string.Contains(string)`. */
  predicate Contains(s: string, p: string) {
    Find(s, p).Some?
  }

  lemma ContainsAt(s: string, p: string, j: nat)
    requires OccursAt(s, p, j)
    ensures Contains(s, p)
  {
  }

  /** A pattern whose first character does not occur in a string does not
      occur in it. */
  lemma FirstCharAbsent(s: string, p: string)
    requires |p| > 0 && p[0] !in s
    ensures !Contains(s, p)
  {
    forall j | 0 <= j <= |s| ensures !OccursAt(s, p, j) {
      if j < |s| {
        assert s[j] in s;
      }
    }
  }

  // ---------------------------------------------------------------------
  // Split and Join
  // ---------------------------------------------------------------------

  /** `string.Split(string)`: the pieces between successive non-overlapping
      occurrences of `sep`, scanning from the left. */
  function Split(s: string, sep: string): (parts: seq<string>)
    requires |sep| > 0
    ensures |parts| >= 1
    ensures forall k :: 0 <= k < |parts| ==> !Contains(parts[k], sep)
    ensures Contains(s, sep) <==> |parts| >= 2
    decreases |s|
  {
    match Find(s, sep)
    case None => [s]
    case Some(i) =>
      var head := s[..i];
      forall j | 0 <= j <= |head| ensures !OccursAt(head, sep, j) {
        if j < |head| {
          assert !OccursAt(s, sep, j);
          assert head[j..] <= s[j..];
        }
      }
      [head] + Split(s[i + |sep|..], sep)
  }

  /** `string.Join(string, parts)`. */
  function Join(parts: seq<string>, sep: string): string
  {
    if |parts| == 0 then ""
    else if |parts| == 1 then parts[0]
    else parts[0] + sep + Join(parts[1..], sep)
  }

  /** Splitting loses nothing: joining the pieces with the separator gives
      the original string back. */
  lemma {:induction false} JoinSplit(s: string, sep: string)
    requires |sep| > 0
    ensures Join(Split(s, sep), sep) == s
    decreases |s|
  {
    match Find(s, sep)
    case None =>
    case Some(i) =>
      var rest := s[i + |sep|..];
      JoinSplit(rest, sep);
      SplitAtFirst(s, sep);
      JoinCons(s[..i], Split(rest, sep), sep);
  }

  /** At the first separator, a string falls apart into the text before
      it, the separator, and the text after it, which is split further. */
  lemma SplitAtFirst(s: string, sep: string)
    requires |sep| > 0 && Contains(s, sep)
    ensures var i := Find(s, sep).value;
            && Split(s, sep) == [s[..i]] + Split(s[i + |sep|..], sep)
            && s == s[..i] + sep + s[i + |sep|..]
  {
    var i := Find(s, sep).value;
    AroundOccurrence(s, sep, i);
  }

  lemma AroundOccurrence(s: string, p: string, i: nat)
    requires OccursAt(s, p, i)
    ensures i + |p| <= |s| && s == s[..i] + p + s[i + |p|..]
  {
    assert s[i..i + |p|] == p;
    assert s == s[..i] + s[i..i + |p|] + s[i + |p|..];
  }

  lemma JoinCons(head: string, tail: seq<string>, sep: string)
    requires |tail| >= 1
    ensures Join([head] + tail, sep) == head + sep + Join(tail, sep)
  {
    assert ([head] + tail)[1..] == tail;
  }

  /** The first piece of a split is the text before the first separator,
      and the second is the text up to the next separator, if any. */
  lemma SplitFirstTwo(s: string, sep: string)
    requires |sep| > 0 && Contains(s, sep)
    ensures var parts := Split(s, sep);
            var i := Find(s, sep).value;
            var rest := s[i + |sep|..];
            && parts[0] == s[..i]
            && parts[1] == (if Contains(rest, sep) then rest[..Find(rest, sep).value] else rest)
            && !Contains(parts[1], sep)
  {
    var i := Find(s, sep).value;
    var rest := s[i + |sep|..];
    SplitAtFirst(s, sep);
    SplitHead(rest, sep);
  }

  /** The first piece of a split is the text before the first separator,
      or the whole text when there is none. */
  lemma SplitHead(s: string, sep: string)
    requires |sep| > 0
    ensures Split(s, sep)[0] == if Contains(s, sep) then s[..Find(s, sep).value] else s
  {
  }

  // ---------------------------------------------------------------------
  // Replace
  // ---------------------------------------------------------------------

  /** `string.Replace(p, r)`: every non-overlapping occurrence of `p`,
      scanning from the left, is replaced by `r`. .NET throws on an empty
      `p`. */
  function Replace(s: string, p: string, r: string): string
    requires |p| > 0
    decreases |s|
  {
    if |s| == 0 then ""
    else if p <= s then r + Replace(s[|p|..], p, r)
    else [s[0]] + Replace(s[1..], p, r)
  }

  /** Replacing a pattern by itself changes nothing. */
  lemma {:induction false} ReplaceWithSelf(s: string, p: string)
    requires |p| > 0
    ensures Replace(s, p, p) == s
    decreases |s|
  {
    if |s| == 0 {
    } else if p <= s {
      ReplaceWithSelf(s[|p|..], p);
      assert s == p + s[|p|..];
    } else {
      ReplaceWithSelf(s[1..], p);
      assert s == [s[0]] + s[1..];
    }
  }

  /** A string that does not contain the pattern is left as it is. */
  lemma {:induction false} ReplaceAbsent(s: string, p: string, r: string)
    requires |p| > 0 && !Contains(s, p)
    ensures Replace(s, p, r) == s
    decreases |s|
  {
    if |s| == 0 {
    } else {
      assert !(p <= s);
      assert !Contains(s[1..], p);
      ReplaceAbsent(s[1..], p, r);
      assert s == [s[0]] + s[1..];
    }
  }

  /** Removing every occurrence of a pattern that occurs shortens the
      string. */
  lemma {:induction false} RemoveShortens(s: string, p: string)
    requires |p| > 0
    ensures |Replace(s, p, "")| <= |s|
    ensures Contains(s, p) ==> |Replace(s, p, "")| < |s|
    decreases |s|
  {
    if |s| == 0 {
    } else if p <= s {
      RemoveShortens(s[|p|..], p);
    } else {
      RemoveShortens(s[1..], p);
      if Contains(s, p) {
        var j := Find(s, p).value;
        assert j > 0;
        assert s[1..][j - 1..] == s[j..];
        ContainsAt(s[1..], p, j - 1);
      }
    }
  }

  // ---------------------------------------------------------------------
  // Integers as decimal text
  // ---------------------------------------------------------------------

  predicate IsDigit(c: char) {
    '0' <= c <= '9'
  }

  predicate AllDigits(s: string) {
    forall i :: 0 <= i < |s| ==> IsDigit(s[i])
  }

  function DigitChar(d: nat): (c: char)
    requires d < 10
    ensures IsDigit(c)
  {
    (d + '0' as int) as char
  }

  function DigitValue(c: char): (d: nat)
    requires IsDigit(c)
    ensures d < 10 && DigitChar(d) == c
  {
    (c as int - '0' as int)
  }

  /** `int.ToString()` for non-negative numbers: decimal, no leading zero. */
  function NatToString(n: nat): (r: string)
    ensures |r| >= 1 && AllDigits(r)
    ensures n >= 10 <==> |r| >= 2
    ensures r[0] == '0' <==> n == 0
    decreases n
  {
    if n < 10 then [DigitChar(n)]
    else NatToString(n / 10) + [DigitChar(n % 10)]
  }

  /** `int.ToString()`: a minus sign before the digits of a negative
      number. */
  function IntToString(n: int): (r: string)
    ensures |r| >= 1
    ensures n >= 0 ==> r == NatToString(n)
    ensures n < 0 ==> r[0] == '-' && r[1..] == NatToString(-n)
  {
    if n >= 0 then NatToString(n) else "-" + NatToString(-n)
  }

  /** `int.Parse` on a string of decimal digits. */
  function ParseDigits(s: string): nat
    requires AllDigits(s)
    decreases |s|
  {
    if |s| == 0 then 0
    else ParseDigits(s[..|s| - 1]) * 10 + DigitValue(s[|s| - 1])
  }

  /** Formatting then parsing a number gives the number back. */
  lemma {:induction false} ParseNatToString(n: nat)
    ensures ParseDigits(NatToString(n)) == n
    decreases n
  {
    var r := NatToString(n);
    if n >= 10 {
      ParseNatToString(n / 10);
      assert r[..|r| - 1] == NatToString(n / 10);
    }
  }
}

=== FILE: wrappers.dfy ===
/** The nullable values of the bot (`int?`, `DateTime?`, a `string` that may be
    null) are modelled as `Option`. */
module Wrappers {

  datatype Option<+T> = None | Some(value: T) {

    /** Returns the value in Some, or `default` for None (C#'s `??`). */
    function GetOr(default: T): T {
      match this
      case Some(v) => v
      case None => default
    }
  }
}
